=== FILE: README.md ===
# NEXTOUCH in Dafny

NEXTOUCH turns a phone into a touchpad and keyboard for a Windows desktop. The phone scans a QR code that the desktop shows. The code holds the desktop's addresses, port and session token. The phone then opens a WebSocket to the desktop relay and authenticates with the token. After that it streams gesture and key messages. The relay smooths cursor motion and writes one-line text commands to a native bridge process. The bridge turns each line into mouse and keyboard events. Around this relay sit:

- a seven-day trial on the desktop, kept in the registry with a config file as backup;
- a seven-day trial and a fourteen-day licence status on the phone;
- a licence web service that issues `NXTH-XXXX-XXXX-XXXX` keys after a checkout and binds each key to one machine;
- the tray popup, which formats and submits a key.

Each core source file is one Dafny module:

| module | models |
|---|---|
| `BridgeProtocol` (bridge_protocol.dfy) | desktop/src/native/InputController.cs: line splitting, `int.Parse`, the command switch, the read loop |
| `MouseControl` (mouse_control.dfy) | desktop/src/main/mouseControl.ts: the motion-smoothing engine, the line encoders, the bridge writer, as a class |
| `RelayContract` (relay_contract.dfy) | the agreement between the lines mouseControl.ts writes and the lines InputController.cs decodes |
| `RelayServer` (relay_server.dfy) | desktop/src/main/server.ts: address discovery, the connection info, the per-socket handler as a class |
| `P2PClient` (p2p_client.dfy) | mobile/services/P2PClient.ts: the address resolver and reconnection logic, as a state machine plus a class |
| `Pairing` (pairing.dfy) | mobile/app/index.tsx: the QR payload handler |
| `Touchpad` (touchpad.dfy) | mobile/app/touchpad.tsx: tap counting, drag, pan, scroll, shift and caps lock, backspace repeat |
| `EndToEnd` (end_to_end.dfy) | the path of a phone request through the relay to the bridge |
| `DesktopLicense` (desktop_license.dfy) | desktop/src/main/licenseManager.ts: key format, trial data, expiry, online validation |
| `LicenseServer` (license_server.dfy) | website/backend/server.js: key generation, rate limiting, webhook, license lookup and validation |
| `MobileTrial` (mobile_trial.dfy) | mobile/services/TrialManager.ts |
| `MobileLicense` (mobile_license.dfy) | mobile/services/LicenseManager.ts |
| `Tray` (tray.dfy) | desktop/src/main/tray.ts: the key field formatter, activation, popup position |
| `Text`, `Wrappers` | the JavaScript string and number primitives the code relies on (`toUpperCase`, `trim`, `parseInt`, `${n}`, `x \|\| d`), and `Option` |

Code that updates state in place is modelled as classes whose methods are proved against specification functions:

- the mouse-control module state;
- the relay's socket handler;
- the phone client;
- the pairing and touchpad screens;
- the trial and licence stores;
- the rate limiter and licence table.

Loops are methods with invariants:

- the bridge read loop;
- the interface walk;
- the key generator;
- the click timer;
- the license lookup;
- the key field formatter.

The clock, random draws, SHA-256 digests, the operating system's answers and the network's answers are parameters.

## Model

| member | source | states |
|---|---|---|
| BridgeProtocol.Split | desktop/src/native/InputController.cs:52 | `Split(' ')` yields at least one part; no part contains a space; joining the parts with single spaces gives the line back |
| BridgeProtocol.SplitAfterWord | desktop/src/native/InputController.cs:52-53 | a space-free word followed by a space is the first part, whatever follows |
| BridgeProtocol.ParseInt | desktop/src/native/InputController.cs:61-62 | every value `int.Parse` accepts fits in 32 bits |
| BridgeProtocol.ParseIntToString | desktop/src/native/InputController.cs:61-62 | a rendered integer parses back to itself exactly when it fits in 32 bits, and fails otherwise |
| BridgeProtocol.ProcessCommand | desktop/src/native/InputController.cs:48-124 | a line makes at most two calls; a line without an argument or of an unknown type makes none |
| BridgeProtocol.ReplayAppend | desktop/src/native/InputController.cs:40-45 | lines are handled independently: replaying a stream is replaying its parts in turn |
| BridgeProtocol.ReadLine | desktop/src/native/InputController.cs:41 | `ReadLine` returns the input up to its first line feed or carriage return, holding no line break, and consumes that terminator, "\r\n" as one; the last line needs no terminator |
| BridgeProtocol.Run | desktop/src/native/InputController.cs:37-46 | the read loop makes exactly the calls of the lines `ReadLine` cuts from its input, in order, skipping empty lines |
| MouseControl.Round | desktop/src/main/mouseControl.ts:85-86 | `Math.round` gives the integer within half a unit, halves rounding up |
| MouseControl.StepOf | desktop/src/main/mouseControl.ts:70-76 | a tick takes a third of the buffer, or all of it below one unit |
| MouseControl.Advance | desktop/src/main/mouseControl.ts:71-89 | one axis tick conserves buffer + remainder + emitted move, leaves the remainder in [-0.5, 0.5), and leaves 2/3 of a large buffer or none of a small one |
| MouseControl.TickOf | desktop/src/main/mouseControl.ts:54-94 | the loop stops exactly when both buffers are below 0.1, zeroing them and emitting nothing; otherwise each axis is conserved and its remainder stays in [-0.5, 0.5) |
| MouseControl.AdvanceShrinks | desktop/src/main/mouseControl.ts:71-79 | an axis tick never raises the termination measure and lowers it for a non-zero buffer |
| MouseControl.TickShrinks | desktop/src/main/mouseControl.ts:54-94 | every tick of a running loop lowers the measure, so draining terminates |
| MouseControl.MovedBuffersAreZeroOrLarge | desktop/src/main/mouseControl.ts:71-79 | after a moving tick each buffer is zero or at least 2/3 in magnitude |
| MouseControl.Drain | desktop/src/main/mouseControl.ts:51-95 | over a whole episode the buffers end at zero, and emitted moves + final remainder + discarded residue equal the starting buffer + remainder on each axis |
| MouseControl.DrainWithinOneUnit | desktop/src/main/mouseControl.ts:51-101 | the moves emitted for a buffered delta add up to it within less than one unit |
| MouseControl.HeldMotionDrainsWithinOneUnit | desktop/src/main/mouseControl.ts:51-95 | the buffers the control holds after any interleaving of moves and ticks are emitted, once the loop stops, within less than one unit on each axis |
| MouseControl.SmallMovesAreLost | desktop/src/main/mouseControl.ts:56-63 | moves too small to reach the stop threshold, each followed by a tick, are all discarded: 34 moves of 0.012 buffer 1.02 and emit nothing |
| MouseControl.MouseControl.constructor | desktop/src/main/mouseControl.ts:6-49 | no bridge, nothing written, empty buffers, no interval |
| MouseControl.MouseControl.EnsureProc | desktop/src/main/mouseControl.ts:16-36 | succeeds exactly on Windows when spawning works; a running bridge stays running |
| MouseControl.MouseControl.Send | desktop/src/main/mouseControl.ts:38-42 | the line reaches the bridge's input exactly when the bridge can run |
| MouseControl.MouseControl.Move | desktop/src/main/mouseControl.ts:98-103 | the buffers grow by 2.5 times the delta, the remainders are kept, and the interval runs |
| MouseControl.MouseControl.EnsureLoop | desktop/src/main/mouseControl.ts:51-54 | the interval runs afterwards |
| MouseControl.MouseControl.Tick | desktop/src/main/mouseControl.ts:54-94 | the state becomes the tick's next state, and an `M` line is written exactly when a move is non-zero |
| MouseControl.MouseControl.Click | desktop/src/main/mouseControl.ts:109-113 | one `C` line for the button (left by default), and a queued repeat for a double click |
| MouseControl.MouseControl.RepeatFires | desktop/src/main/mouseControl.ts:112 | the oldest queued repeat is written and dequeued |
| MouseControl.MouseControl.MouseDown | desktop/src/main/mouseControl.ts:115-118 | one `D` line for the button |
| MouseControl.MouseControl.MouseUp | desktop/src/main/mouseControl.ts:120-123 | one `U` line for the button |
| MouseControl.MouseControl.Scroll | desktop/src/main/mouseControl.ts:125-128 | one `S` line with the rounded vertical, then horizontal, amount times 7.5 |
| MouseControl.MouseControl.Type | desktop/src/main/mouseControl.ts:130-132 | one `K` line with the text |
| MouseControl.MouseControl.Perform | desktop/src/main/mouseControl.ts:97-133 | each call changes exactly the state that call owns and nothing else |
| RelayContract.MoveLineDecodes | desktop/src/native/InputController.cs:57-64 | an `M` line moves the cursor by exactly its amounts when both fit in 32 bits, and is dropped otherwise |
| RelayContract.MoveWords | desktop/src/native/InputController.cs:57-64 | an `M` line with two words moves the cursor by their values when both parse, and does nothing otherwise |
| RelayContract.ClickLineDecodes | desktop/src/native/InputController.cs:74-84 | a `C` line presses and releases the named button, never with flag 0 |
| RelayContract.DownLineDecodes | desktop/src/native/InputController.cs:86-94 | a `D` line presses the named button only |
| RelayContract.UpLineDecodes | desktop/src/native/InputController.cs:96-104 | a `U` line releases the named button only |
| RelayContract.ScrollLineDecodes | desktop/src/native/InputController.cs:106-114 | an `S` line gives a vertical then a horizontal wheel event for the non-zero amounts; an out-of-range amount stops the command there |
| RelayContract.ScrollWords | desktop/src/native/InputController.cs:106-114 | an `S` line with two words: nothing when the first does not parse; otherwise its wheel event when non-zero, then the horizontal one when the second parses and is non-zero |
| RelayContract.KeyLineDecodes | desktop/src/native/InputController.cs:116-120 | a `K` line, once read as one line, passes its text whole, spaces included, to `SendKeys` |
| RelayContract.PipeReadsBack | desktop/src/main/mouseControl.ts:38-42 | commands without line breaks, each written with a trailing line feed, are read back by the bridge one per `ReadLine`, unchanged and in order |
| RelayContract.SentLineDecodes | desktop/src/main/mouseControl.ts:38-42 | a command without line breaks, sent alone, is handled by the bridge as exactly that line |
| RelayContract.KeyLineArrives | desktop/src/main/mouseControl.ts:130-132 | a `K` line reaches the bridge as one line if and only if its text holds no line feed or carriage return; then the bridge passes the text whole to `SendKeys` |
| RelayContract.KeyTextWithLineFeedSplits | desktop/src/main/server.ts:108-109 | the keypress text "a\nC L" reaches the bridge as the two lines "K a" and "C L" |
| RelayContract.KeyTextWithLineFeed | desktop/src/main/server.ts:108-109 | the keypress text "a\nC L" passes "a" to `SendKeys` and then presses and releases the left button |
| RelayServer.LocalIPs | desktop/src/main/server.ts:24 | the advertised address list is never empty |
| RelayServer.ExternalOfMembers | desktop/src/main/server.ts:17-21 | an address is collected from an interface exactly when it is listed there as external IPv4 |
| RelayServer.ExternalAddressesMembers | desktop/src/main/server.ts:13-25 | an address is advertised exactly when some interface lists it as external IPv4 |
| RelayServer.ExternalAddressesAppend | desktop/src/main/server.ts:16-23 | interfaces listed earlier contribute their addresses earlier |
| RelayServer.GetAllLocalIPs | desktop/src/main/server.ts:13-25 | the nested loop returns exactly the advertised list: the external IPv4 addresses in order, or the loopback address |
| RelayServer.GetConnectionInfo | desktop/src/main/server.ts:28-35 | the current addresses, port 4724, the token and the host name |
| RelayServer.ButtonOrLeft | desktop/src/main/server.ts:103-106 | an absent or empty button name means `left`; any other is kept |
| RelayServer.Command | desktop/src/main/server.ts:92-111 | a call is made exactly for the six known types, and of the kind the type names |
| RelayServer.PressDefaultsToLeft | desktop/src/main/server.ts:102-107 | `mousedown` and `mouseup` without a button act on the left button |
| RelayServer.Handle | desktop/src/main/server.ts:59-115 | admission needs the right token while the trial runs; nothing is dispatched before it; each unauthenticated frame is answered, each rejection closes; an unparsable frame is only logged |
| RelayServer.Connection.constructor | desktop/src/main/server.ts:55-57 | an unauthenticated socket with no replies |
| RelayServer.Connection.OnMessage | desktop/src/main/server.ts:59-115 | the socket's state, replies and close follow `Handle`, and the dispatched call is performed on the shared control |
| P2PClient.NotesFor | mobile/services/P2PClient.ts:169-172 | `setStatus` calls every listener once, in order, with the status and message |
| P2PClient.CloseSpec | mobile/services/P2PClient.ts:45-48 | closing marks the current socket closed, optionally detaches its close handler, sends a hang-up if it was live, and changes nothing else |
| P2PClient.Prepare | mobile/services/P2PClient.ts:26-48 | before dialing: the timeout is cleared, `connecting` is reported and the previous socket is closed with its handler detached |
| P2PClient.Dialed | mobile/services/P2PClient.ts:50-63 | a new socket to the address with a fresh id, its timeout armed and one dial on the wire |
| P2PClient.Exhausted | mobile/services/P2PClient.ts:33-37 | with every address tried: the error status with its message, no socket opened |
| P2PClient.TryNextSpec | mobile/services/P2PClient.ts:23-123 | `tryNextIp` keeps the configuration, the remembered address and the listeners; without a configuration it does nothing |
| P2PClient.StopAt | mobile/services/P2PClient.ts:43-122 | the first accepted address from a position on: every address before it is refused, and it is accepted unless past the end |
| P2PClient.TryNextStopsAt | mobile/services/P2PClient.ts:23-123 | `tryNextIp` stops exactly at the first accepted address from the current one |
| P2PClient.TryNextSkips | mobile/services/P2PClient.ts:43-122 | the addresses skipped are exactly the refused ones, in order, and the one stopped at is accepted |
| P2PClient.TryNextOutcome | mobile/services/P2PClient.ts:33-63 | where it stops, either one socket is opened to that address after closing the previous one, or none is opened and the error reported |
| P2PClient.TryNextKeepsNotes | mobile/services/P2PClient.ts:33-40 | the listener calls made before `tryNextIp` are kept, in order, at the front |
| P2PClient.TryNextNotes | mobile/services/P2PClient.ts:33-40 | listeners hear every status passed through, ending with the one reached |
| P2PClient.TryNextKeepsInv | mobile/services/P2PClient.ts:23-123 | `tryNextIp` keeps the client invariant |
| P2PClient.Without | mobile/services/P2PClient.ts:164-166 | the filter removes that listener and keeps every other |
| P2PClient.LocalStepKeepsInv | mobile/services/P2PClient.ts:65-166 | the socket, listener and send events keep the invariant |
| P2PClient.StepKeepsInv | mobile/services/P2PClient.ts:4-173 | every event keeps the invariant (socket ids below the counter, an open socket is not closed, connecting implies a configuration) |
| P2PClient.InitialInv | mobile/services/P2PClient.ts:5-12 | the fresh client satisfies the invariant and is disconnected |
| P2PClient.ConnectTriesInOrder | mobile/services/P2PClient.ts:15-21 | `connect` forgets the remembered address and tries the first accepted address of the list, or the single address |
| P2PClient.ExhaustedReportsError | mobile/services/P2PClient.ts:33-37 | with no address left the error is reported and nothing is dialed |
| P2PClient.TimeoutAdvances | mobile/services/P2PClient.ts:53-63 | a timeout while connecting moves on to the next address; otherwise it only clears itself |
| P2PClient.AuthOkPins | mobile/services/P2PClient.ts:73-84 | an accepted authentication remembers that socket's address, reports `connected` and stops every retry |
| P2PClient.AuthErrorStops | mobile/services/P2PClient.ts:85-91 | a rejection reports the error with the server's message and stops the resolver where it is |
| P2PClient.ErrorIsFinal | mobile/services/P2PClient.ts:33-37 | after an error only `connect` or the reconnect interval dials again |
| P2PClient.CloseReconnects | mobile/services/P2PClient.ts:95-112 | dropping an authenticated connection (a non-empty recorded address) reports `disconnected` and starts the reconnect interval; any other close changes only the socket |
| P2PClient.IntervalNarrows | mobile/services/P2PClient.ts:101-108 | the reconnect interval narrows the addresses to the one that worked, when it is recorded and not empty, and tries it |
| P2PClient.ConnectedIpChangesOnlyOnAuth | mobile/services/P2PClient.ts:79 | the remembered address changes only on an accepted authentication or a new `connect` |
| P2PClient.DisconnectResets | mobile/services/P2PClient.ts:125-136 | `disconnect` forgets the configuration, stops the interval, drops the socket and reports `disconnected` |
| P2PClient.SendOnlyWhenOpen | mobile/services/P2PClient.ts:138-142 | a message is transmitted exactly when the socket is open, and nothing else changes |
| P2PClient.SubscribeThenUnsubscribe | mobile/services/P2PClient.ts:160-167 | a new listener hears the current status at once; unsubscribing removes it and no other |
| P2PClient.Client.constructor | mobile/services/P2PClient.ts:5-12 | the initial state |
| P2PClient.Client.SetStatus | mobile/services/P2PClient.ts:169-172 | the state after `setStatus` is the specification's |
| P2PClient.Client.CloseCurrent | mobile/services/P2PClient.ts:45-48 | the state after closing the current socket is the specification's |
| P2PClient.Client.PrepareAttempt | mobile/services/P2PClient.ts:26-48 | the state after the preparation step is the specification's |
| P2PClient.Client.OpenSocket | mobile/services/P2PClient.ts:50-63 | the state after dialing is the specification's |
| P2PClient.Client.TryNextIp | mobile/services/P2PClient.ts:23-123 | the state after `tryNextIp` is the specification's |
| P2PClient.Client.Connect | mobile/services/P2PClient.ts:15-21 | the state after `connect` is the specification's |
| P2PClient.Client.OnOpen | mobile/services/P2PClient.ts:65-68 | the open socket transmits the authentication request |
| P2PClient.Client.OnMessage | mobile/services/P2PClient.ts:70-93 | the state after a received message is the specification's |
| P2PClient.Client.OnClose | mobile/services/P2PClient.ts:95-112 | the state after a close is the specification's |
| P2PClient.Client.OnTimeout | mobile/services/P2PClient.ts:53-63 | the state after the connection timeout is the specification's |
| P2PClient.Client.OnInterval | mobile/services/P2PClient.ts:101-108 | the state after the reconnect interval is the specification's |
| P2PClient.Client.Disconnect | mobile/services/P2PClient.ts:125-136 | the state after `disconnect` is the specification's |
| P2PClient.Client.Send | mobile/services/P2PClient.ts:138-142 | the state after `send` is the specification's |
| P2PClient.Client.OnStatusChange | mobile/services/P2PClient.ts:160-163 | the state after subscribing is the specification's |
| P2PClient.Client.Unsubscribe | mobile/services/P2PClient.ts:164-166 | the state after unsubscribing is the specification's |
| Pairing.AddressList | mobile/app/index.tsx:45 | an address list is taken as it is; a non-empty single address becomes a one-element list; otherwise there is none |
| Pairing.RequestOf | mobile/app/index.tsx:45-46 | a connection request exists exactly when there are addresses, a non-zero port and a non-empty token |
| Pairing.AdvertisedPayloadConnects | mobile/app/index.tsx:40-50 | the payload the desktop advertises is accepted as it stands, and the phone then dials the first advertised address |
| Pairing.ConnectScreen.constructor | mobile/app/index.tsx:18 | nothing scanned yet |
| Pairing.ConnectScreen.HandleScan | mobile/app/index.tsx:40-52 | after the first acceptable code, scanning connects the client and moves to the touchpad; any other scan changes nothing |
| Touchpad.LeftClicks | mobile/app/touchpad.tsx:105-107 | n left clicks |
| Touchpad.PanDeltas | mobile/app/touchpad.tsx:122-129 | one move per pan update |
| Touchpad.PanDeltasTelescope | mobile/app/touchpad.tsx:116-129 | the moves of one pan add up to its final translation |
| Touchpad.ShiftTap | mobile/app/touchpad.tsx:184-199 | a second tap within 300 ms toggles caps lock and releases shift; a lone tap releases caps lock, or else toggles shift |
| Touchpad.KeyText | mobile/app/touchpad.tsx:203-210 | a single lowercase letter is uppercased under shift or caps lock; anything else is sent as it is |
| Touchpad.TouchpadScreen.constructor | mobile/app/touchpad.tsx:32-39 | no taps, no drag, shift and caps lock off |
| Touchpad.TouchpadScreen.CheckAndStartDrag | mobile/app/touchpad.tsx:65-81 | a touch within 200 ms of a tap drops the pending clicks and presses the left button; otherwise nothing changes |
| Touchpad.TouchpadScreen.EndDrag | mobile/app/touchpad.tsx:83-88 | a drag releases the left button once |
| Touchpad.TouchpadScreen.HandleTap | mobile/app/touchpad.tsx:91-98 | the tap is counted and the click timer restarted |
| Touchpad.TouchpadScreen.ClickTimerFires | mobile/app/touchpad.tsx:99-109 | one left click per counted tap unless a drag began; the count is reset |
| Touchpad.TouchpadScreen.PanStart | mobile/app/touchpad.tsx:116-121 | the translation origin is reset and the drag check runs |
| Touchpad.TouchpadScreen.PanUpdate | mobile/app/touchpad.tsx:122-129 | a move by the change of translation since the previous update |
| Touchpad.TouchpadScreen.ScrollStart | mobile/app/touchpad.tsx:158-162 | the scroll origin is reset |
| Touchpad.TouchpadScreen.ScrollUpdate | mobile/app/touchpad.tsx:163-170 | a scroll by the change of translation |
| Touchpad.TouchpadScreen.TwoFingerTap | mobile/app/touchpad.tsx:144-150 | a right click |
| Touchpad.TouchpadScreen.ShiftPress | mobile/app/touchpad.tsx:184-199 | shift and caps lock become `ShiftTap`'s result |
| Touchpad.TouchpadScreen.SendKey | mobile/app/touchpad.tsx:203-210 | the key's text is sent to be typed, and a one-shot shift is released after a letter |
| Touchpad.TouchpadScreen.BackspacePressIn | mobile/app/touchpad.tsx:216-226 | one backspace now and the hold timer armed |
| Touchpad.TouchpadScreen.HoldTimerFires | mobile/app/touchpad.tsx:221-225 | the repeat starts |
| Touchpad.TouchpadScreen.RepeatFires | mobile/app/touchpad.tsx:222-224 | one more backspace |
| Touchpad.TouchpadScreen.BackspacePressOut | mobile/app/touchpad.tsx:228-237 | both the hold timer and the repeat are stopped |
| EndToEnd.FrameOf | mobile/services/P2PClient.ts:138-142 | the object a message sends carries its type, and the token for an authentication request |
| EndToEnd.ScreenRequestsDispatch | desktop/src/main/server.ts:92-111 | every request the touchpad builds makes the mouse-control call it means, with the same deltas, button or text |
| EndToEnd.AuthRequestAdmits | desktop/src/main/server.ts:65-87 | the client's authentication request is admitted exactly with the server's token while the trial runs, and rejected with a close otherwise |
| EndToEnd.ClickReachesBridge | desktop/src/main/mouseControl.ts:109-113 | a tap ends, once written to the bridge's input and read back, as the press and release of the same button |
| EndToEnd.KeyReachesBridge | desktop/src/main/mouseControl.ts:130-132 | a key of the phone's keyboard, written to the bridge's input and read back, is passed whole to `SendKeys` |
| DesktopLicense.KeyFromGroups | desktop/src/main/licenseManager.ts:264-267 | any three groups of [A-Z0-9]{4} behind `NXTH-` form a valid key that is its own uppercase form |
| DesktopLicense.PatternHasGroups | desktop/src/main/licenseManager.ts:264-267 | every text matching the pattern is `NXTH-` and three such groups |
| DesktopLicense.KeyFormatIgnoresCase | desktop/src/main/licenseManager.ts:265-266 | a key and its uppercase form are judged alike |
| DesktopLicense.FreshInstallStartsTrial | desktop/src/main/licenseManager.ts:135-144 | with nothing stored, an untampered trial starts now and is written to the registry |
| DesktopLicense.ForeignHashTampers | desktop/src/main/licenseManager.ts:110-120 | the registry's first run wins, and a stored hash other than this machine's marks tampering |
| DesktopLicense.MissingHashIsTrusted | desktop/src/main/licenseManager.ts:110-150 | without a stored hash only the clock can mark tampering |
| DesktopLicense.ClockBackTampers | desktop/src/main/licenseManager.ts:146-150 | a clock more than a minute behind the last-seen time marks tampering; the data carries now as last seen |
| DesktopLicense.NextRunAgrees | desktop/src/main/licenseManager.ts:133-158 | what one run writes, the next reads back: the first run survives, and an untampered trial stays so unless the clock goes back |
| DesktopLicense.ExpiryIsFinal | desktop/src/main/licenseManager.ts:164-176 | expiry is final, and exactly seven days is not yet expired |
| DesktopLicense.UnreadableInstallTimeNeverExpires | desktop/src/main/licenseManager.ts:110-120 | an unreadable registry first run, with no hash and no last-seen, gives a trial that never expires |
| DesktopLicense.DesktopStore.constructor | desktop/src/main/licenseManager.ts:30-31 | the given registry, config file and licence |
| DesktopLicense.DesktopStore.GetTrialData | desktop/src/main/licenseManager.ts:88-162 | the branch-by-branch body returns the trial data, updates the registry and saves the config file as specified |
| DesktopLicense.DesktopStore.IsTrialExpired | desktop/src/main/licenseManager.ts:164-176 | a Pro licence never expires and leaves the store alone; otherwise tampering or more than seven days expires |
| DesktopLicense.DesktopStore.ValidateLicenseOnline | desktop/src/main/licenseManager.ts:226-254 | valid exactly for a valid reply, which saves a Pro licence; each failure has the source's message and changes nothing |
| LicenseServer.Chars | website/backend/server.js:34-44 | one alphabet character per draw |
| LicenseServer.GenerateLicenseKey | website/backend/server.js:34-44 | the nested loops build the prefix and three dash-led groups of drawn characters |
| LicenseServer.AlphabetHasKeyChars | website/backend/server.js:35 | the alphabet holds only [A-Z0-9] without I, O, 0 and 1 |
| LicenseServer.CharsAreKeyChars | website/backend/server.js:38-40 | every drawn character is such a character |
| LicenseServer.KeyOfGroups | website/backend/server.js:36-43 | the key is `NXTH-` and three groups of four drawn characters |
| LicenseServer.GeneratedKeyIsWellFormed | website/backend/server.js:34-44 | every generated key has 19 characters, is its own uppercase form, passes the desktop's format check and avoids look-alike characters |
| LicenseServer.Recent | website/backend/server.js:67 | the filter keeps exactly the timestamps less than a minute old |
| LicenseServer.AdmitRecords | website/backend/server.js:62-78 | a refused request is not recorded; an admitted one is recorded after the recent ones |
| LicenseServer.AdmitKeepsBound | website/backend/server.js:62-78 | no address ever has more than 30 timestamps on record |
| LicenseServer.FullWindowRefuses | website/backend/server.js:69-71 | with 30 requests in the last minute the next is refused |
| LicenseServer.KeepAllRecent | website/backend/server.js:67 | the filter keeps a list that is all recent unchanged |
| LicenseServer.RateLimiter.constructor | website/backend/server.js:61 | an empty table |
| LicenseServer.RateLimiter.RateLimit | website/backend/server.js:62-78 | the answer and the new table are the limiter's decision |
| LicenseServer.NewLicense | website/backend/server.js:124-131 | a new entry is unused, unbound, with the session id and the email or `unknown` |
| LicenseServer.ValidationRules | website/backend/server.js:157-182 | valid exactly for a present key and machine id naming an entry that is unused or bound to that machine; each failure has its message |
| LicenseServer.BindingIsExclusive | website/backend/server.js:171-181 | once bound, the key is refused to every other machine |
| LicenseServer.ValidationIgnoresCase | website/backend/server.js:164 | a key and its uppercase form get the same answer |
| LicenseServer.LicenseStore.constructor | website/backend/server.js:14-24 | an empty table |
| LicenseServer.LicenseStore.Put | website/backend/server.js:121 | a new key is appended to the key order; an existing key keeps its place |
| LicenseServer.LicenseStore.Webhook | website/backend/server.js:106-137 | a bad signature is 400; a completed checkout adds a fresh unused key, appended to the key order unless already present; the answer is otherwise 200 |
| LicenseServer.LicenseStore.GetLicense | website/backend/server.js:140-154 | not found exactly when no entry has the session; otherwise the first matching entry in key order |
| LicenseServer.LicenseStore.ValidateLicense | website/backend/server.js:157-182 | the reply and the new table are the validation's |
| LicenseServer.NewKeyActivates | website/backend/server.js:121-181 | a key the webhook hands out activates on the first machine that presents it |
| MobileTrial.CeilDiv | mobile/services/TrialManager.ts:125 | `Math.ceil` of a quotient |
| MobileTrial.DaysRemaining | mobile/services/TrialManager.ts:120-126 | the whole days left, rounded up, never negative, zero exactly from seven days on |
| MobileTrial.OsInstallTimeWins | mobile/services/TrialManager.ts:64-74 | the system's install time decides the first run; a foreign stored hash is tampering, a missing one is not |
| MobileTrial.FallbackTrustsStoredHash | mobile/services/TrialManager.ts:75-85 | without a system install time the stored hash is never checked; with nothing stored the trial starts now |
| MobileTrial.ClockBackTampers | mobile/services/TrialManager.ts:88-91 | a clock more than a minute behind marks tampering; the data carries now as last seen |
| MobileTrial.NextRunForgetsTampering | mobile/services/TrialManager.ts:94-99 | the stored first run survives, but a tampered flag is forgotten on the next read |
| MobileTrial.DaysAgreeWithExpiry | mobile/services/TrialManager.ts:105-126 | the days shown and the expiry decision agree, and at most seven days are shown |
| MobileTrial.TrialStore.constructor | mobile/services/TrialManager.ts:6 | the given stored record |
| MobileTrial.TrialStore.GetTrialData | mobile/services/TrialManager.ts:44-100 | the branch-by-branch body returns the trial data and stores it |
| MobileTrial.TrialStore.IsTrialExpired | mobile/services/TrialManager.ts:105-115 | expired exactly when tampered or more than seven days old |
| MobileTrial.TrialStore.GetTrialDaysRemaining | mobile/services/TrialManager.ts:120-126 | the days remaining of the returned data; tampering plays no part |
| MobileLicense.ValidatedInstallDate | mobile/services/LicenseManager.ts:54-69 | no date when none is stored; the epoch when the hash does not match; the parsed date otherwise |
| MobileLicense.DaysBetween | mobile/services/LicenseManager.ts:74-84 | the whole days elapsed, floored; NaN stays NaN |
| MobileLicense.StatusOf | mobile/services/LicenseManager.ts:104-119 | active exactly below fourteen days; days left never negative and zero exactly when inactive; ads exactly when neither Pro nor active |
| MobileLicense.EditedInstallDateEndsTrial | mobile/services/LicenseManager.ts:54-69 | an edited install date ends the trial |
| MobileLicense.RecordedDateValidates | mobile/services/LicenseManager.ts:41-69 | the recorded install date validates as itself on every later read |
| MobileLicense.FirstDayStatus | mobile/services/LicenseManager.ts:104-119 | on the first day the trial is active with fourteen days left and no ads |
| MobileLicense.Storage.constructor | mobile/services/LicenseManager.ts:5-7 | the given items |
| MobileLicense.Storage.RecordInstallDate | mobile/services/LicenseManager.ts:41-49 | the date and its hash are written only when no date is stored |
| MobileLicense.Storage.GetDaysSinceInstall | mobile/services/LicenseManager.ts:74-84 | with no date it records one and answers 0; otherwise the days since the validated date |
| MobileLicense.Storage.SetProSession | mobile/services/LicenseManager.ts:89-91 | the Pro flag reads back as set |
| MobileLicense.Storage.GetLicenseStatus | mobile/services/LicenseManager.ts:104-119 | the status of the stored Pro flag and the days since install |
| Tray.KeepKeyChars | desktop/src/main/tray.ts:248 | only characters of [A-Z0-9] are kept |
| Tray.KeepKeyCharsAppend | desktop/src/main/tray.ts:248 | the filter works character by character |
| Tray.KeepKeyCharsKeeps | desktop/src/main/tray.ts:248 | text of [A-Z0-9] is kept whole |
| Tray.Dashed | desktop/src/main/tray.ts:249-253 | grouping adds one dash per full group of four before more characters |
| Tray.DashedAppend | desktop/src/main/tray.ts:250-253 | one more character follows a dash exactly after the 4th, 8th and 12th |
| Tray.OnKeyInput | desktop/src/main/tray.ts:247-255 | the loop rebuilds exactly the formatted key |
| Tray.DashedKeys | desktop/src/main/tray.ts:249-253 | dashes are the only characters grouping adds |
| Tray.FormatKeyShape | desktop/src/main/tray.ts:247-255 | at most 19 characters of [A-Z0-9] and dashes, keeping the first 16 key characters |
| Tray.FormatKeyIdempotent | desktop/src/main/tray.ts:247-255 | formatting what the field shows changes nothing |
| Tray.KeyCharsOfKey | desktop/src/main/tray.ts:248 | stripping a valid key leaves the prefix and the three groups |
| Tray.DashedKey | desktop/src/main/tray.ts:249-253 | a prefix and three groups of four are dashed as a key |
| Tray.ValidKeyFormatsToItself | desktop/src/main/tray.ts:247-255 | a key in the valid format is shown as its own uppercase form |
| Tray.PatternFormatsToItself | desktop/src/main/tray.ts:247-255 | text matching the key pattern is left as it is |
| Tray.ActivateClick | desktop/src/main/tray.ts:219-229 | the trimmed field text is sent exactly when it is not empty |
| Tray.ActivateLicense | desktop/src/main/tray.ts:28-35 | the key goes online exactly when its format is valid; otherwise `Invalid key format` |
| Tray.TypedValidKeyGoesOnline | desktop/src/main/tray.ts:28-35 | a valid key typed in any case is sent in uppercase and goes online |
| Tray.ShortTextIsRefused | desktop/src/main/tray.ts:28-32 | text shorter than a key is refused whenever it is sent |
| Tray.ShortKeyIsRefused | desktop/src/main/tray.ts:28-32 | a field with fewer than 16 key characters is refused without going online |
| Tray.RoundHalf | desktop/src/main/tray.ts:82 | `Math.round(n / 2)` rounds halves up |
| Tray.PopupStaysOnScreen | desktop/src/main/tray.ts:78-87 | the popup is centred on the tray icon and clamped to the work area's margin; without tray bounds it sits in the bottom-right corner, a margin away from both edges |
| Text.UpperAppend | desktop/src/main/licenseManager.ts:265 | uppercasing works character by character |
| Text.UpperFixesUpperAlnum | desktop/src/main/licenseManager.ts:265 | text of [A-Z0-9] and dashes is its own uppercase form |
| Text.UpperIdempotent | desktop/src/main/licenseManager.ts:265 | uppercasing twice is uppercasing once |
| Text.Trim | website/backend/server.js:164 | the result is a slice of the input with only white space cut off before and after it, and has no white space left at either end |
| Text.TrimIdempotent | website/backend/server.js:164 | trimming twice is trimming once |
| Text.TrimKeeps | website/backend/server.js:164 | text without white space at either end is left alone |
| Text.JsParseInt | desktop/src/main/licenseManager.ts:112-113 | NaN exactly when no digit follows the white space and sign |
| Text.JsParseIntToString | desktop/src/main/licenseManager.ts:133 | a number stored as text reads back as itself |
| Text.DigitsValueOfNat | desktop/src/main/licenseManager.ts:133 | the decimal rendering of a natural number is digits worth that number |

## Left out

- Transport, timers and the operating system: WebSocket framing, `setTimeout`/`setInterval` scheduling, `spawn`, `SetCursorPos`, `mouse_event` and `SendKeys` are events or recorded calls, not performed.
- `SendKeys.SendWait` key syntax: the bridge hands the text of a `K` line to it unchanged (desktop/src/native/InputController.cs:118-119), and the model stops at that call. `SendWait` reads `+`, `^`, `%` and `~` as Shift, Ctrl, Alt and Enter, and `( )` and `{ }` as grouping and key names. The phone relies on this for `{BACKSPACE}`, `{ENTER}`, `{TAB}` and `{ESC}` (mobile/app/touchpad.tsx:218, 223, 329, 365, 368). As a result, its `(`, `)`, `%`, `^` and `+` keys (mobile/app/touchpad.tsx:346, 354) do not type themselves. An unbalanced parenthesis or brace makes `SendWait` throw, the bridge swallows the exception (desktop/src/native/InputController.cs:123), and nothing is typed.
- Times, random draws (`Math.random` for keys and the session token), SHA-256 digests, `getMachineId`, the system install time and the date parser are parameters.
- Numbers: IEEE doubles are not modelled. Motion and deltas are exact reals; where the licence and trial code reads a number that may be NaN, NaN is an absent value.
- MouseControl.DrainWithinOneUnit: the within-one-unit bound holds per drain episode, not over a whole session. The tick that stops the loop zeroes a buffer below 0.1 without emitting it (desktop/src/main/mouseControl.ts:56-63), so movement split into many small moves is lost without bound (MouseControl.SmallMovesAreLost).
- MouseControl.TickShrinks: holds for real-valued buffers only. A `move` frame without numeric `dx`/`dy` makes the buffers NaN (desktop/src/main/server.ts:94, desktop/src/main/mouseControl.ts:100-101); the stop test then never holds and the loop writes `M NaN NaN` every tick (desktop/src/main/mouseControl.ts:56, 85-93), which the bridge drops as unparsable.
- BridgeProtocol.ProcessCommand: an `MA x y` line always yields `MoveCursorTo(x, y)` with the coordinates as text; the source makes no move when `float.Parse` throws on either (desktop/src/native/InputController.cs:68-69), and its scaling by the screen size is not modelled.
- BridgeProtocol.ProcessCommand: the cursor position after `SetCursorPos` is not tracked, so the 32-bit wrap of `p.X + dx` is not modelled.
- BridgeProtocol.Run: at the end of its input `ReadLine` returns null and the source's loop goes on calling it forever; the model's loop stops there.
- EndToEnd.KeyReachesBridge: stated for keys without a line break, as every key of the phone's keyboard is. Key text holding one, which any client of the relay can send, is split by the bridge into several commands (RelayContract.KeyLineArrives, RelayContract.KeyTextWithLineFeed).
- `moveTo` of mouseControl.ts sends the `MA` line only from callers outside this model; it is left out.
- JSON parsing: frames and stored records are given by the fields the handlers read. Non-string or non-number field values, a `null` config file (a TypeError in `getTrialData`), the precision of `parseInt` on very long digit runs and the exponent form of `String(n)` are not modelled.
- EndToEnd.FrameOf: a numeric field a message does not carry is read as 0 rather than `undefined`; no request the screen builds relies on it.
- The registry is a map of texts: the quoting and output parsing of `reg.exe` and the trim on read are not modelled.
- Persistence: `saveLicenses`, the licence and config files and AsyncStorage are in-memory fields; a failed write is not modelled.
- The Stripe signature check is an input (`signatureOk`). `create-checkout`, `health`, the 404 and error handlers and the Express middleware are not modelled.
- The rate limiter is proved on its own; its composition with the three routes that use it is not modelled.
- The `get-qr` IPC, QR rendering, the `check-pro` and `open-url` IPC, `clearLicense`, `resetTrial` (a development helper) and all UI rendering are left out. This includes the trial banner, alerts, navigation, the tutorial overlay and the status dot.
- The P2P `move`/`click`/`scroll`/`typeText` helpers appear only as the requests they build (`Touchpad.MoveRequest` and the rest). Logging is not modelled.
- Events of a superseded socket: `tryNextIp` and the timeout detach only `onclose` from the socket they replace (mobile/services/P2PClient.ts:46, 57), so an `onopen` or `onmessage` already queued for that socket can still run. The model delivers those events to the current socket only.
- React state updates are applied at once; the batching of `setShift`/`setCapsLock` within one render is not modelled.
- Overlapping backspace presses (a second press-in before the press-out) are not modelled, and neither is the close event of a socket dropped by `disconnect`.

=== FILE: bridge_protocol.dfy ===
/** The native input bridge (desktop/src/native/InputController.cs): a process that reads one
    text command per line and turns it into mouse and keyboard events. The operating-system
    calls are not performed here; each line decodes to the sequence of calls the bridge makes. */
module BridgeProtocol {
  import opened Wrappers
  import opened Text

  // The dwFlags values the bridge passes to mouse_event.
  const LeftDownFlag: int := 0x0002
  const LeftUpFlag: int := 0x0004
  const RightDownFlag: int := 0x0008
  const RightUpFlag: int := 0x0010
  const MiddleDownFlag: int := 0x0020
  const MiddleUpFlag: int := 0x0040
  const WheelFlag: int := 0x0800
  const HWheelFlag: int := 0x1000

  /** One effect of the bridge on the operating system. */
  datatype Action =
    | MoveCursorBy(dx: int, dy: int)       // SetCursorPos(current + (dx, dy))
    | MoveCursorTo(x: string, y: string)   // absolute move; the coordinates stay unparsed
    | MouseEvent(flags: int, data: int)    // mouse_event(flags, 0, 0, data, 0)
    | SendKeys(text: string)               // SendKeys.SendWait(text)

  /** The parts joined back with single spaces. */
  function Join(parts: seq<string>): string
    requires |parts| >= 1
  {
    if |parts| == 1 then parts[0] else parts[0] + " " + Join(parts[1..])
  }

  /** `s.Split(' ')`: every space separates two parts and empty parts are kept. */
  function Split(s: string): (parts: seq<string>)
    ensures |parts| >= 1
    ensures forall i :: 0 <= i < |parts| ==> ' ' !in parts[i]
    ensures Join(parts) == s
  {
    if s == [] then [""]
    else if s[0] == ' ' then
      assert s == " " + s[1..];
      [""] + Split(s[1..])
    else
      var rest := Split(s[1..]);
      var parts := [[s[0]] + rest[0]] + rest[1..];
      assert s == [s[0]] + s[1..];
      assert parts[1..] == rest[1..];
      parts
  }

  lemma {:induction false} SplitWord(w: string)
    requires ' ' !in w
    ensures Split(w) == [w]
  {
    if w != [] {
      SplitWord(w[1..]);
      assert [w[0]] + w[1..] == w;
    }
  }

  /** A word followed by a space is the first part, whatever follows. */
  lemma {:induction false} SplitAfterWord(w: string, rest: string)
    requires ' ' !in w
    ensures Split(w + " " + rest) == [w] + Split(rest)
  {
    if w == [] {
      assert (w + " " + rest)[1..] == rest;
    } else {
      assert (w + " " + rest)[1..] == w[1..] + " " + rest;
      SplitAfterWord(w[1..], rest);
      assert [w[0]] + w[1..] == w;
    }
  }

  /** The white space that .NET number parsing skips around a number. */
  predicate IsNetWhite(c: char) { '\t' <= c <= '\r' || c == ' ' }

  function StripNetWhite(s: string): string {
    if s != [] && IsNetWhite(s[0]) then StripNetWhite(s[1..])
    else if s != [] && IsNetWhite(s[|s| - 1]) then StripNetWhite(s[..|s| - 1])
    else s
  }

  const Int32Min: int := -0x8000_0000
  const Int32Max: int := 0x7FFF_FFFF

  predicate InInt32(n: int) { Int32Min <= n <= Int32Max }

  /** `int.Parse(tok)`: optional white space, an optional sign, at least one decimal digit,
      optional white space, and a value that fits in 32 bits. None stands for the
      FormatException or OverflowException it throws otherwise. */
  function ParseInt(tok: string): (r: Option<int>)
    ensures r.Some? ==> InInt32(r.value)
  {
    var t := StripNetWhite(tok);
    var signed := |t| > 0 && (t[0] == '-' || t[0] == '+');
    var digits := if signed then t[1..] else t;
    if digits == [] || !AllDigits(digits) then None
    else
      var v: int := if signed && t[0] == '-' then -(DigitsValue(digits) as int) else DigitsValue(digits);
      if InInt32(v) then Some(v) else None
  }

  /** A rendered integer parses back to itself exactly when it fits in 32 bits. */
  lemma ParseIntToString(n: int)
    ensures ParseInt(IntToString(n)) == if InInt32(n) then Some(n) else None
  {
    var s := IntToString(n);
    assert StripNetWhite(s) == s;
    if n < 0 {
      DigitsValueOfNat(-n);
      assert s[1..] == NatToString(-n);
    } else {
      DigitsValueOfNat(n);
    }
  }

  /** The mouse_event flags of a button letter for a full click: down, then up.
      An unknown letter gives flag 0 twice. */
  function ClickFlags(letter: string): (int, int) {
    if letter == "L" then (LeftDownFlag, LeftUpFlag)
    else if letter == "R" then (RightDownFlag, RightUpFlag)
    else if letter == "M" then (MiddleDownFlag, MiddleUpFlag)
    else (0, 0)
  }

  /** The command types the bridge's switch knows. */
  const CommandTypes: set<string> := {"M", "MA", "C", "D", "U", "S", "K"}

  /** `ProcessCommand(cmd)`: the calls the bridge makes for one line. An exception
      (a number that does not parse) ends the command; the calls made before it stay made. */
  function ProcessCommand(cmd: string): (actions: seq<Action>)
    ensures |actions| <= 2
    // a line without an argument, or of an unknown type, does nothing
    ensures |Split(cmd)| < 2 ==> actions == []
    ensures Split(cmd)[0] !in CommandTypes ==> actions == []
  {
    var parts := Split(cmd);
    var kind := parts[0];
    if kind == "M" then
      if |parts| < 3 then []
      else
        match (ParseInt(parts[1]), ParseInt(parts[2]))
        case (Some(dx), Some(dy)) => [MoveCursorBy(dx, dy)]
        case _ => []
    else if kind == "MA" then
      if |parts| < 3 then [] else [MoveCursorTo(parts[1], parts[2])]
    else if kind == "C" then
      if |parts| < 2 then []
      else
        var flags := ClickFlags(parts[1]);
        [MouseEvent(flags.0, 0), MouseEvent(flags.1, 0)]
    else if kind == "D" then
      if |parts| < 2 then [] else [MouseEvent(ClickFlags(parts[1]).0, 0)]
    else if kind == "U" then
      if |parts| < 2 then [] else [MouseEvent(ClickFlags(parts[1]).1, 0)]
    else if kind == "S" then
      if |parts| < 2 then []
      else
        match ParseInt(parts[1])
        case None => []
        case Some(scrollY) =>
          var vertical := if scrollY != 0 then [MouseEvent(WheelFlag, scrollY)] else [];
          if |parts| > 2 then
            match ParseInt(parts[2])
            case None => vertical
            case Some(scrollX) =>
              vertical + (if scrollX != 0 then [MouseEvent(HWheelFlag, scrollX)] else [])
          else vertical
    else if kind == "K" then
      if |parts| < 2 then []
      else
        assert cmd == parts[0] + " " + Join(parts[1..]);
        [SendKeys(cmd[2..])]
    else []
  }

  /** What the read loop of `Main` does with one line: empty lines are skipped. */
  function ProcessLine(line: string): seq<Action> {
    if line == "" then [] else ProcessCommand(line)
  }

  /** The calls made for a stream of lines, line by line. */
  function Replay(lines: seq<string>): seq<Action> {
    if lines == [] then [] else ProcessLine(lines[0]) + Replay(lines[1..])
  }

  /** No line disturbs the handling of the lines after it: replaying a stream is
      replaying its parts one after the other. */
  lemma {:induction false} ReplayAppend(a: seq<string>, b: seq<string>)
    ensures Replay(a + b) == Replay(a) + Replay(b)
  {
    if a == [] {
      assert a + b == b;
    } else {
      assert (a + b)[0] == a[0] && (a + b)[1..] == a[1..] + b;
      assert Replay(a + b) == ProcessLine(a[0]) + Replay(a[1..] + b);
      ReplayAppend(a[1..], b);
      ConcatAssoc(ProcessLine(a[0]), Replay(a[1..]), Replay(b));
    }
  }

  /** A line break for `Console.ReadLine`: a line feed or a carriage return. */
  predicate IsLineBreak(c: char) { c == '\n' || c == '\r' }

  /** Text that `Console.ReadLine` returns whole: it holds no line break. */
  predicate OneLine(s: string) { '\n' !in s && '\r' !in s }

  /** The position of the first line break of `s`, or its length when it has none. */
  function LineEnd(s: string): (i: nat)
    ensures i <= |s|
    ensures forall j :: 0 <= j < i ==> !IsLineBreak(s[j])
    ensures i < |s| ==> IsLineBreak(s[i])
  {
    if s == [] || IsLineBreak(s[0]) then 0 else 1 + LineEnd(s[1..])
  }

  /** `Console.ReadLine` on input that is not exhausted: the text before the first "\n", "\r"
      or "\r\n", and what follows that terminator. The last line of the input needs none. */
  function ReadLine(input: string): (r: (string, string))
    requires input != []
    ensures OneLine(r.0)
    ensures |r.0| <= |input| && r.0 == input[..|r.0|]
    // the line is cut at a line break, or at the end of the input
    ensures |r.0| == |input| || IsLineBreak(input[|r.0|])
    ensures |r.0| == |input| ==> r.1 == []
    ensures |r.1| < |input| && r.1 == input[|input| - |r.1|..]
    // one character is consumed as the terminator, or two for "\r\n"
    ensures |r.0| < |input| ==>
              |input| - |r.0| - |r.1|
              == if input[|r.0|] == '\r' && |r.0| + 1 < |input| && input[|r.0| + 1] == '\n' then 2 else 1
  {
    var i := LineEnd(input);
    if i == |input| then (input, [])
    else if input[i] == '\r' && i + 1 < |input| && input[i + 1] == '\n' then (input[..i], input[i + 2..])
    else (input[..i], input[i + 1..])
  }

  /** The lines that successive `Console.ReadLine` calls return, until it returns null. */
  function ReadLines(input: string): seq<string>
    decreases |input|
  {
    if input == [] then []
    else
      var r := ReadLine(input);
      [r.0] + ReadLines(r.1)
  }

  /** Reading the first line off the input and handling it, then the rest. */
  lemma ReplayFirstLine(input: string)
    requires input != []
    ensures Replay(ReadLines(input))
         == ProcessLine(ReadLine(input).0) + Replay(ReadLines(ReadLine(input).1))
  {
    var r := ReadLine(input);
    assert ReadLines(input) == [r.0] + ReadLines(r.1);
    assert ([r.0] + ReadLines(r.1))[1..] == ReadLines(r.1);
  }

  /** `Main`'s read loop over its standard input: each line read is handled as it arrives. */
  method Run(input: string) returns (actions: seq<Action>)
    ensures actions == Replay(ReadLines(input))
  {
    actions := [];
    var rest := input;
    while rest != []
      invariant actions + Replay(ReadLines(rest)) == Replay(ReadLines(input))
      decreases |rest|
    {
      var r := ReadLine(rest);
      var line, next := r.0, r.1;
      ReplayFirstLine(rest);
      ghost var before := actions;
      if line != "" {
        actions := actions + ProcessCommand(line);
      }
      assert actions == before + ProcessLine(line);
      ConcatAssoc(before, ProcessLine(line), Replay(ReadLines(next)));
      rest := next;
    }
  }
}

=== FILE: desktop_license.dfy ===
/** The desktop's licence and trial bookkeeping (desktop/src/main/licenseManager.ts): the key
    format check, the seven-day trial kept in the registry with the config file as a backup,
    and the Pro flag read from the saved licence file. The registry, the two files, the clock
    and the SHA-256 digest are parameters or fields; reg.exe, fs and https are not modelled. */
module DesktopLicense {
  import opened Wrappers
  import opened Text

  // ---------------------------------------------------------------------------------------
  // Key format

  /** Four characters of [A-Z0-9]. */
  predicate IsKeyGroup(g: string) {
    |g| == 4 && forall i :: 0 <= i < 4 ==> IsUpperAlnum(g[i])
  }

  /** The pattern ^NXTH-[A-Z0-9]{4}-[A-Z0-9]{4}-[A-Z0-9]{4}$, position by position. */
  predicate MatchesKeyPattern(u: string) {
    |u| == 19 && u[..5] == "NXTH-" && u[9] == '-' && u[14] == '-'
    && IsKeyGroup(u[5..9]) && IsKeyGroup(u[10..14]) && IsKeyGroup(u[15..])
  }

  /** `isValidKeyFormat`: the pattern is tested on the uppercase form of the key. */
  predicate IsValidKeyFormat(key: string) {
    MatchesKeyPattern(Upper(key))
  }

  /** Any three groups behind the `NXTH` prefix make a valid key, already in uppercase. */
  lemma KeyFromGroups(g1: string, g2: string, g3: string)
    requires IsKeyGroup(g1) && IsKeyGroup(g2) && IsKeyGroup(g3)
    ensures var key := "NXTH-" + g1 + "-" + g2 + "-" + g3;
      Upper(key) == key && IsValidKeyFormat(key)
  {
    var key := "NXTH-" + g1 + "-" + g2 + "-" + g3;
    assert key[..5] == "NXTH-";
    assert key[5..9] == g1 && key[10..14] == g2 && key[15..] == g3;
    assert forall i :: 0 <= i < |key| ==> IsUpperAlnum(key[i]) || key[i] == '-' by {
      forall i | 0 <= i < |key|
        ensures IsUpperAlnum(key[i]) || key[i] == '-'
      {
        if 5 <= i < 9 {
          assert key[i] == g1[i - 5];
        } else if 10 <= i < 14 {
          assert key[i] == g2[i - 10];
        } else if 15 <= i {
          assert key[i] == g3[i - 15];
        }
      }
    }
    UpperFixesUpperAlnum(key);
  }

  /** And every text matching the pattern is three groups behind the `NXTH` prefix. */
  lemma PatternHasGroups(u: string)
    requires MatchesKeyPattern(u)
    ensures u == "NXTH-" + u[5..9] + "-" + u[10..14] + "-" + u[15..]
      && IsKeyGroup(u[5..9]) && IsKeyGroup(u[10..14]) && IsKeyGroup(u[15..])
  {
    assert u == u[..5] + u[5..9] + [u[9]] + u[10..14] + [u[14]] + u[15..];
  }

  /** The check does not depend on case: a key and its uppercase form are judged alike. */
  lemma KeyFormatIgnoresCase(key: string)
    ensures IsValidKeyFormat(Upper(key)) == IsValidKeyFormat(key)
  {
    UpperIdempotent(key);
  }

  // ---------------------------------------------------------------------------------------
  // Trial

  const TrialDuration: int := 7 * 24 * 60 * 60 * 1000
  /** How far the clock may go back before it counts as tampering. */
  const ClockTolerance: int := 60000

  const InstallTimeName: string := "InstallTime"
  const LastSeenName: string := "LastSeen"
  const HashName: string := "Hash"

  /** A number that may be NaN (None). */
  type Num = Option<int>

  /** What `getTrialData` returns and saves. */
  datatype TrialData = TrialData(firstRun: Num, lastSeen: int, machineHash: string, tampered: bool)

  /** The fields of config.json that are read back (None: absent, or null as JSON writes NaN). */
  datatype ConfigFile = ConfigFile(firstRun: Num, lastSeen: Num, machineHash: Option<string>,
                                   tampered: Option<bool>)

  const NoConfig := ConfigFile(None, None, None, None)

  /** license.json as `loadLicense` returns it; `isPro` is None when absent or not a boolean. */
  datatype LicenseFile = LicenseFile(key: string, activatedAt: string, isPro: Option<bool>,
                                     machineId: string)

  /** `readRegistry(name)` as a truth value: the stored text when there is a non-empty one. */
  function RegValue(reg: map<string, string>, name: string): Option<string> {
    if name in reg && reg[name] != "" then Some(reg[name]) else None
  }

  /** `now < lastSeen - 60000`, false when `lastSeen` is NaN. */
  predicate ClockWentBack(now: int, lastSeen: Num) {
    lastSeen.Some? && now < lastSeen.value - ClockTolerance
  }

  /** Where the trial data comes from: the registry, else the config file, else a fresh
      install. */
  datatype Origin = FromRegistry | FromConfig | Fresh

  function OriginOf(reg: map<string, string>, cfg: ConfigFile): Origin {
    if RegValue(reg, InstallTimeName).Some? then FromRegistry
    else if NumOr(cfg.firstRun, None).Some? then FromConfig
    else Fresh
  }

  /** The trial data `getTrialData` returns, given the registry, the config file, the clock
      and `generateTrialHash` (the digest of the machine id and a first-run time). */
  function TrialOf(reg: map<string, string>, cfg: ConfigFile, now: int, hash: Num -> string)
    : TrialData
  {
    match OriginOf(reg, cfg)
    case FromRegistry =>
      var firstRun := JsParseInt(reg[InstallTimeName]);
      var lastSeen := if RegValue(reg, LastSeenName).Some? then JsParseInt(reg[LastSeenName])
                      else Some(now);
      var machineHash := TextOr(RegValue(reg, HashName), hash(firstRun));
      TrialData(firstRun, now, machineHash,
                machineHash != hash(firstRun) || ClockWentBack(now, lastSeen))
    case FromConfig =>
      var firstRun := cfg.firstRun;
      var lastSeen := NumOr(cfg.lastSeen, Some(now));
      var machineHash := TextOr(cfg.machineHash, hash(firstRun));
      TrialData(firstRun, now, machineHash,
                machineHash != hash(firstRun) || ClockWentBack(now, lastSeen))
    case Fresh =>
      TrialData(Some(now), now, hash(Some(now)), false)
  }

  /** The registry after `getTrialData`: the first-run time and hash are migrated or written
      for a fresh install, and `LastSeen` always becomes the current time. */
  function RegistryAfter(reg: map<string, string>, cfg: ConfigFile, now: int,
                         hash: Num -> string): map<string, string>
  {
    var d := TrialOf(reg, cfg, now, hash);
    var written := if OriginOf(reg, cfg) == FromRegistry then reg
                   else reg[InstallTimeName := IntToString(d.firstRun.value)]
                           [HashName := d.machineHash];
    written[LastSeenName := IntToString(now)]
  }

  /** config.json as `getTrialData` rewrites it. */
  function Saved(d: TrialData): ConfigFile {
    ConfigFile(d.firstRun, Some(d.lastSeen), Some(d.machineHash), Some(d.tampered))
  }

  /** The decision `isTrialExpired` takes on trial data at time `at`: tampering expires at once,
      otherwise more than seven days must have passed (a NaN first run never expires). */
  predicate Expired(d: TrialData, at: int) {
    d.tampered || (d.firstRun.Some? && at - d.firstRun.value > TrialDuration)
  }

  /** A fresh install starts an untampered trial now and writes it to the registry. */
  lemma FreshInstallStartsTrial(reg: map<string, string>, cfg: ConfigFile, now: int,
                                hash: Num -> string)
    requires RegValue(reg, InstallTimeName).None?
    requires cfg.firstRun.None? || cfg.firstRun.value == 0
    ensures var d := TrialOf(reg, cfg, now, hash);
      d == TrialData(Some(now), now, hash(Some(now)), false)
      && RegistryAfter(reg, cfg, now, hash)[InstallTimeName] == IntToString(now)
      && RegistryAfter(reg, cfg, now, hash)[HashName] == hash(Some(now))
  {
  }

  /** The registry wins over the config file, and a stored hash that is not this machine's
      digest of the first-run time marks the trial as tampered. */
  lemma ForeignHashTampers(reg: map<string, string>, cfg: ConfigFile, now: int,
                           hash: Num -> string)
    requires RegValue(reg, InstallTimeName).Some? && RegValue(reg, HashName).Some?
    requires reg[HashName] != hash(JsParseInt(reg[InstallTimeName]))
    ensures TrialOf(reg, cfg, now, hash).firstRun == JsParseInt(reg[InstallTimeName])
    ensures TrialOf(reg, cfg, now, hash).tampered
  {
  }

  /** A missing stored hash is never tampering: it defaults to the expected digest. Only the
      clock can then flag the trial. */
  lemma MissingHashIsTrusted(reg: map<string, string>, cfg: ConfigFile, now: int,
                             hash: Num -> string)
    requires OriginOf(reg, cfg) == FromRegistry ==> RegValue(reg, HashName).None?
    requires OriginOf(reg, cfg) == FromConfig ==> TextOr(cfg.machineHash, "") == ""
    ensures var d := TrialOf(reg, cfg, now, hash);
      d.tampered <==> match OriginOf(reg, cfg)
        case FromRegistry => RegValue(reg, LastSeenName).Some?
                             && ClockWentBack(now, JsParseInt(reg[LastSeenName]))
        case FromConfig => ClockWentBack(now, NumOr(cfg.lastSeen, Some(now)))
        case Fresh => false
  {
  }

  /** A clock more than a minute behind the last recorded time marks the trial as tampered,
      and the returned data always carries the current time as last seen. */
  lemma ClockBackTampers(reg: map<string, string>, cfg: ConfigFile, now: int,
                         hash: Num -> string)
    ensures TrialOf(reg, cfg, now, hash).lastSeen == now
    ensures OriginOf(reg, cfg) == FromRegistry && RegValue(reg, LastSeenName).Some?
            && ClockWentBack(now, JsParseInt(reg[LastSeenName]))
            ==> TrialOf(reg, cfg, now, hash).tampered
    ensures OriginOf(reg, cfg) == FromConfig && ClockWentBack(now, NumOr(cfg.lastSeen, None))
            ==> TrialOf(reg, cfg, now, hash).tampered
  {
  }

  /** What one run writes is what the next run reads: the first-run time survives, and an
      untampered trial stays untampered as long as the clock does not go back by more than the
      tolerance. */
  lemma NextRunAgrees(reg: map<string, string>, cfg: ConfigFile, now: int, later: int,
                      hash: Num -> string)
    ensures var d := TrialOf(reg, cfg, now, hash);
      var d' := TrialOf(RegistryAfter(reg, cfg, now, hash), Saved(d), later, hash);
      && d'.firstRun == d.firstRun
      && (!d.tampered && later >= now - ClockTolerance ==> !d'.tampered)
  {
    var d := TrialOf(reg, cfg, now, hash);
    var reg' := RegistryAfter(reg, cfg, now, hash);
    JsParseIntToString(now);
    assert RegValue(reg', InstallTimeName).Some?;
    assert RegValue(reg', LastSeenName) == Some(IntToString(now));
    if OriginOf(reg, cfg) != FromRegistry {
      JsParseIntToString(d.firstRun.value);
      assert reg'[InstallTimeName] == IntToString(d.firstRun.value);
      assert reg'[HashName] == d.machineHash;
    } else {
      assert reg'[InstallTimeName] == reg[InstallTimeName];
      assert RegValue(reg', HashName) == RegValue(reg, HashName);
    }
  }

  /** Without tampering, expiry is final: once the first-run time is more than seven days
      back, it stays so at every later check. Exactly seven days is not yet expired. */
  lemma ExpiryIsFinal(d: TrialData, at: int, later: int)
    requires d.firstRun.Some? && at <= later
    ensures Expired(d, at) ==> Expired(d, later)
    ensures !d.tampered && at == d.firstRun.value + TrialDuration ==> !Expired(d, at)
  {
  }

  /** A registry first-run time that `parseInt` cannot read makes the first run NaN, and with
      no stored hash and no last-seen value such a trial never expires. */
  lemma UnreadableInstallTimeNeverExpires(reg: map<string, string>, cfg: ConfigFile, now: int,
                                          at: int, hash: Num -> string)
    requires RegValue(reg, InstallTimeName).Some? && JsParseInt(reg[InstallTimeName]).None?
    requires RegValue(reg, HashName).None? && RegValue(reg, LastSeenName).None?
    ensures !Expired(TrialOf(reg, cfg, now, hash), at)
  {
  }

  /** `isPro`: a licence was loaded and its `isPro` field is exactly `true`. */
  predicate IsPro(license: Option<LicenseFile>) {
    license.Some? && license.value.isPro == Some(true)
  }

  /** What the licence server's answer turned out to be. */
  datatype Answer = Reply(valid: bool, message: Option<string>) | Garbled | NetworkError | Timeout

  /** The machine's registry values and files. */
  class DesktopStore {
    var registry: map<string, string>
    var config: ConfigFile
    var license: Option<LicenseFile>

    constructor (registry: map<string, string>, config: ConfigFile, license: Option<LicenseFile>)
      ensures this.registry == registry && this.config == config && this.license == license
    {
      this.registry := registry;
      this.config := config;
      this.license := license;
    }

    /** `getTrialData`: pick the source, check the hash and the clock, write the registry and
        the config file. */
    method GetTrialData(now: int, hash: Num -> string) returns (data: TrialData)
      modifies this
      ensures data == TrialOf(old(registry), old(config), now, hash)
      ensures registry == RegistryAfter(old(registry), old(config), now, hash)
      ensures config == Saved(data) && license == old(license)
    {
      var regFirstRun := RegValue(registry, InstallTimeName);
      var regLastSeen := RegValue(registry, LastSeenName);
      var regHash := RegValue(registry, HashName);
      var fileData := config;
      var firstRun: Num;
      var lastSeen: Num;
      var machineHash: string;
      var tampered := false;
      if regFirstRun.Some? {
        firstRun := JsParseInt(regFirstRun.value);
        lastSeen := if regLastSeen.Some? then JsParseInt(regLastSeen.value) else Some(now);
        machineHash := TextOr(regHash, hash(firstRun));
        if machineHash != hash(firstRun) {
          tampered := true;
        }
      } else if fileData.firstRun.Some? && fileData.firstRun.value != 0 {
        firstRun := fileData.firstRun;
        lastSeen := NumOr(fileData.lastSeen, Some(now));
        machineHash := TextOr(fileData.machineHash, hash(firstRun));
        if machineHash != hash(firstRun) {
          tampered := true;
        }
        registry := registry[InstallTimeName := IntToString(firstRun.value)];
        registry := registry[HashName := machineHash];
      } else {
        firstRun := Some(now);
        lastSeen := Some(now);
        machineHash := hash(firstRun);
        registry := registry[InstallTimeName := IntToString(now)];
        registry := registry[HashName := machineHash];
      }
      if lastSeen.Some? && now < lastSeen.value - ClockTolerance {
        tampered := true;
      }
      registry := registry[LastSeenName := IntToString(now)];
      data := TrialData(firstRun, now, machineHash, tampered);
      config := Saved(data);
    }

    /** `isTrialExpired`: a Pro licence never expires and the trial data is then not read;
        otherwise the trial data is refreshed at `now` and judged at `checkedAt`, the second
        clock reading. */
    method IsTrialExpired(now: int, checkedAt: int, hash: Num -> string) returns (expired: bool)
      modifies this
      ensures IsPro(old(license)) ==>
        !expired && registry == old(registry) && config == old(config)
      ensures !IsPro(old(license)) ==>
        var d := TrialOf(old(registry), old(config), now, hash);
        && expired == Expired(d, checkedAt)
        && registry == RegistryAfter(old(registry), old(config), now, hash)
        && config == Saved(d)
      ensures license == old(license)
    {
      if IsPro(license) {
        return false;
      }
      var trialData := GetTrialData(now, hash);
      if trialData.tampered {
        return true;
      }
      expired := trialData.firstRun.Some? && checkedAt - trialData.firstRun.value > TrialDuration;
    }

    /** The answer handling of `validateLicenseOnline`: a valid answer saves a Pro licence for
        the key and this machine, anything else leaves the licence file alone. */
    method ValidateLicenseOnline(key: string, machineId: string, activatedAt: string,
                                 answer: Answer)
      returns (valid: bool, message: string)
      modifies this
      ensures valid <==> answer.Reply? && answer.valid
      ensures valid ==> license == Some(LicenseFile(key, activatedAt, Some(true), machineId))
                        && IsPro(license)
      ensures !valid ==> license == old(license)
      ensures message == match answer
        case Reply(_, m) => m.GetOr("")
        case Garbled => "Invalid server response"
        case NetworkError => "Network error. Check your connection."
        case Timeout => "Connection timeout"
      ensures registry == old(registry) && config == old(config)
    {
      match answer
      case Reply(v, m) =>
        if v {
          license := Some(LicenseFile(key, activatedAt, Some(true), machineId));
        }
        valid, message := v, m.GetOr("");
      case Garbled =>
        valid, message := false, "Invalid server response";
      case NetworkError =>
        valid, message := false, "Network error. Check your connection.";
      case Timeout =>
        valid, message := false, "Connection timeout";
    }
  }
}

=== FILE: end_to_end.dfy ===
/** The path of one input from the phone to the desktop: the object `send(type, data)` writes on
    the socket (`{ type, ...data }`, mobile/services/P2PClient.ts) as the relay's handler reads
    its fields (desktop/src/main/server.ts), the mouse-control call it makes there, and the
    events the bridge makes of the line that call writes. */
module EndToEnd {
  import opened Wrappers
  import P2PClient
  import Touchpad
  import Text
  import MouseControl
  import BridgeProtocol
  import RelayContract
  import opened RelayServer

  /** The frame the relay receives for a message of the client. A numeric field that the
      message does not carry is read as 0; the dispatch never reads one for the requests
      the screen builds. */
  function FrameOf(o: P2PClient.Outgoing): (f: Frame)
    ensures f.Message?
    ensures o.AuthRequest? ==> f.kind == Some("auth") && f.token == Some(o.token)
    ensures o.Input? ==> f.kind == Some(o.kind) && f.token == None
  {
    match o
    case AuthRequest(token) => Message(Some("auth"), Some(token), 0.0, 0.0, None, false, None)
    case Input(kind, data) =>
      match data
      case NoData => Message(Some(kind), None, 0.0, 0.0, None, false, None)
      case Delta(dx, dy) => Message(Some(kind), None, dx, dy, None, false, None)
      case Press(button, double) => Message(Some(kind), None, 0.0, 0.0, Some(button), double, None)
      case Button(name) => Message(Some(kind), None, 0.0, 0.0, Some(name), false, None)
      case Key(key) => Message(Some(kind), None, 0.0, 0.0, None, false, Some(key))
  }

  /** What an authenticated relay does with a request of the touchpad screen. */
  function CallOf(r: Touchpad.Request): Option<MouseControl.Call> {
    Command(FrameOf(P2PClient.Input(r.kind, r.data)))
  }

  /** Every request the screen builds reaches the mouse control as the call it means: a move
      or scroll by the same deltas, a single click of the same button, the left button pressed
      and released for a drag, and the same text sent to type. */
  lemma ScreenRequestsDispatch(dx: real, dy: real, button: string, text: string)
    ensures CallOf(Touchpad.MoveRequest(dx, dy)) == Some(MouseControl.MoveCall(dx, dy))
    ensures CallOf(Touchpad.ScrollRequest(dx, dy)) == Some(MouseControl.ScrollCall(dx, dy))
    ensures CallOf(Touchpad.ClickRequest(button)) == Some(MouseControl.ClickCall(Some(button), false))
    ensures CallOf(Touchpad.PressLeft) == Some(MouseControl.DownCall("left"))
    ensures CallOf(Touchpad.ReleaseLeft) == Some(MouseControl.UpCall("left"))
    ensures CallOf(Touchpad.TypeRequest(text)) == Some(MouseControl.TypeCall(text))
  {
  }

  /** The authentication request the client sends when its socket opens is admitted by a relay
      holding the same token unless the trial is over; with any other token it is rejected and
      the socket closed. */
  lemma AuthRequestAdmits(sent: string, token: string, trialExpired: bool, pro: bool)
    ensures var h := Handle(false, FrameOf(P2PClient.AuthRequest(sent)), token, trialExpired, pro);
      && (h.authenticated <==> sent == token && !trialExpired)
      && (sent == token && !trialExpired ==> h.reply == Some(AuthOk(pro)) && !h.close)
      && (sent == token && trialExpired ==> h.reply == Some(AuthError(Some(TrialExpiredMessage))) && h.close)
      && (sent != token ==> h.reply == Some(AuthError(None)) && h.close)
  {
  }

  /** A tap on the phone ends, on the desktop, as the press and release of the same button: the
      click call writes a `C` line, and the bridge turns it into the down and up events of that
      button. */
  lemma ClickReachesBridge(button: string)
    ensures var call := CallOf(Touchpad.ClickRequest(button));
      && call.Some? && call.value.ClickCall?
      && BridgeProtocol.Replay(BridgeProtocol.ReadLines(MouseControl.Pipe([MouseControl.ClickLine(call.value.button.GetOr("left"))])))
         == [BridgeProtocol.MouseEvent(RelayContract.ButtonFlags(button).0, 0),
             BridgeProtocol.MouseEvent(RelayContract.ButtonFlags(button).1, 0)]
  {
    ScreenRequestsDispatch(0.0, 0.0, button, "");
    var line := MouseControl.ClickLine(button);
    assert line == "C " + MouseControl.ButtonLetter(button);
    RelayContract.SentLineDecodes(line);
    RelayContract.ClickLineDecodes(button);
  }

  /** A key typed on the phone, after shift and caps lock, is passed whole to `SendKeys` on the
      desktop, spaces and the backspace marker included. The bridge reads it as one command
      because no key of the phone's keyboard holds a line break; see
      `RelayContract.KeyLineArrives` for key text that does. */
  lemma KeyReachesBridge(k: string, shift: bool, capsLock: bool)
    requires BridgeProtocol.OneLine(k)
    ensures var text := Touchpad.KeyText(k, shift, capsLock);
      var call := CallOf(Touchpad.TypeRequest(text));
      && call == Some(MouseControl.TypeCall(text))
      && BridgeProtocol.Replay(BridgeProtocol.ReadLines(MouseControl.Pipe([MouseControl.KeyLine(call.value.text)])))
         == [BridgeProtocol.SendKeys(text)]
  {
    var text := Touchpad.KeyText(k, shift, capsLock);
    if text != k {
      assert text == [text[0]] && Text.IsAsciiUpper(text[0]);
    }
    assert BridgeProtocol.OneLine(text);
    RelayContract.KeyLineArrives(text);
  }
}

=== FILE: license_server.dfy ===
/** The licence web service (website/backend/server.js): key generation, the per-address rate
    limiter, and the licence table that the payment webhook fills and the desktop activates
    against. Stripe, Express, the JSON file behind the table and the clock are not modelled;
    the random choices, the webhook's verdict on the signature and the timestamps are inputs. */
module LicenseServer {
  import opened Wrappers
  import opened Text
  import DesktopLicense

  // ---------------------------------------------------------------------------------------
  // Key generation

  /** The 32 characters keys are drawn from: no I, O, 0 or 1. */
  const Alphabet: string := "ABCDEFGHJKLMNPQRSTUVWXYZ23456789"

  /** Draws of `Math.floor(Math.random() * 32)`, one per key character. */
  predicate ValidDraws(draws: seq<nat>) {
    forall k :: 0 <= k < |draws| ==> draws[k] < |Alphabet|
  }

  /** The alphabet characters the draws select. */
  function Chars(draws: seq<nat>): (s: string)
    requires ValidDraws(draws)
    ensures |s| == |draws|
  {
    seq(|draws|, k requires 0 <= k < |draws| => Alphabet[draws[k]])
  }

  /** The first `n` dash-led groups of four characters. */
  function Groups(draws: seq<nat>, n: nat): string
    requires n <= 3 && |draws| == 12 && ValidDraws(draws)
  {
    if n == 0 then "" else Groups(draws, n - 1) + "-" + Chars(draws[4 * (n - 1)..4 * n])
  }

  /** The key `generateLicenseKey` builds from twelve draws. */
  function KeyOf(draws: seq<nat>): string
    requires |draws| == 12 && ValidDraws(draws)
  {
    "NXTH" + Groups(draws, 3)
  }

  /** `generateLicenseKey`: three times a dash and four drawn characters, behind `NXTH`. */
  method GenerateLicenseKey(draws: seq<nat>) returns (key: string)
    requires |draws| == 12 && ValidDraws(draws)
    ensures key == KeyOf(draws)
  {
    key := "NXTH";
    for i := 0 to 3
      invariant key == "NXTH" + Groups(draws, i)
    {
      key := key + "-";
      for j := 0 to 4
        invariant key == "NXTH" + Groups(draws, i) + "-" + Chars(draws[4 * i..4 * i + j])
      {
        assert Chars(draws[4 * i..4 * i + j + 1])
            == Chars(draws[4 * i..4 * i + j]) + [Alphabet[draws[4 * i + j]]];
        key := key + [Alphabet[draws[4 * i + j]]];
      }
    }
  }

  /** The characters a key may hold: [A-Z0-9] without the look-alikes I, O, 0 and 1. */
  predicate IsKeyChar(c: char) {
    IsUpperAlnum(c) && c != 'I' && c != 'O' && c != '0' && c != '1'
  }

  lemma AlphabetHasKeyChars()
    ensures forall d :: 0 <= d < |Alphabet| ==> IsKeyChar(Alphabet[d])
  {
  }

  lemma CharsAreKeyChars(draws: seq<nat>)
    requires ValidDraws(draws)
    ensures forall k :: 0 <= k < |draws| ==> IsKeyChar(Chars(draws)[k])
  {
    AlphabetHasKeyChars();
  }

  /** The key is the prefix and three groups of four drawn characters. */
  lemma KeyOfGroups(draws: seq<nat>)
    requires |draws| == 12 && ValidDraws(draws)
    ensures KeyOf(draws)
         == "NXTH-" + Chars(draws[0..4]) + "-" + Chars(draws[4..8]) + "-" + Chars(draws[8..12])
  {
    assert Groups(draws, 1) == "" + "-" + Chars(draws[0..4]);
    assert Groups(draws, 2) == Groups(draws, 1) + "-" + Chars(draws[4..8]);
  }

  /** Every generated key has 19 characters, is its own uppercase form, avoids the
      look-alike characters I, O, 0 and 1, and passes the desktop's key format check. */
  lemma GeneratedKeyIsWellFormed(draws: seq<nat>)
    requires |draws| == 12 && ValidDraws(draws)
    ensures var key := KeyOf(draws);
      && |key| == 19
      && Upper(key) == key
      && DesktopLicense.IsValidKeyFormat(key)
      && forall k :: 0 <= k < |key| && key[k] != '-' ==> IsKeyChar(key[k])
  {
    var g1, g2, g3 := Chars(draws[0..4]), Chars(draws[4..8]), Chars(draws[8..12]);
    KeyOfGroups(draws);
    CharsAreKeyChars(draws[0..4]);
    CharsAreKeyChars(draws[4..8]);
    CharsAreKeyChars(draws[8..12]);
    DesktopLicense.KeyFromGroups(g1, g2, g3);
    var key := KeyOf(draws);
    forall k | 0 <= k < |key| && key[k] != '-'
      ensures IsKeyChar(key[k])
    {
      if 5 <= k < 9 {
        assert key[k] == g1[k - 5];
      } else if 10 <= k < 14 {
        assert key[k] == g2[k - 10];
      } else if 15 <= k {
        assert key[k] == g3[k - 15];
      } else {
        assert key[..5] == "NXTH-";
      }
    }
  }

  // ---------------------------------------------------------------------------------------
  // Rate limiting

  const WindowMs: int := 60000
  const MaxRequests: nat := 30

  /** `requests.filter(t => now - t < windowMs)`. */
  function Recent(requests: seq<int>, now: int): (kept: seq<int>)
    ensures |kept| <= |requests|
    ensures forall t :: t in kept <==> t in requests && now - t < WindowMs
  {
    if requests == [] then []
    else Recent(requests[..|requests| - 1], now)
         + (if now - requests[|requests| - 1] < WindowMs then [requests[|requests| - 1]] else [])
  }

  /** `requestCounts.get(ip) || []`. */
  function Previous(counts: map<string, seq<int>>, ip: string): seq<int> {
    if ip in counts then counts[ip] else []
  }

  /** The limiter's answer and its table afterwards. */
  datatype Admission = Admission(allowed: bool, counts: map<string, seq<int>>)

  /** The decision `rateLimit` takes for a request from `ip` at `now`. */
  function Admit(counts: map<string, seq<int>>, ip: string, now: int): Admission {
    var recent := Recent(Previous(counts, ip), now);
    if |recent| >= MaxRequests then Admission(false, counts)
    else Admission(true, counts[ip := recent + [now]])
  }

  /** No address has more than 30 timestamps on record. */
  predicate Bounded(counts: map<string, seq<int>>) {
    forall ip :: ip in counts ==> |counts[ip]| <= MaxRequests
  }

  /** A refused request is not recorded; an admitted one is recorded with only the other
      requests of the last minute kept beside it. */
  lemma AdmitRecords(counts: map<string, seq<int>>, ip: string, now: int)
    ensures var a := Admit(counts, ip, now);
      && (a.allowed <==> |Recent(Previous(counts, ip), now)| < MaxRequests)
      && (!a.allowed ==> a.counts == counts)
      && (a.allowed ==> a.counts.Keys == counts.Keys + {ip}
                        && forall t :: t in a.counts[ip] <==>
                             t == now || (t in Previous(counts, ip) && now - t < WindowMs))
  {
  }

  /** The record never holds more than 30 timestamps per address, so the table stays bounded
      however many requests arrive. */
  lemma AdmitKeepsBound(counts: map<string, seq<int>>, ip: string, now: int)
    requires Bounded(counts)
    ensures Bounded(Admit(counts, ip, now).counts)
  {
  }

  /** Within one minute an address gets at most 30 requests through: with 30 recorded in the
      last minute, the next is refused. */
  lemma FullWindowRefuses(counts: map<string, seq<int>>, ip: string, now: int)
    requires forall t :: t in Previous(counts, ip) ==> now - t < WindowMs
    requires |Previous(counts, ip)| >= MaxRequests
    ensures !Admit(counts, ip, now).allowed
  {
    KeepAllRecent(Previous(counts, ip), now);
  }

  lemma {:induction false} KeepAllRecent(requests: seq<int>, now: int)
    requires forall t :: t in requests ==> now - t < WindowMs
    ensures Recent(requests, now) == requests
  {
    if requests != [] {
      var init := requests[..|requests| - 1];
      assert requests[|requests| - 1] in requests;
      assert forall t :: t in init ==> t in requests;
      KeepAllRecent(init, now);
      assert init + [requests[|requests| - 1]] == requests;
    }
  }

  /** The in-memory `requestCounts` map. */
  class RateLimiter {
    var requestCounts: map<string, seq<int>>

    constructor ()
      ensures requestCounts == map[]
    {
      requestCounts := map[];
    }

    /** `rateLimit`: true lets the request through, false is the 429 reply. */
    method RateLimit(ip: string, now: int) returns (allowed: bool)
      modifies this
      ensures Admission(allowed, requestCounts) == Admit(old(requestCounts), ip, now)
    {
      var requests := if ip in requestCounts then requestCounts[ip] else [];
      var recentRequests := Recent(requests, now);
      if |recentRequests| >= MaxRequests {
        return false;
      }
      recentRequests := recentRequests + [now];
      requestCounts := requestCounts[ip := recentRequests];
      allowed := true;
    }
  }

  // ---------------------------------------------------------------------------------------
  // Licence table

  /** One entry of licenses.json. */
  datatype License = License(createdAt: string, email: string, sessionId: string, used: bool,
                             machineId: Option<string>, activatedAt: Option<string>)

  /** The entry a completed checkout creates: unused and bound to no machine. */
  function NewLicense(createdAt: string, email: Option<string>, sessionId: string): (l: License)
    ensures !l.used && l.machineId.None? && l.activatedAt.None? && l.sessionId == sessionId
    ensures l.email == (if email.Some? && email.value != "" then email.value else "unknown")
  {
    License(createdAt, if email.Some? && email.value != "" then email.value else "unknown",
            sessionId, false, None, None)
  }

  /** The reply of `validate-license`. */
  datatype Validation = Validation(valid: bool, message: string)

  const MissingFields := Validation(false, "Missing key or machineId")
  const UnknownKey := Validation(false, "Invalid license key")
  const OtherDevice := Validation(false, "License already activated on another device")
  const Activated := Validation(true, "License activated successfully")

  /** `key.toUpperCase().trim()`. */
  function Normalize(key: string): string {
    Trim(Upper(key))
  }

  /** The reply `validate-license` gives; None for a field that is absent or null. */
  function ValidationOf(table: map<string, License>, key: Option<string>,
                        machineId: Option<string>): Validation
  {
    if key.None? || key.value == "" || machineId.None? || machineId.value == "" then MissingFields
    else if Normalize(key.value) !in table then UnknownKey
    else if table[Normalize(key.value)].used
            && table[Normalize(key.value)].machineId != machineId then OtherDevice
    else Activated
  }

  /** The table after a validation: only a successful one changes it, binding the entry to the
      machine. */
  function TableAfter(table: map<string, License>, key: Option<string>,
                      machineId: Option<string>, at: string): map<string, License>
  {
    if ValidationOf(table, key, machineId).valid then
      var k := Normalize(key.value);
      table[k := table[k].(used := true, machineId := machineId, activatedAt := Some(at))]
    else table
  }

  /** A validation succeeds exactly for a present key and machine id naming an entry that is
      unused or already bound to that machine; then the entry is used and bound to it. */
  lemma ValidationRules(table: map<string, License>, key: Option<string>,
                        machineId: Option<string>, at: string)
    ensures var v := ValidationOf(table, key, machineId);
      && (v.valid <==> key.Some? && key.value != "" && machineId.Some? && machineId.value != ""
                       && Normalize(key.value) in table
                       && (!table[Normalize(key.value)].used
                           || table[Normalize(key.value)].machineId == machineId))
      && (!v.valid ==> TableAfter(table, key, machineId, at) == table)
      && (v.valid ==> var t := TableAfter(table, key, machineId, at);
                      var k := Normalize(key.value);
                      && t.Keys == table.Keys
                      && t[k].used && t[k].machineId == machineId
                      && t[k].sessionId == table[k].sessionId && t[k].email == table[k].email
                      && forall k' :: k' in table && k' != k ==> t[k'] == table[k'])
  {
  }

  /** Single-machine binding: once a key is activated from one machine, every attempt from a
      different machine is refused and changes nothing, while the same machine may activate
      again. */
  lemma BindingIsExclusive(table: map<string, License>, key: string, machineId: string,
                           at: string, key': string, other: string)
    requires ValidationOf(table, Some(key), Some(machineId)).valid
    requires key' != "" && Normalize(key') == Normalize(key)
    requires other != "" && other != machineId
    ensures var t := TableAfter(table, Some(key), Some(machineId), at);
      && ValidationOf(t, Some(key'), Some(other)) == OtherDevice
      && TableAfter(t, Some(key'), Some(other), at) == t
      && ValidationOf(t, Some(key'), Some(machineId)) == Activated
  {
  }

  /** Case does not matter: a key and its uppercase form get the same answer. */
  lemma ValidationIgnoresCase(table: map<string, License>, key: string,
                              machineId: Option<string>)
    requires key != ""
    ensures ValidationOf(table, Some(Upper(key)), machineId) == ValidationOf(table, Some(key), machineId)
  {
    UpperIdempotent(key);
    assert Upper(key) != [] by {
      assert Upper(key) == UpperChar(key[0]) + Upper(key[1..]);
    }
  }

  /** The reply of `get-license`. */
  datatype Lookup = Found(licenseKey: string, email: string) | NotFound

  /** The licences in memory: their keys in `Object.entries` order and the entries. */
  class LicenseStore {
    var keys: seq<string>
    var licenses: map<string, License>

    /** The key order lists every key of the table once. */
    ghost predicate Valid()
      reads this
    {
      (forall i, j :: 0 <= i < j < |keys| ==> keys[i] != keys[j])
      && (forall k :: k in licenses <==> k in keys)
    }

    constructor ()
      ensures Valid() && keys == [] && licenses == map[]
    {
      keys := [];
      licenses := map[];
    }

    /** `licenses[key] = entry`: a new key goes to the end of the order, an existing key keeps
        its place and loses its old entry. */
    method Put(key: string, entry: License)
      requires Valid()
      modifies this
      ensures Valid()
      ensures licenses == old(licenses)[key := entry]
      ensures keys == if key in old(licenses) then old(keys) else old(keys) + [key]
    {
      if key !in licenses {
        keys := keys + [key];
      }
      licenses := licenses[key := entry];
    }

    /** The webhook: with a good signature a completed checkout gets a fresh key and an
        unused entry; any other event is only acknowledged. 400 rejects the signature. */
    method Webhook(signatureOk: bool, eventType: string, sessionId: string,
                   email: Option<string>, draws: seq<nat>, createdAt: string)
      returns (status: int)
      requires Valid() && |draws| == 12 && ValidDraws(draws)
      modifies this
      ensures Valid()
      ensures status == if signatureOk then 200 else 400
      ensures signatureOk && eventType == "checkout.session.completed" ==>
        licenses == old(licenses)[KeyOf(draws) := NewLicense(createdAt, email, sessionId)]
      ensures signatureOk && eventType == "checkout.session.completed" ==>
        keys == if KeyOf(draws) in old(licenses) then old(keys) else old(keys) + [KeyOf(draws)]
      ensures !signatureOk || eventType != "checkout.session.completed" ==>
        licenses == old(licenses) && keys == old(keys)
    {
      if !signatureOk {
        return 400;
      }
      if eventType == "checkout.session.completed" {
        var licenseKey := GenerateLicenseKey(draws);
        Put(licenseKey, NewLicense(createdAt, email, sessionId));
      }
      status := 200;
    }

    /** `get-license`: the first entry in key order whose session id matches, else 404. */
    method GetLicense(sessionId: string) returns (r: Lookup)
      requires Valid()
      ensures r.NotFound? <==> forall k :: k in licenses ==> licenses[k].sessionId != sessionId
      ensures r.Found? ==> exists i :: (0 <= i < |keys| && keys[i] == r.licenseKey
        && licenses[keys[i]].sessionId == sessionId && licenses[keys[i]].email == r.email
        && forall j :: 0 <= j < i ==> licenses[keys[j]].sessionId != sessionId)
    {
      for i := 0 to |keys|
        invariant forall j :: 0 <= j < i ==> licenses[keys[j]].sessionId != sessionId
      {
        var data := licenses[keys[i]];
        if data.sessionId == sessionId {
          return Found(keys[i], data.email);
        }
      }
      return NotFound;
    }

    /** `validate-license`, with `at` the activation timestamp. */
    method ValidateLicense(key: Option<string>, machineId: Option<string>, at: string)
      returns (reply: Validation)
      requires Valid()
      modifies this
      ensures Valid() && keys == old(keys)
      ensures reply == ValidationOf(old(licenses), key, machineId)
      ensures licenses == TableAfter(old(licenses), key, machineId, at)
    {
      if key.None? || key.value == "" || machineId.None? || machineId.value == "" {
        return MissingFields;
      }
      var normalizedKey := Trim(Upper(key.value));
      if normalizedKey !in licenses {
        return UnknownKey;
      }
      var license := licenses[normalizedKey];
      if license.used && license.machineId != machineId {
        return OtherDevice;
      }
      license := license.(used := true, machineId := machineId, activatedAt := Some(at));
      licenses := licenses[normalizedKey := license];
      reply := Activated;
    }
  }

  /** A key handed out by the webhook activates on the first machine that presents it. */
  lemma NewKeyActivates(table: map<string, License>, draws: seq<nat>, createdAt: string,
                        email: Option<string>, sessionId: string, machineId: string)
    requires |draws| == 12 && ValidDraws(draws) && machineId != ""
    ensures ValidationOf(table[KeyOf(draws) := NewLicense(createdAt, email, sessionId)],
                         Some(KeyOf(draws)), Some(machineId)) == Activated
  {
    GeneratedKeyIsWellFormed(draws);
    var key := KeyOf(draws);
    assert key[0] == 'N' && IsKeyChar(key[18]);
    TrimKeeps(key);
  }
}

=== FILE: mobile_license.dfy ===
/** The phone's licence status (mobile/services/LicenseManager.ts): a fourteen-day trial
    counted from an install date kept with a hash against editing, and the Pro flag the last
    desktop connection reported. AsyncStorage is a map from item names to texts; the clock,
    the date parser and the SHA-256 digest of `createInstallHash` are inputs. */
module MobileLicense {
  import opened Wrappers

  const InstallDateKey: string := "@nextouch_install_date"
  const InstallHashKey: string := "@nextouch_install_hash"
  const ProSessionKey: string := "@nextouch_pro_session"
  const TrialDays: int := 14
  const Day: int := 1000 * 60 * 60 * 24

  /** `getItem(name)`: None for null. */
  function Item(storage: map<string, string>, name: string): Option<string> {
    if name in storage then Some(storage[name]) else None
  }

  /** The result of `getValidatedInstallDate`: null, or a date whose time may be NaN (None). */
  datatype InstallDate = NoDate | At(time: Option<int>)

  /** `getValidatedInstallDate`, with `installHash` for `createInstallHash` and `parseDate` for
      `new Date(text).getTime()`. */
  function ValidatedInstallDate(storage: map<string, string>, installHash: string -> string,
                                parseDate: string -> Option<int>): (d: InstallDate)
    ensures d.NoDate? <==> Item(storage, InstallDateKey).None? || storage[InstallDateKey] == ""
    ensures d.At? && Item(storage, InstallHashKey) != Some(installHash(storage[InstallDateKey]))
            ==> d == At(Some(0))
    ensures d.At? && Item(storage, InstallHashKey) == Some(installHash(storage[InstallDateKey]))
            ==> d == At(parseDate(storage[InstallDateKey]))
  {
    var dateStr := Item(storage, InstallDateKey);
    var storedHash := Item(storage, InstallHashKey);
    if dateStr.None? || dateStr.value == "" then NoDate
    else if storedHash != Some(installHash(dateStr.value)) then At(Some(0))
    else At(parseDate(dateStr.value))
  }

  /** `Math.floor(diffMs / 86400000)`; NaN stays NaN. */
  function DaysBetween(installTime: Option<int>, now: int): (days: Option<int>)
    ensures days.Some? <==> installTime.Some?
    ensures days.Some? ==> days.value * Day <= now - installTime.value < (days.value + 1) * Day
  {
    if installTime.None? then None else Some((now - installTime.value) / Day)
  }

  /** What `getLicenseStatus` returns; `daysRemaining` is None when it is NaN. */
  datatype LicenseStatus = LicenseStatus(isPro: bool, isTrialActive: bool,
                                         daysRemaining: Option<int>, needsAds: bool)

  /** The status for a Pro flag and a day count that may be NaN. */
  function StatusOf(isPro: bool, days: Option<int>): (s: LicenseStatus)
    ensures s.isPro == isPro
    ensures s.isTrialActive <==> days.Some? && days.value < TrialDays
    ensures s.daysRemaining.Some? <==> days.Some?
    ensures days.Some? ==> s.daysRemaining.value >= 0
                           && (s.daysRemaining.value == 0 <==> !s.isTrialActive)
                           && (s.isTrialActive ==> s.daysRemaining.value + days.value == TrialDays)
    ensures s.needsAds <==> !isPro && !s.isTrialActive
  {
    var isTrialActive := days.Some? && days.value < TrialDays;
    var daysRemaining := if days.None? then None
                         else if TrialDays - days.value > 0 then Some(TrialDays - days.value)
                         else Some(0);
    LicenseStatus(isPro, isTrialActive, daysRemaining, !isPro && !isTrialActive)
  }

  /** `isProSession`: only the exact text `true` counts. */
  predicate IsProSession(storage: map<string, string>) {
    Item(storage, ProSessionKey) == Some("true")
  }

  /** An install date whose hash does not match is taken as the epoch, so fourteen days after
      the epoch the trial is over and ads are needed unless the session is Pro. */
  lemma EditedInstallDateEndsTrial(storage: map<string, string>, installHash: string -> string,
                                   parseDate: string -> Option<int>, now: int, isPro: bool)
    requires Item(storage, InstallDateKey).Some? && storage[InstallDateKey] != ""
    requires Item(storage, InstallHashKey) != Some(installHash(storage[InstallDateKey]))
    requires now >= TrialDays * Day
    ensures var d := ValidatedInstallDate(storage, installHash, parseDate);
      var s := StatusOf(isPro, DaysBetween(d.time, now));
      !s.isTrialActive && s.daysRemaining == Some(0) && s.needsAds == !isPro
  {
    var d := ValidatedInstallDate(storage, installHash, parseDate);
    assert d == At(Some(0));
  }

  /** The stored items. */
  class Storage {
    var items: map<string, string>

    constructor (items: map<string, string>)
      ensures this.items == items
    {
      this.items := items;
    }

    /** `recordInstallDate`: only when no date is stored, the date `nowIso` and its hash are
        written. */
    method RecordInstallDate(nowIso: string, installHash: string -> string)
      modifies this
      ensures Item(old(items), InstallDateKey).None? || old(items)[InstallDateKey] == "" ==>
        items == old(items)[InstallDateKey := nowIso][InstallHashKey := installHash(nowIso)]
      ensures Item(old(items), InstallDateKey).Some? && old(items)[InstallDateKey] != "" ==>
        items == old(items)
    {
      var existing := Item(items, InstallDateKey);
      if existing.None? || existing.value == "" {
        var hash := installHash(nowIso);
        items := items[InstallDateKey := nowIso];
        items := items[InstallHashKey := hash];
      }
    }

    /** `getDaysSinceInstall`: with no date, the date is recorded and the answer is 0;
        otherwise the whole days since the validated date. */
    method GetDaysSinceInstall(now: int, nowIso: string, installHash: string -> string,
                               parseDate: string -> Option<int>) returns (days: Option<int>)
      modifies this
      ensures var d := ValidatedInstallDate(old(items), installHash, parseDate);
        && (d.NoDate? ==>
              days == Some(0)
              && items == old(items)[InstallDateKey := nowIso][InstallHashKey := installHash(nowIso)])
        && (d.At? ==> days == DaysBetween(d.time, now) && items == old(items))
    {
      var installDate := ValidatedInstallDate(items, installHash, parseDate);
      if installDate.NoDate? {
        RecordInstallDate(nowIso, installHash);
        return Some(0);
      }
      days := DaysBetween(installDate.time, now);
    }

    /** `setProSession`. */
    method SetProSession(isPro: bool)
      modifies this
      ensures items == old(items)[ProSessionKey := if isPro then "true" else "false"]
      ensures IsProSession(items) == isPro
    {
      items := items[ProSessionKey := if isPro then "true" else "false"];
    }

    /** `getLicenseStatus`. */
    method GetLicenseStatus(now: int, nowIso: string, installHash: string -> string,
                            parseDate: string -> Option<int>) returns (status: LicenseStatus)
      modifies this
      ensures var d := ValidatedInstallDate(old(items), installHash, parseDate);
        && status == StatusOf(IsProSession(old(items)),
                              if d.NoDate? then Some(0) else DaysBetween(d.time, now))
        && items == if d.NoDate? then old(items)[InstallDateKey := nowIso]
                                                [InstallHashKey := installHash(nowIso)]
                    else old(items)
    {
      var isPro := IsProSession(items);
      var daysSinceInstall := GetDaysSinceInstall(now, nowIso, installHash, parseDate);
      status := StatusOf(isPro, daysSinceInstall);
    }
  }

  /** The date recorded on first use validates as itself on every later read. */
  lemma RecordedDateValidates(items: map<string, string>, nowIso: string,
                              installHash: string -> string, parseDate: string -> Option<int>)
    requires nowIso != ""
    requires Item(items, InstallDateKey).None?
    ensures var after := items[InstallDateKey := nowIso][InstallHashKey := installHash(nowIso)];
      ValidatedInstallDate(after, installHash, parseDate) == At(parseDate(nowIso))
  {
    var after := items[InstallDateKey := nowIso][InstallHashKey := installHash(nowIso)];
    assert Item(after, InstallDateKey) == Some(nowIso);
    assert Item(after, InstallHashKey) == Some(installHash(nowIso));
  }

  /** On the first day the trial is active with all fourteen days left, and no ads are due. */
  lemma FirstDayStatus(isPro: bool)
    ensures StatusOf(isPro, Some(0)) == LicenseStatus(isPro, true, Some(TrialDays), false)
  {
  }
}

=== FILE: mobile_trial.dfy ===
/** The phone's seven-day trial (mobile/services/TrialManager.ts): the operating system's
    install time is the first choice, the stored record the fallback, and the record is
    rewritten on every read. The clock, the install time, the stored record and the SHA-256
    digest are inputs or fields; AsyncStorage and expo-application are not modelled. */
module MobileTrial {
  import opened Wrappers
  import opened Text

  const TrialDuration: int := 7 * 24 * 60 * 60 * 1000
  const Day: int := 24 * 60 * 60 * 1000
  const ClockTolerance: int := 60000

  /** The parsed `@nextouch_trial` item; every field None when the item is absent or empty. */
  datatype StoredTrial = StoredTrial(firstRun: Option<int>, lastSeen: Option<int>,
                                     deviceHash: Option<string>, tampered: Option<bool>)

  const NothingStored := StoredTrial(None, None, None, None)

  /** What `getTrialData` returns and stores. */
  datatype TrialData = TrialData(firstRun: int, lastSeen: int, deviceHash: string, tampered: bool)

  /** Where the first-run time comes from. */
  datatype Origin = FromOs | FromStorage | Fresh

  /** `osInstallTime` is None for null (no install time, or an error). */
  function OriginOf(osInstallTime: Option<int>, stored: StoredTrial): Origin {
    if NumOr(osInstallTime, None).Some? then FromOs
    else if NumOr(stored.firstRun, None).Some? then FromStorage
    else Fresh
  }

  predicate ClockWentBack(now: int, lastSeen: int) {
    now < lastSeen - ClockTolerance
  }

  /** The trial data `getTrialData` returns, with `hash` standing for `getDeviceHash`. */
  function TrialOf(stored: StoredTrial, osInstallTime: Option<int>, now: int,
                   hash: int -> string): TrialData
  {
    match OriginOf(osInstallTime, stored)
    case FromOs =>
      var firstRun := osInstallTime.value;
      var lastSeen := NumOr(stored.lastSeen, Some(now)).value;
      var deviceHash := hash(firstRun);
      var foreign := TextOr(stored.deviceHash, "") != "" && stored.deviceHash.value != deviceHash;
      TrialData(firstRun, now, deviceHash, foreign || ClockWentBack(now, lastSeen))
    case FromStorage =>
      var firstRun := stored.firstRun.value;
      var lastSeen := NumOr(stored.lastSeen, Some(now)).value;
      TrialData(firstRun, now, TextOr(stored.deviceHash, hash(firstRun)),
                ClockWentBack(now, lastSeen))
    case Fresh =>
      TrialData(now, now, hash(now), false)
  }

  /** The record as it is stored back. */
  function Saved(d: TrialData): StoredTrial {
    StoredTrial(Some(d.firstRun), Some(d.lastSeen), Some(d.deviceHash), Some(d.tampered))
  }

  /** `isTrialExpired`'s decision at time `at`. */
  predicate Expired(d: TrialData, at: int) {
    d.tampered || at - d.firstRun > TrialDuration
  }

  /** `Math.ceil(a / b)` for a positive `b`. */
  function CeilDiv(a: int, b: int): (q: int)
    requires b > 0
    ensures (q - 1) * b < a <= q * b
  {
    var f := (-a) / b;
    assert -a == b * f + (-a) % b;
    -f
  }

  /** `getTrialDaysRemaining`'s arithmetic: whole days left, rounded up, never negative. */
  function DaysRemaining(firstRun: int, at: int): (days: int)
    ensures days >= 0
    ensures days == 0 <==> at - firstRun >= TrialDuration
    ensures days > 0 ==> (days - 1) * Day < TrialDuration - (at - firstRun) <= days * Day
  {
    var remaining := TrialDuration - (at - firstRun);
    var q := CeilDiv(remaining, Day);
    if q > 0 then q else 0
  }

  /** The install time the operating system reports decides the first run, whatever is
      stored; a stored hash that differs from this device's digest is tampering, a missing
      one is not. */
  lemma OsInstallTimeWins(stored: StoredTrial, os: int, now: int, hash: int -> string)
    requires os != 0
    ensures var d := TrialOf(stored, Some(os), now, hash);
      && d.firstRun == os && d.deviceHash == hash(os)
      && (stored.deviceHash.Some? && stored.deviceHash.value != "" && stored.deviceHash.value != hash(os)
          ==> d.tampered)
      && (TextOr(stored.deviceHash, "") == "" && stored.lastSeen.None? ==> !d.tampered)
  {
  }

  /** Without an install time from the system, the stored first run is used and its hash is
      never checked: only the clock can flag tampering. With nothing stored either, the trial
      starts now. */
  lemma FallbackTrustsStoredHash(stored: StoredTrial, os: Option<int>, now: int,
                                 hash: int -> string)
    requires NumOr(os, None).None?
    ensures var d := TrialOf(stored, os, now, hash);
      && (OriginOf(os, stored) == FromStorage ==>
            d.firstRun == stored.firstRun.value
            && (d.tampered <==> ClockWentBack(now, NumOr(stored.lastSeen, Some(now)).value)))
      && (OriginOf(os, stored) == Fresh ==> d == TrialData(now, now, hash(now), false))
  {
  }

  /** The returned data always carries the current time as last seen, and a clock more than
      a minute behind the stored last-seen time is tampering. */
  lemma ClockBackTampers(stored: StoredTrial, os: Option<int>, now: int, hash: int -> string)
    ensures TrialOf(stored, os, now, hash).lastSeen == now
    ensures OriginOf(os, stored) != Fresh && NumOr(stored.lastSeen, None).Some?
            && ClockWentBack(now, stored.lastSeen.value)
            ==> TrialOf(stored, os, now, hash).tampered
  {
  }

  /** What one read stores the next read takes back: the first run survives as long as it is
      not the zero time. Every flag is forgotten: because the stored record gets this device's
      own digest and the current time, the next read is untampered unless the clock has gone
      back since. */
  lemma NextRunForgetsTampering(stored: StoredTrial, os: Option<int>, now: int, later: int,
                                hash: int -> string)
    requires TrialOf(stored, os, now, hash).firstRun != 0
    ensures var d := TrialOf(stored, os, now, hash);
      var d' := TrialOf(Saved(d), os, later, hash);
      && d'.firstRun == d.firstRun
      && (later >= now - ClockTolerance ==> !d'.tampered)
  {
  }

  /** The days shown and the expiry decision agree for an untampered trial: no day is left
      once the trial has expired, and a trial with days left has not expired. At exactly
      seven days the trial is not yet expired but no day is shown; at most seven are shown. */
  lemma DaysAgreeWithExpiry(d: TrialData, at: int)
    requires !d.tampered
    ensures Expired(d, at) ==> DaysRemaining(d.firstRun, at) == 0
    ensures DaysRemaining(d.firstRun, at) > 0 ==> !Expired(d, at)
    ensures at - d.firstRun == TrialDuration ==> !Expired(d, at) && DaysRemaining(d.firstRun, at) == 0
    ensures at >= d.firstRun ==> DaysRemaining(d.firstRun, at) <= 7
  {
  }

  /** The stored `@nextouch_trial` record. */
  class TrialStore {
    var stored: StoredTrial

    constructor (stored: StoredTrial)
      ensures this.stored == stored
    {
      this.stored := stored;
    }

    /** `getTrialData` at `now`, with the system's install time `osInstallTime`. */
    method GetTrialData(now: int, osInstallTime: Option<int>, hash: int -> string)
      returns (data: TrialData)
      modifies this
      ensures data == TrialOf(old(stored), osInstallTime, now, hash)
      ensures stored == Saved(data)
    {
      var storedData := stored;
      var firstRun: int;
      var lastSeen: int;
      var deviceHash: string;
      var tampered := false;
      if osInstallTime.Some? && osInstallTime.value != 0 {
        firstRun := osInstallTime.value;
        lastSeen := NumOr(storedData.lastSeen, Some(now)).value;
        deviceHash := hash(firstRun);
        if TextOr(storedData.deviceHash, "") != "" && storedData.deviceHash.value != deviceHash {
          tampered := true;
        }
      } else if storedData.firstRun.Some? && storedData.firstRun.value != 0 {
        firstRun := storedData.firstRun.value;
        lastSeen := NumOr(storedData.lastSeen, Some(now)).value;
        deviceHash := TextOr(storedData.deviceHash, hash(firstRun));
      } else {
        firstRun := now;
        lastSeen := now;
        deviceHash := hash(firstRun);
      }
      if now < lastSeen - ClockTolerance {
        tampered := true;
      }
      data := TrialData(firstRun, now, deviceHash, tampered);
      stored := Saved(data);
    }

    /** `isTrialExpired`: the trial data is read at `now`, the elapsed time at `checkedAt`. */
    method IsTrialExpired(now: int, checkedAt: int, osInstallTime: Option<int>,
                          hash: int -> string) returns (expired: bool)
      modifies this
      ensures var d := TrialOf(old(stored), osInstallTime, now, hash);
        expired == Expired(d, checkedAt) && stored == Saved(d)
    {
      var trialData := GetTrialData(now, osInstallTime, hash);
      if trialData.tampered {
        return true;
      }
      expired := checkedAt - trialData.firstRun > TrialDuration;
    }

    /** `getTrialDaysRemaining`: the tampered flag plays no part. */
    method GetTrialDaysRemaining(now: int, checkedAt: int, osInstallTime: Option<int>,
                                 hash: int -> string) returns (days: int)
      modifies this
      ensures var d := TrialOf(old(stored), osInstallTime, now, hash);
        days == DaysRemaining(d.firstRun, checkedAt) && stored == Saved(d)
    {
      var trialData := GetTrialData(now, osInstallTime, hash);
      var elapsed := checkedAt - trialData.firstRun;
      var remaining := TrialDuration - elapsed;
      var q := CeilDiv(remaining, Day);
      days := if 0 < q then q else 0;
    }
  }
}

=== FILE: mouse_control.dfy ===
/** The desktop's mouse control (desktop/src/main/mouseControl.ts): the motion-smoothing engine
    that turns bursty gesture deltas into a steady stream of small integer moves, the encoders
    of the bridge's line commands, and the guard that writes a line to the bridge process.

    Numbers are `real`: the engine's conservation and termination arguments are exact over the
    reals; the rounding of IEEE doubles is not modelled. */
module MouseControl {
  import opened Wrappers
  import opened Text

  /** The factor applied to every gesture delta. */
  const Sensitivity: real := 2.5
  /** The factor applied to every scroll delta. */
  const ScrollSensitivity: real := 7.5
  /** Below this magnitude on both axes the buffer counts as drained. */
  const IdleThreshold: real := 0.1
  /** A tick moves a third of the buffer. */
  const Chunks: real := 3.0

  function Abs(x: real): real { if x < 0.0 then -x else x }

  /** `Math.round(x)`, which is floor(x + 0.5): halves are rounded up. */
  function Round(x: real): (n: int)
    ensures n as real - 0.5 <= x < n as real + 0.5
  {
    (x + 0.5).Floor
  }

  /** The bridge's letter for a button name: left is L, right is R, anything else M. */
  function ButtonLetter(button: string): string {
    if button == "left" then "L" else if button == "right" then "R" else "M"
  }

  // The bridge lines the control writes, as its template literals build them.
  function MoveLine(dx: int, dy: int): string { "M " + IntToString(dx) + " " + IntToString(dy) }
  function ClickLine(button: string): string { "C " + ButtonLetter(button) }
  function DownLine(button: string): string { "D " + ButtonLetter(button) }
  function UpLine(button: string): string { "U " + ButtonLetter(button) }
  /** Vertical first, then horizontal, each scaled by 7.5 and rounded. */
  function ScrollLine(dx: real, dy: real): string {
    "S " + IntToString(Round(dy * ScrollSensitivity)) + " " + IntToString(Round(dx * ScrollSensitivity))
  }
  function KeyLine(text: string): string { "K " + text }

  /** The bridge's standard input once `lines` have been sent: `send` ends every command with
      a line feed, and the text reaches the bridge as one stream of characters. */
  function Pipe(lines: seq<string>): string {
    if lines == [] then "" else lines[0] + "\n" + Pipe(lines[1..])
  }

  /** One axis of the engine: the movement not yet emitted and the carried sub-pixel fraction. */
  datatype Axis = Axis(buffer: real, remainder: real)

  /** Both axes. */
  datatype Motion = Motion(x: Axis, y: Axis)

  /** The part of the buffer one tick moves: a third of it, or all of it below one unit. */
  function StepOf(buffer: real): (step: real)
    ensures Abs(buffer) < 1.0 ==> step == buffer
    ensures Abs(buffer) >= 1.0 ==> step * Chunks == buffer
  {
    if Abs(buffer) < 1.0 then buffer else buffer / Chunks
  }

  /** One tick on one axis: the new axis and the integer move it emits. */
  function Advance(a: Axis): (r: (Axis, int))
    // nothing is lost: what leaves the buffer is emitted or carried
    ensures r.0.buffer + r.0.remainder + r.1 as real == a.buffer + a.remainder
    ensures -0.5 <= r.0.remainder < 0.5
    ensures Abs(a.buffer) < 1.0 ==> r.0.buffer == 0.0
    ensures Abs(a.buffer) >= 1.0 ==> Chunks * r.0.buffer == 2.0 * a.buffer
  {
    var step := StepOf(a.buffer);
    var raw := step + a.remainder;
    var move := Round(raw);
    (Axis(a.buffer - step, raw - move as real), move)
  }

  predicate Idle(m: Motion) {
    Abs(m.x.buffer) < IdleThreshold && Abs(m.y.buffer) < IdleThreshold
  }

  /** What one run of the 8 ms interval does: the new state, whether the interval keeps
      running, and the rounded moves (both 0 when it stops). */
  datatype TickOutcome = TickOutcome(next: Motion, running: bool, moveX: int, moveY: int)

  /** An `M` line goes out for the outcome. */
  predicate Emits(o: TickOutcome) { o.moveX != 0 || o.moveY != 0 }

  function TickOf(m: Motion): (o: TickOutcome)
    // a drained buffer stops the loop, is zeroed exactly and keeps its remainders
    ensures Idle(m) <==> !o.running
    ensures Idle(m) ==> o.next == Motion(Axis(0.0, m.x.remainder), Axis(0.0, m.y.remainder)) && !Emits(o)
    // otherwise each axis keeps its balance and its remainder stays in [-0.5, 0.5)
    ensures !Idle(m) ==> o.next.x.buffer + o.next.x.remainder + o.moveX as real == m.x.buffer + m.x.remainder
    ensures !Idle(m) ==> o.next.y.buffer + o.next.y.remainder + o.moveY as real == m.y.buffer + m.y.remainder
    ensures !Idle(m) ==> -0.5 <= o.next.x.remainder < 0.5 && -0.5 <= o.next.y.remainder < 0.5
  {
    if Idle(m) then
      TickOutcome(Motion(Axis(0.0, m.x.remainder), Axis(0.0, m.y.remainder)), false, 0, 0)
    else
      var (x, mx) := Advance(m.x);
      var (y, my) := Advance(m.y);
      TickOutcome(Motion(x, y), true, mx, my)
  }

  /** A natural number that every tick of a running loop decreases. */
  function AxisMeasure(a: Axis): nat {
    if a.buffer == 0.0 then 0 else (3.0 * Abs(a.buffer)).Floor + 1
  }

  function Measure(m: Motion): nat { AxisMeasure(m.x) + AxisMeasure(m.y) }

  lemma AdvanceShrinks(a: Axis)
    ensures AxisMeasure(Advance(a).0) <= AxisMeasure(a)
    ensures a.buffer != 0.0 ==> AxisMeasure(Advance(a).0) < AxisMeasure(a)
  {
    var b := Advance(a).0.buffer;
    if Abs(a.buffer) >= 1.0 {
      assert 3.0 * Abs(b) == 2.0 * Abs(a.buffer);
      assert 3.0 * Abs(b) <= 3.0 * Abs(a.buffer) - 1.0;
      FloorShift(3.0 * Abs(a.buffer));
    }
  }

  lemma FloorShift(z: real)
    ensures (z - 1.0).Floor == z.Floor - 1
  {
  }

  /** Draining terminates: without new moves every tick of a running loop makes the
      measure smaller, so the stop condition comes after finitely many ticks. */
  lemma TickShrinks(m: Motion)
    requires !Idle(m)
    ensures Measure(TickOf(m).next) < Measure(m)
  {
    AdvanceShrinks(m.x);
    AdvanceShrinks(m.y);
  }

  /** After a tick that moved, each buffer is either zero or at least 2/3 in magnitude. */
  lemma MovedBuffersAreZeroOrLarge(m: Motion)
    requires !Idle(m)
    ensures var n := TickOf(m).next;
      (n.x.buffer == 0.0 || Abs(n.x.buffer) >= 2.0 / 3.0) && (n.y.buffer == 0.0 || Abs(n.y.buffer) >= 2.0 / 3.0)
  {
  }

  /** The whole life of a buffer episode with no new moves: the state the loop stops in,
      the sum of the moves emitted, the residue discarded at the stop, and the tick count. */
  datatype Drained = Drained(final: Motion, sumX: int, sumY: int, residueX: real, residueY: real, ticks: nat)

  function Drain(m: Motion): (d: Drained)
    decreases Measure(m)
    ensures d.final.x.buffer == 0.0 && d.final.y.buffer == 0.0
    ensures d.sumX as real + d.final.x.remainder + d.residueX == m.x.buffer + m.x.remainder
    ensures d.sumY as real + d.final.y.remainder + d.residueY == m.y.buffer + m.y.remainder
    ensures Abs(d.residueX) < IdleThreshold && Abs(d.residueY) < IdleThreshold
    ensures !Idle(m) ==> d.residueX == 0.0 && d.residueY == 0.0
    ensures !Idle(m) ==> -0.5 <= d.final.x.remainder < 0.5 && -0.5 <= d.final.y.remainder < 0.5
    ensures Idle(m) ==> d.final.x.remainder == m.x.remainder && d.final.y.remainder == m.y.remainder
  {
    var o := TickOf(m);
    if !o.running then
      Drained(o.next, 0, 0, m.x.buffer, m.y.buffer, 1)
    else
      TickShrinks(m);
      MovedBuffersAreZeroOrLarge(m);
      var rest := Drain(o.next);
      Drained(rest.final, o.moveX + rest.sumX, o.moveY + rest.sumY, rest.residueX, rest.residueY, rest.ticks + 1)
  }

  /** The engine's guarantee: once the loop has stopped, the moves emitted over the episode
      add up, on each axis, to the buffered delta within less than one unit, provided the
      carried remainders started in [-0.5, 0.5) as every tick leaves them. */
  lemma DrainWithinOneUnit(m: Motion)
    requires -0.5 <= m.x.remainder < 0.5 && -0.5 <= m.y.remainder < 0.5
    ensures Abs(Drain(m).sumX as real - m.x.buffer) < 1.0
    ensures Abs(Drain(m).sumY as real - m.y.buffer) < 1.0
  {
    var d := Drain(m);
    if Idle(m) {
      assert d.sumX as real - m.x.buffer == -d.residueX;
      assert d.sumY as real - m.y.buffer == -d.residueY;
    } else {
      assert d.sumX as real - m.x.buffer == m.x.remainder - d.final.x.remainder;
      assert d.sumY as real - m.y.buffer == m.y.remainder - d.final.y.remainder;
    }
  }

  /** The motion after `move(dx, dy)`: each delta, scaled, joins its buffer. */
  function Pushed(m: Motion, dx: real, dy: real): Motion {
    Motion(Axis(m.x.buffer + Sensitivity * dx, m.x.remainder), Axis(m.y.buffer + Sensitivity * dy, m.y.remainder))
  }

  const AtRest: Motion := Motion(Axis(0.0, 0.0), Axis(0.0, 0.0))

  /** `n` rounds of `move(dx, 0)` each followed by one tick, from rest: the motion left and the
      total moved on the horizontal axis. */
  function Creep(n: nat, dx: real): (Motion, int) {
    if n == 0 then (AtRest, 0)
    else
      var prev := Creep(n - 1, dx);
      var o := TickOf(Pushed(prev.0, dx, 0.0));
      (o.next, prev.1 + o.moveX)
  }

  /** The one-unit guarantee holds for one episode only: a move too small to reach the stop
      threshold is zeroed by the tick that stops the loop, so a run of such moves, each
      followed by a tick, is lost entirely. Moving by 0.012 (0.03 once scaled) 34 times
      buffers 1.02 and emits nothing. */
  lemma {:induction false} SmallMovesAreLost(n: nat, dx: real)
    requires Abs(Sensitivity * dx) < IdleThreshold
    ensures Creep(n, dx) == (AtRest, 0)
    ensures dx == 0.012 && n >= 34 ==> n as real * Sensitivity * dx - Creep(n, dx).1 as real > 1.0
  {
    if n > 0 {
      SmallMovesAreLost(n - 1, dx);
      assert Idle(Pushed(AtRest, dx, 0.0));
    }
  }

  /** A mouseControl call made by the relay server. `None` for an absent argument, which
      JavaScript replaces by the parameter's default. */
  datatype Call =
    | MoveCall(dx: real, dy: real)
    | ClickCall(button: Option<string>, double: bool)
    | ScrollCall(sdx: real, sdy: real)
    | DownCall(downButton: string)
    | UpCall(upButton: string)
    | TypeCall(text: string)

  /** The module-wide state of mouseControl.ts: the bridge process, the lines written to its
      input, the smoothing buffers and the animation interval. */
  class MouseControl {
    /** The platform is Windows; elsewhere nothing is ever sent. */
    const onWindows: bool
    /** Spawning the bridge does not throw. */
    const spawnWorks: bool
    /** A bridge process has been spawned. */
    var procRunning: bool
    /** The lines written to the bridge's input, in order. */
    var written: seq<string>
    var bufferX: real
    var bufferY: real
    var remainderX: real
    var remainderY: real
    /** The 8 ms interval exists. */
    var loopRunning: bool
    /** Second `C` lines of double clicks, each waiting for its 100 ms timer, oldest first. */
    var repeats: seq<string>

    /** A process exists only where it could be spawned, and the carried fractions are in
        [-0.5, 0.5), as every tick leaves them; `DrainWithinOneUnit` thus applies to the
        motion the class holds at any point. */
    ghost predicate Valid()
      reads this
    {
      && (procRunning ==> onWindows && spawnWorks)
      && -0.5 <= remainderX < 0.5 && -0.5 <= remainderY < 0.5
    }

    /** `send` finds a process handle and writes the line to its input. Spawning a missing
        executable does not throw either, so the handle may belong to a process that never
        reads it; the model does not tell the two apart. */
    predicate Delivers()
      reads this
    {
      onWindows && spawnWorks
    }

    /** What `send(line)` adds to the bridge's input. */
    function Out(line: string): seq<string>
      reads this
    {
      if Delivers() then [line] else []
    }

    function Snapshot(): Motion
      reads this
    {
      Motion(Axis(bufferX, remainderX), Axis(bufferY, remainderY))
    }

    constructor (onWindows: bool, spawnWorks: bool)
      ensures Valid()
      ensures this.onWindows == onWindows && this.spawnWorks == spawnWorks
      ensures !procRunning && written == [] && repeats == [] && !loopRunning
      ensures Snapshot() == Motion(Axis(0.0, 0.0), Axis(0.0, 0.0))
    {
      this.onWindows := onWindows;
      this.spawnWorks := spawnWorks;
      procRunning := false;
      written := [];
      bufferX, bufferY, remainderX, remainderY := 0.0, 0.0, 0.0, 0.0;
      loopRunning := false;
      repeats := [];
    }

    /** `ensureProc`: spawn the bridge unless one runs; false off Windows or when spawning throws. */
    method EnsureProc() returns (ok: bool)
      requires Valid()
      modifies this`procRunning
      ensures Valid()
      ensures ok == Delivers()
      ensures procRunning == (old(procRunning) || Delivers())
    {
      if !onWindows {
        return false;
      }
      if !procRunning {
        if !spawnWorks {
          return false;
        }
        procRunning := true;
      }
      return true;
    }

    /** `send(cmd)`: one line to the bridge, when there is one. */
    method Send(cmd: string)
      requires Valid()
      modifies this`procRunning, this`written
      ensures Valid()
      ensures procRunning == (old(procRunning) || Delivers())
      ensures written == old(written) + Out(cmd)
    {
      var ok := EnsureProc();
      if ok {
        written := written + [cmd];
      }
    }

    /** `move(dx, dy)`: add the scaled delta to the buffer and make sure the loop runs. */
    method Move(dx: real, dy: real)
      modifies this`bufferX, this`bufferY, this`loopRunning
      ensures Snapshot() == Pushed(old(Snapshot()), dx, dy)
      ensures loopRunning
    {
      bufferX := bufferX + dx * Sensitivity;
      bufferY := bufferY + dy * Sensitivity;
      EnsureLoop();
    }

    /** `ensureLoop`: start the interval only if none exists. */
    method EnsureLoop()
      modifies this`loopRunning
      ensures loopRunning
    {
      if loopRunning {
        return;
      }
      loopRunning := true;
    }

    /** One run of the 8 ms interval body. */
    method Tick()
      requires Valid() && loopRunning
      modifies this`bufferX, this`bufferY, this`remainderX, this`remainderY, this`loopRunning
      modifies this`procRunning, this`written
      ensures Valid()
      ensures Snapshot() == TickOf(old(Snapshot())).next
      ensures loopRunning == TickOf(old(Snapshot())).running
      ensures var o := TickOf(old(Snapshot()));
        written == old(written) + (if Emits(o) then Out(MoveLine(o.moveX, o.moveY)) else [])
      ensures procRunning == (old(procRunning) || (Emits(TickOf(old(Snapshot()))) && Delivers()))
    {
      ghost var m := Snapshot();
      if Abs(bufferX) < IdleThreshold && Abs(bufferY) < IdleThreshold {
        if loopRunning {
          loopRunning := false;
        }
        bufferX := 0.0;
        bufferY := 0.0;
        return;
      }
      var stepX := bufferX / Chunks;
      var stepY := bufferY / Chunks;
      if Abs(bufferX) < 1.0 {
        stepX := bufferX;
      }
      if Abs(bufferY) < 1.0 {
        stepY := bufferY;
      }
      assert stepX == StepOf(m.x.buffer) && stepY == StepOf(m.y.buffer);
      bufferX := bufferX - stepX;
      bufferY := bufferY - stepY;
      var rawMoveX := stepX + remainderX;
      var rawMoveY := stepY + remainderY;
      var moveX := Round(rawMoveX);
      var moveY := Round(rawMoveY);
      remainderX := rawMoveX - moveX as real;
      remainderY := rawMoveY - moveY as real;
      assert Advance(m.x) == (Axis(bufferX, remainderX), moveX);
      assert Advance(m.y) == (Axis(bufferY, remainderY), moveY);
      assert TickOf(m) == TickOutcome(Snapshot(), true, moveX, moveY);
      if moveX != 0 || moveY != 0 {
        Send(MoveLine(moveX, moveY));
      }
    }

    /** `click(button = 'left', double = false)`: one `C` line now, and a second one from a
        100 ms timer when double. */
    method Click(button: Option<string>, double: bool)
      requires Valid()
      modifies this`procRunning, this`written, this`repeats
      ensures Valid()
      ensures procRunning == (old(procRunning) || Delivers())
      ensures written == old(written) + Out(ClickLine(button.GetOr("left")))
      ensures repeats == old(repeats) + (if double then [ClickLine(button.GetOr("left"))] else [])
    {
      var b := button.GetOr("left");
      Send(ClickLine(b));
      if double {
        repeats := repeats + [ClickLine(b)];
      }
    }

    /** The 100 ms timer of the oldest double click fires. */
    method RepeatFires()
      requires Valid() && repeats != []
      modifies this`procRunning, this`written, this`repeats
      ensures Valid()
      ensures procRunning == (old(procRunning) || Delivers())
      ensures written == old(written) + Out(old(repeats)[0])
      ensures repeats == old(repeats)[1..]
    {
      var line := repeats[0];
      repeats := repeats[1..];
      Send(line);
    }

    /** `mouseDown(button)`. */
    method MouseDown(button: string)
      requires Valid()
      modifies this`procRunning, this`written
      ensures Valid()
      ensures procRunning == (old(procRunning) || Delivers())
      ensures written == old(written) + Out(DownLine(button))
    {
      Send(DownLine(button));
    }

    /** `mouseUp(button)`. */
    method MouseUp(button: string)
      requires Valid()
      modifies this`procRunning, this`written
      ensures Valid()
      ensures procRunning == (old(procRunning) || Delivers())
      ensures written == old(written) + Out(UpLine(button))
    {
      Send(UpLine(button));
    }

    /** `scroll(dx, dy)`. */
    method Scroll(dx: real, dy: real)
      requires Valid()
      modifies this`procRunning, this`written
      ensures Valid()
      ensures procRunning == (old(procRunning) || Delivers())
      ensures written == old(written) + Out(ScrollLine(dx, dy))
    {
      Send(ScrollLine(dx, dy));
    }

    /** `type(text)`. */
    method Type(text: string)
      requires Valid()
      modifies this`procRunning, this`written
      ensures Valid()
      ensures procRunning == (old(procRunning) || Delivers())
      ensures written == old(written) + Out(KeyLine(text))
    {
      Send(KeyLine(text));
    }

    /** The effect of one call that writes `line` and queues `queued`: nothing else moves. */
    twostate predicate WroteLine(line: string, queued: seq<string>)
      reads this
    {
      && Snapshot() == old(Snapshot()) && loopRunning == old(loopRunning)
      && procRunning == (old(procRunning) || Delivers())
      && written == old(written) + Out(line)
      && repeats == old(repeats) + queued
    }

    /** The effect of one call on the control, relative to the state before it: the
        buffers for a move, one line (and maybe a queued repeat) for the others. */
    twostate predicate Did(call: Call)
      reads this
    {
      match call
      case MoveCall(dx, dy) =>
        && bufferX == old(bufferX) + Sensitivity * dx && bufferY == old(bufferY) + Sensitivity * dy
        && loopRunning && remainderX == old(remainderX) && remainderY == old(remainderY)
        && written == old(written) && repeats == old(repeats) && procRunning == old(procRunning)
      case ClickCall(button, double) =>
        WroteLine(ClickLine(button.GetOr("left")), if double then [ClickLine(button.GetOr("left"))] else [])
      case ScrollCall(dx, dy) => WroteLine(ScrollLine(dx, dy), [])
      case DownCall(b) => WroteLine(DownLine(b), [])
      case UpCall(b) => WroteLine(UpLine(b), [])
      case TypeCall(t) => WroteLine(KeyLine(t), [])
    }

    /** Make one call. */
    method Perform(call: Call)
      requires Valid()
      modifies this
      ensures Valid()
      ensures Did(call)
    {
      match call
      case MoveCall(dx, dy) => Move(dx, dy);
      case ClickCall(button, double) => Click(button, double);
      case ScrollCall(dx, dy) => Scroll(dx, dy);
      case DownCall(b) => MouseDown(b);
      case UpCall(b) => MouseUp(b);
      case TypeCall(t) => Type(t);
    }
  }

  /** Whatever calls came before, the moves still to come from the buffers the control holds
      add up to those buffers within less than one unit on each axis. */
  lemma HeldMotionDrainsWithinOneUnit(c: MouseControl)
    requires c.Valid()
    ensures Abs(Drain(c.Snapshot()).sumX as real - c.bufferX) < 1.0
    ensures Abs(Drain(c.Snapshot()).sumY as real - c.bufferY) < 1.0
  {
    DrainWithinOneUnit(c.Snapshot());
  }
}

=== FILE: p2p_client.dfy ===
/** The phone's connection to the desktop (mobile/services/P2PClient.ts): it tries the advertised
    addresses one after another, authenticates with the session token, remembers the address
    that worked, and after a drop keeps retrying that address alone.

    Sockets are records: the model keeps the current socket's identity, target and flags, and a
    log of what the client did on the wire. The WebSocket constructor's refusals are an input
    (`rejects`), and every socket event and timer fire is a method call. */
module P2PClient {
  import opened Wrappers
  import opened Text

  datatype Status = Disconnected | Connecting | Connected | Error

  /** The message of the status reached when every address has been tried. */
  const NoAddressLeft: string := "Could not connect to any IP address"

  /** One WebSocket: its identity, target, the token its handlers send, whether it is open,
      whether it is closed (or closing), and whether its close handler is still attached. */
  datatype Socket = Socket(id: nat, ip: string, port: int, token: string,
                           open: bool, closed: bool, closeHandler: bool)

  datatype Config = Config(ips: seq<string>, port: int, token: string)

  /** The data fields of an input message. */
  datatype Payload =
    | NoData
    | Delta(dx: real, dy: real)
    | Press(button: string, double: bool)
    | Button(name: string)
    | Key(key: string)

  datatype Outgoing = AuthRequest(token: string) | Input(kind: string, data: Payload)

  /** What the client did on the network. */
  datatype Wire = Dial(id: nat, ip: string, port: int) | Hangup(id: nat) | Transmit(id: nat, frame: Outgoing)

  /** One call of a status listener. */
  datatype Note = Note(listener: nat, status: Status, message: Option<string>)

  /** A message received from the desktop. */
  datatype Incoming = AuthOkReply | AuthErrorReply(message: Option<string>) | OtherReply

  /** The argument of `connect`: one address or a list of them. */
  datatype Addresses = Single(ip: string) | List(ips: seq<string>)

  /** Every field of the client. `ws` is None for null, `config` None for null. */
  datatype ClientState = ClientState(
    ws: Option<Socket>, status: Status, listeners: seq<nat>, notes: seq<Note>,
    intervalRunning: bool, config: Option<Config>, ipIndex: nat, connectedIp: Option<string>,
    timeoutPending: bool, nextSocketId: nat, wire: seq<Wire>)

  const Initial: ClientState :=
    ClientState(None, Disconnected, [], [], false, None, 0, None, false, 0, [])

  /** The facts every reachable state keeps. */
  predicate Inv(s: ClientState) {
    && (s.ws.Some? ==> s.ws.value.id < s.nextSocketId)
    && (s.ws.Some? && s.ws.value.open ==> !s.ws.value.closed)
    && (s.status == Connecting ==> s.config.Some?)
  }

  /** The calls `setStatus` makes: each listener, in order, with the status and message. */
  function NotesFor(listeners: seq<nat>, status: Status, message: Option<string>): (r: seq<Note>)
    ensures |r| == |listeners|
    ensures forall i :: 0 <= i < |r| ==> r[i] == Note(listeners[i], status, message)
  {
    if listeners == [] then []
    else NotesFor(listeners[..|listeners| - 1], status, message)
         + [Note(listeners[|listeners| - 1], status, message)]
  }

  predicate EndsWith<T(==)>(a: seq<T>, b: seq<T>) { |b| <= |a| && a[|a| - |b|..] == b }

  /** `setStatus(status, message)`. */
  function SetStatusSpec(s: ClientState, status: Status, message: Option<string>): ClientState {
    s.(status := status, notes := s.notes + NotesFor(s.listeners, status, message))
  }

  /** The hang-up that closing the current socket sends, if it is still live. */
  function Hangups(s: ClientState): seq<Wire> {
    if s.ws.Some? && !s.ws.value.closed then [Hangup(s.ws.value.id)] else []
  }

  /** `ws.close()` on the current socket, detaching its close handler first when `detach`. */
  function CloseSpec(s: ClientState, detach: bool): (t: ClientState)
    ensures t.ws.Some? <==> s.ws.Some?
    ensures t.ws.Some? ==> t.ws.value.closed && !t.ws.value.open && t.ws.value.id == s.ws.value.id
    ensures detach && t.ws.Some? ==> !t.ws.value.closeHandler
    ensures t.wire == s.wire + Hangups(s)
    ensures t == s.(ws := t.ws, wire := t.wire)
  {
    match s.ws
    case None => s
    case Some(w) =>
      s.(ws := Some(w.(open := false, closed := true, closeHandler := w.closeHandler && !detach)),
         wire := s.wire + Hangups(s))
  }

  /** The addresses `tryNextIp` may still try. */
  function Untried(s: ClientState): nat {
    if s.config.Some? && s.ipIndex < |s.config.value.ips| then |s.config.value.ips| - s.ipIndex else 0
  }

  /** What `tryNextIp` does before constructing the socket: clear the timeout, report
      `connecting`, and close the previous socket with its close handler detached. */
  function Prepare(s: ClientState): (p: ClientState)
    ensures p.config == s.config && p.ipIndex == s.ipIndex && p.connectedIp == s.connectedIp
    ensures p.intervalRunning == s.intervalRunning && p.listeners == s.listeners
    ensures p.nextSocketId == s.nextSocketId && p.status == Connecting
    ensures p.wire == s.wire + Hangups(s) && Hangups(p) == []
    ensures p.notes == s.notes + NotesFor(s.listeners, Connecting, None)
    ensures p.ws.Some? <==> s.ws.Some?
    ensures p.ws.Some? ==> p.ws.value.closed && !p.ws.value.open && p.ws.value.id == s.ws.value.id
  {
    CloseSpec(SetStatusSpec(s.(timeoutPending := false), Connecting, None), true)
  }

  /** The new socket to `ip`, with its handlers attached and its timeout armed. */
  function Dialed(p: ClientState, ip: string, c: Config): (t: ClientState)
    ensures t.config == p.config && t.ipIndex == p.ipIndex && t.connectedIp == p.connectedIp
    ensures t.intervalRunning == p.intervalRunning && t.listeners == p.listeners
    ensures t.notes == p.notes && t.status == p.status && t.timeoutPending
    ensures t.ws == Some(Socket(p.nextSocketId, ip, c.port, c.token, false, false, true))
    ensures t.nextSocketId == p.nextSocketId + 1
    ensures t.wire == p.wire + [Dial(p.nextSocketId, ip, c.port)]
  {
    p.(ws := Some(Socket(p.nextSocketId, ip, c.port, c.token, false, false, true)),
       nextSocketId := p.nextSocketId + 1,
       wire := p.wire + [Dial(p.nextSocketId, ip, c.port)],
       timeoutPending := true)
  }

  /** Every address tried: report the error. */
  function Exhausted(s: ClientState): (t: ClientState)
    ensures t.config == s.config && t.ipIndex == s.ipIndex && t.connectedIp == s.connectedIp
    ensures t.intervalRunning == s.intervalRunning && t.listeners == s.listeners
    ensures t.nextSocketId == s.nextSocketId && t.wire == s.wire && t.ws == s.ws
    ensures t.status == Error && !t.timeoutPending
    ensures t.notes == s.notes + NotesFor(s.listeners, Error, Some(NoAddressLeft))
  {
    SetStatusSpec(s.(timeoutPending := false), Error, Some(NoAddressLeft))
  }

  /** `tryNextIp`: attempt the current address; when the WebSocket constructor refuses it, move
      on to the next; when none is left, report the error. */
  function TryNextSpec(s: ClientState, rejects: set<(string, int)>): (t: ClientState)
    decreases Untried(s)
    ensures t.config == s.config && t.connectedIp == s.connectedIp
    ensures t.intervalRunning == s.intervalRunning && t.listeners == s.listeners
    ensures s.config.None? ==> t == s
  {
    if s.config.None? then s
    else
      var c := s.config.value;
      if s.ipIndex >= |c.ips| then Exhausted(s)
      else
        var ip := c.ips[s.ipIndex];
        var p := Prepare(s);
        if (ip, c.port) in rejects then TryNextSpec(p.(ipIndex := s.ipIndex + 1), rejects)
        else Dialed(p, ip, c)
  }

  /** The WebSocket constructor refuses the k-th address of the configuration. */
  predicate Refused(c: Config, k: int, rejects: set<(string, int)>) {
    0 <= k < |c.ips| && (c.ips[k], c.port) in rejects
  }

  /** The first address from the k-th on that the WebSocket constructor accepts, or the
      number of addresses when it refuses them all. */
  function StopAt(c: Config, k: nat, rejects: set<(string, int)>): (stop: nat)
    decreases |c.ips| - k
    ensures k <= stop
    ensures forall j :: k <= j < stop ==> Refused(c, j, rejects)
    ensures stop < |c.ips| ==> (c.ips[stop], c.port) !in rejects
  {
    if k < |c.ips| && (c.ips[k], c.port) in rejects then StopAt(c, k + 1, rejects) else k
  }

  /** `tryNextIp` stops at that address. */
  lemma {:induction false} TryNextStopsAt(s: ClientState, rejects: set<(string, int)>)
    requires s.config.Some?
    decreases Untried(s)
    ensures TryNextSpec(s, rejects).ipIndex == StopAt(s.config.value, s.ipIndex, rejects)
  {
    var c := s.config.value;
    if s.ipIndex < |c.ips| && (c.ips[s.ipIndex], c.port) in rejects {
      TryNextStopsAt(Prepare(s).(ipIndex := s.ipIndex + 1), rejects);
    }
  }

  /** Which address `tryNextIp` stops at: the addresses it skips are exactly the refused ones,
      in order, and the one it stops at is accepted. */
  lemma TryNextSkips(s: ClientState, rejects: set<(string, int)>)
    requires s.config.Some?
    ensures var t := TryNextSpec(s, rejects); var c := s.config.value;
      && s.ipIndex <= t.ipIndex
      && (forall k :: s.ipIndex <= k < t.ipIndex ==> Refused(c, k, rejects))
      && (t.ipIndex < |c.ips| ==> (c.ips[t.ipIndex], c.port) !in rejects)
  {
    TryNextStopsAt(s, rejects);
  }

  /** Where `tryNextIp` stops, it either opens one socket to that address, closing the previous
      socket first, or opens none and reports the error. */
  lemma {:induction false} TryNextOutcome(s: ClientState, rejects: set<(string, int)>)
    requires s.config.Some?
    decreases Untried(s)
    ensures var t := TryNextSpec(s, rejects); var c := s.config.value;
      && (t.timeoutPending <==> t.ipIndex < |c.ips|)
      && (if t.ipIndex < |c.ips| then
            && t.status == Connecting
            && t.ws == Some(Socket(s.nextSocketId, c.ips[t.ipIndex], c.port, c.token, false, false, true))
            && t.nextSocketId == s.nextSocketId + 1
            && t.wire == s.wire + Hangups(s) + [Dial(s.nextSocketId, c.ips[t.ipIndex], c.port)]
          else
            && t.status == Error
            && t.nextSocketId == s.nextSocketId
            && t.wire == s.wire + (if s.ipIndex < |c.ips| then Hangups(s) else []))
  {
    var c := s.config.value;
    if s.ipIndex >= |c.ips| {
      assert TryNextSpec(s, rejects) == Exhausted(s);
    } else if (c.ips[s.ipIndex], c.port) in rejects {
      var s3 := Prepare(s).(ipIndex := s.ipIndex + 1);
      var t := TryNextSpec(s3, rejects);
      assert TryNextSpec(s, rejects) == t;
      TryNextOutcome(s3, rejects);
      if t.ipIndex < |c.ips| {
        assert t.wire == s3.wire + [Dial(s.nextSocketId, c.ips[t.ipIndex], c.port)];
      } else {
        assert s3.wire + [] == s3.wire;
      }
    } else {
      assert TryNextSpec(s, rejects) == Dialed(Prepare(s), c.ips[s.ipIndex], c);
    }
  }

  /** The listeners keep every call made before `tryNextIp`. */
  lemma {:induction false} TryNextKeepsNotes(s: ClientState, rejects: set<(string, int)>)
    requires s.config.Some?
    decreases Untried(s)
    ensures var t := TryNextSpec(s, rejects);
      |s.notes| <= |t.notes| && t.notes[..|s.notes|] == s.notes
  {
    var c := s.config.value;
    if s.ipIndex < |c.ips| && (c.ips[s.ipIndex], c.port) in rejects {
      var s3 := Prepare(s).(ipIndex := s.ipIndex + 1);
      assert TryNextSpec(s, rejects) == TryNextSpec(s3, rejects);
      TryNextKeepsNotes(s3, rejects);
      var n := TryNextSpec(s3, rejects).notes;
      assert n[..|s3.notes|] == s3.notes;
      assert n[..|s.notes|] == s3.notes[..|s.notes|];
    }
  }

  /** The listeners hear every status `tryNextIp` passes through, ending with the one it
      reaches. */
  lemma {:induction false} TryNextNotes(s: ClientState, rejects: set<(string, int)>)
    requires s.config.Some?
    decreases Untried(s)
    ensures var t := TryNextSpec(s, rejects);
      && |s.notes| <= |t.notes| && t.notes[..|s.notes|] == s.notes
      && EndsWith(t.notes, NotesFor(s.listeners, t.status, if t.status == Error then Some(NoAddressLeft) else None))
  {
    TryNextKeepsNotes(s, rejects);
    var c := s.config.value;
    if s.ipIndex < |c.ips| && (c.ips[s.ipIndex], c.port) in rejects {
      TryNextNotes(Prepare(s).(ipIndex := s.ipIndex + 1), rejects);
    }
  }

  /** `tryNextIp` keeps the invariant. */
  lemma {:induction false} TryNextKeepsInv(s: ClientState, rejects: set<(string, int)>)
    requires Inv(s)
    decreases Untried(s)
    ensures Inv(TryNextSpec(s, rejects))
  {
    if s.config.Some? {
      var c := s.config.value;
      if s.ipIndex < |c.ips| && (c.ips[s.ipIndex], c.port) in rejects {
        TryNextKeepsInv(Prepare(s).(ipIndex := s.ipIndex + 1), rejects);
      }
    }
  }

  /** `connect(ipOrIps, port, token)`. */
  function ConnectSpec(s: ClientState, target: Addresses, port: int, token: string,
                       rejects: set<(string, int)>): ClientState
  {
    var ips := match target case Single(ip) => [ip] case List(l) => l;
    TryNextSpec(s.(config := Some(Config(ips, port, token)), ipIndex := 0, connectedIp := None), rejects)
  }

  /** The `onopen` handler: send the authentication request. */
  function OpenSpec(s: ClientState): ClientState
    requires s.ws.Some? && !s.ws.value.closed && !s.ws.value.open
  {
    var w := s.ws.value;
    s.(ws := Some(w.(open := true)), wire := s.wire + [Transmit(w.id, AuthRequest(w.token))])
  }

  /** The `onmessage` handler. */
  function MessageSpec(s: ClientState, m: Incoming): ClientState
    requires s.ws.Some? && s.ws.value.open
  {
    match m
    case AuthOkReply =>
      SetStatusSpec(s.(timeoutPending := false, connectedIp := Some(s.ws.value.ip)), Connected, None)
        .(intervalRunning := false)
    case AuthErrorReply(message) =>
      SetStatusSpec(s.(timeoutPending := false), Error, message)
    case OtherReply => s
  }

  /** The current socket closes from the other side, then its `onclose` handler runs. */
  function ClosedSpec(s: ClientState): ClientState
    requires s.ws.Some? && !s.ws.value.closed
  {
    var w := s.ws.value;
    var s1 := s.(ws := Some(w.(open := false, closed := true)));
    if w.closeHandler && s.status == Connected && Truthy(s.connectedIp) then
      var s2 := SetStatusSpec(s1, Disconnected, None);
      if s.config.Some? && !s.intervalRunning then s2.(intervalRunning := true) else s2
    else s1
  }

  /** The 3 s connection timeout fires. */
  function TimeoutSpec(s: ClientState, rejects: set<(string, int)>): ClientState
    requires s.timeoutPending
  {
    var s1 := s.(timeoutPending := false);
    if s.status == Connecting then TryNextSpec(CloseSpec(s1, true).(ipIndex := s.ipIndex + 1), rejects)
    else s1
  }

  /** The 3 s reconnect interval fires: retry the address that worked, alone. */
  function IntervalSpec(s: ClientState, rejects: set<(string, int)>): ClientState
    requires s.intervalRunning
  {
    if s.config.Some? && Truthy(s.connectedIp) then
      TryNextSpec(s.(config := Some(s.config.value.(ips := [s.connectedIp.value])), ipIndex := 0), rejects)
    else s
  }

  /** `disconnect()`. */
  function DisconnectSpec(s: ClientState): ClientState {
    var s1 := s.(intervalRunning := false, config := None);
    var s2 := if s.ws.Some? then CloseSpec(s1, false).(ws := None) else s1;
    SetStatusSpec(s2, Disconnected, None)
  }

  /** `send(type, data)`: only an open socket transmits. */
  function SendSpec(s: ClientState, kind: string, data: Payload): ClientState {
    if s.ws.Some? && s.ws.value.open then s.(wire := s.wire + [Transmit(s.ws.value.id, Input(kind, data))])
    else s
  }

  /** `onStatusChange(callback)`: register it and report the current status to it at once. */
  function SubscribeSpec(s: ClientState, listener: nat): ClientState {
    s.(listeners := s.listeners + [listener], notes := s.notes + [Note(listener, s.status, None)])
  }

  /** The listeners other than `listener`, in order. */
  function Without(listeners: seq<nat>, listener: nat): (r: seq<nat>)
    ensures forall x :: x in r <==> x in listeners && x != listener
    ensures listener !in listeners ==> r == listeners
  {
    if listeners == [] then []
    else
      var rest := Without(listeners[..|listeners| - 1], listener);
      assert listeners == listeners[..|listeners| - 1] + [listeners[|listeners| - 1]];
      if listeners[|listeners| - 1] == listener then rest else rest + [listeners[|listeners| - 1]]
  }

  /** The function `onStatusChange` returns: remove that listener. */
  function UnsubscribeSpec(s: ClientState, listener: nat): ClientState {
    s.(listeners := Without(s.listeners, listener))
  }

  /** Everything that can happen to the client. */
  datatype Event =
    | ConnectTo(target: Addresses, port: int, token: string)
    | SocketOpened
    | Received(msg: Incoming)
    | SocketClosed
    | TimeoutFired
    | IntervalFired
    | DisconnectCalled
    | SendCalled(kind: string, data: Payload)
    | Subscribe(listener: nat)
    | Unsubscribe(listener: nat)

  /** An event can happen: socket events need a current socket in the right state, timer fires
      need the timer. */
  predicate Enabled(s: ClientState, e: Event) {
    match e
    case SocketOpened => s.ws.Some? && !s.ws.value.closed && !s.ws.value.open
    case Received(_) => s.ws.Some? && s.ws.value.open
    case SocketClosed => s.ws.Some? && !s.ws.value.closed
    case TimeoutFired => s.timeoutPending
    case IntervalFired => s.intervalRunning
    case _ => true
  }

  function Step(s: ClientState, e: Event, rejects: set<(string, int)>): ClientState
    requires Enabled(s, e)
  {
    match e
    case ConnectTo(target, port, token) => ConnectSpec(s, target, port, token, rejects)
    case SocketOpened => OpenSpec(s)
    case Received(m) => MessageSpec(s, m)
    case SocketClosed => ClosedSpec(s)
    case TimeoutFired => TimeoutSpec(s, rejects)
    case IntervalFired => IntervalSpec(s, rejects)
    case DisconnectCalled => DisconnectSpec(s)
    case SendCalled(kind, data) => SendSpec(s, kind, data)
    case Subscribe(l) => SubscribeSpec(s, l)
    case Unsubscribe(l) => UnsubscribeSpec(s, l)
  }

  /** The events that only touch the socket, the listeners or the wire keep the invariant. */
  lemma LocalStepKeepsInv(s: ClientState, e: Event, rejects: set<(string, int)>)
    requires Inv(s) && Enabled(s, e)
    requires !e.ConnectTo? && !e.TimeoutFired? && !e.IntervalFired?
    ensures Inv(Step(s, e, rejects))
  {
    if e.Received? {
      assert Step(s, e, rejects).ws == s.ws;
    } else if e.DisconnectCalled? {
      assert Step(s, e, rejects).ws == None;
    }
  }

  /** Every event keeps the invariant. */
  lemma StepKeepsInv(s: ClientState, e: Event, rejects: set<(string, int)>)
    requires Inv(s) && Enabled(s, e)
    ensures Inv(Step(s, e, rejects))
  {
    match e
    case ConnectTo(target, port, token) =>
      var ips := match target case Single(ip) => [ip] case List(l) => l;
      TryNextKeepsInv(s.(config := Some(Config(ips, port, token)), ipIndex := 0, connectedIp := None), rejects);
    case TimeoutFired =>
      if s.status == Connecting {
        TryNextKeepsInv(CloseSpec(s.(timeoutPending := false), true).(ipIndex := s.ipIndex + 1), rejects);
      }
    case IntervalFired =>
      if s.config.Some? && Truthy(s.connectedIp) {
        TryNextKeepsInv(s.(config := Some(s.config.value.(ips := [s.connectedIp.value])), ipIndex := 0), rejects);
      }
    case _ =>
      LocalStepKeepsInv(s, e, rejects);
  }

  lemma InitialInv()
    ensures Inv(Initial) && Initial.status == Disconnected
  {
  }

  /** `connect` with one address tries exactly that address; with a list, the first one that the
      WebSocket constructor accepts. The remembered address is forgotten. */
  lemma ConnectTriesInOrder(s: ClientState, target: Addresses, port: int, token: string,
                            rejects: set<(string, int)>)
    ensures var t := ConnectSpec(s, target, port, token, rejects);
      var ips := if target.Single? then [target.ip] else target.ips;
      && t.config == Some(Config(ips, port, token))
      && t.connectedIp == None
      && (forall k :: 0 <= k < t.ipIndex ==> Refused(Config(ips, port, token), k, rejects))
      && (t.ipIndex < |ips| ==> t.status == Connecting && t.ws.Some? && t.ws.value.ip == ips[t.ipIndex])
      && (t.ipIndex >= |ips| ==> t.status == Error && t.nextSocketId == s.nextSocketId)
      && (target.Single? && (target.ip, port) !in rejects ==>
            t.status == Connecting && t.ws.Some? && t.ws.value.ip == target.ip && t.ipIndex == 0)
  {
    var ips := match target case Single(ip) => [ip] case List(l) => l;
    var s0 := s.(config := Some(Config(ips, port, token)), ipIndex := 0, connectedIp := None);
    TryNextSkips(s0, rejects);
    TryNextOutcome(s0, rejects);
  }

  /** With no address left, `tryNextIp` reports the error and opens nothing. */
  lemma ExhaustedReportsError(s: ClientState, rejects: set<(string, int)>)
    requires s.config.Some? && s.ipIndex >= |s.config.value.ips|
    ensures var t := TryNextSpec(s, rejects);
      && t.status == Error && t.nextSocketId == s.nextSocketId && t.wire == s.wire
      && t.notes == s.notes + NotesFor(s.listeners, Error, Some(NoAddressLeft))
  {
  }

  /** A timeout advances the index by one (more only past refused addresses), and does nothing
      else unless the client is still connecting. */
  lemma TimeoutAdvances(s: ClientState, rejects: set<(string, int)>)
    requires Inv(s) && s.timeoutPending
    ensures var t := TimeoutSpec(s, rejects);
      && (s.status == Connecting ==>
            && t.ipIndex >= s.ipIndex + 1
            && (s.ipIndex + 1 < |s.config.value.ips|
                && (s.config.value.ips[s.ipIndex + 1], s.config.value.port) !in rejects
                ==> t.ipIndex == s.ipIndex + 1 && t.status == Connecting
                    && t.ws.Some? && t.ws.value.ip == s.config.value.ips[s.ipIndex + 1]))
      && (s.status != Connecting ==> t == s.(timeoutPending := false))
  {
    if s.status == Connecting {
      var s1 := CloseSpec(s.(timeoutPending := false), true).(ipIndex := s.ipIndex + 1);
      TryNextSkips(s1, rejects);
      TryNextOutcome(s1, rejects);
    }
  }

  /** An accepted authentication pins the address of the socket it came on and stops every
      retry. */
  lemma AuthOkPins(s: ClientState)
    requires s.ws.Some? && s.ws.value.open
    ensures var t := MessageSpec(s, AuthOkReply);
      && t.connectedIp == Some(s.ws.value.ip) && t.status == Connected
      && !t.timeoutPending && !t.intervalRunning
      && t.ipIndex == s.ipIndex && t.ws == s.ws && t.wire == s.wire
      && t.notes == s.notes + NotesFor(s.listeners, Connected, None)
  {
  }

  /** A rejected authentication stops the resolver where it is: the index stays, the timeout
      is cleared, and no socket is opened or closed. */
  lemma AuthErrorStops(s: ClientState, message: Option<string>)
    requires s.ws.Some? && s.ws.value.open
    ensures var t := MessageSpec(s, AuthErrorReply(message));
      && t == s.(timeoutPending := false, status := Error,
                 notes := s.notes + NotesFor(s.listeners, Error, message))
  {
  }

  /** After an error, nothing but `connect` or the reconnect interval opens another socket. */
  lemma ErrorIsFinal(s: ClientState, e: Event, rejects: set<(string, int)>)
    requires Enabled(s, e) && s.status == Error
    requires !e.ConnectTo? && !e.IntervalFired?
    ensures Step(s, e, rejects).nextSocketId == s.nextSocketId
  {
  }

  /** A drop of an authenticated connection reports `disconnected` and starts the reconnect
      interval unless one runs; any other close changes only the socket. The recorded address
      is tested for truthiness, so an empty one counts as none. */
  lemma CloseReconnects(s: ClientState)
    requires s.ws.Some? && !s.ws.value.closed && s.ws.value.closeHandler
    ensures var t := ClosedSpec(s);
      && t.ws == Some(s.ws.value.(open := false, closed := true))
      && (s.status == Connected && Truthy(s.connectedIp) ==>
            && t.status == Disconnected
            && t.intervalRunning == (s.intervalRunning || s.config.Some?)
            && t.notes == s.notes + NotesFor(s.listeners, Disconnected, None))
      && (!(s.status == Connected && Truthy(s.connectedIp)) ==> t == s.(ws := t.ws))
  {
  }

  /** The reconnect interval narrows the addresses to the one that worked and tries it; an
      empty recorded address is falsy and leaves the interval idle. */
  lemma IntervalNarrows(s: ClientState, rejects: set<(string, int)>)
    requires s.intervalRunning && s.config.Some? && Truthy(s.connectedIp)
    ensures var t := IntervalSpec(s, rejects);
      && t.config.value.ips == [s.connectedIp.value]
      && t.connectedIp == s.connectedIp
      && ((s.connectedIp.value, s.config.value.port) !in rejects ==>
            t.status == Connecting && t.ipIndex == 0 && t.ws.Some? && t.ws.value.ip == s.connectedIp.value)
      && ((s.connectedIp.value, s.config.value.port) in rejects ==> t.status == Error)
  {
    var s0 := s.(config := Some(s.config.value.(ips := [s.connectedIp.value])), ipIndex := 0);
    TryNextSkips(s0, rejects);
    TryNextOutcome(s0, rejects);
  }

  /** The remembered address changes only when an authentication is accepted (to the address of
      that socket) or when `connect` starts over (to none). */
  lemma ConnectedIpChangesOnlyOnAuth(s: ClientState, e: Event, rejects: set<(string, int)>)
    requires Enabled(s, e)
    ensures var t := Step(s, e, rejects);
      t.connectedIp != s.connectedIp ==>
        (e.ConnectTo? && t.connectedIp == None)
        || (e == Received(AuthOkReply) && t.connectedIp == Some(s.ws.value.ip))
  {
  }

  /** `disconnect` forgets the configuration, stops the interval and drops the socket. */
  lemma DisconnectResets(s: ClientState)
    ensures var t := DisconnectSpec(s);
      && t.config == None && !t.intervalRunning && t.ws == None && t.status == Disconnected
      && t.wire == s.wire + Hangups(s)
      && EndsWith(t.notes, NotesFor(s.listeners, Disconnected, None))
  {
  }

  /** `send` transmits exactly when the socket is open. */
  lemma SendOnlyWhenOpen(s: ClientState, kind: string, data: Payload)
    ensures var t := SendSpec(s, kind, data);
      && (s.ws.Some? && s.ws.value.open <==> t.wire != s.wire)
      && t == s.(wire := t.wire)
  {
  }

  /** A new listener hears the current status at once; unsubscribing removes that listener and
      no other. */
  lemma SubscribeThenUnsubscribe(s: ClientState, listener: nat)
    requires listener !in s.listeners
    ensures var t := SubscribeSpec(s, listener);
      && t.notes == s.notes + [Note(listener, s.status, None)]
      && UnsubscribeSpec(t, listener).listeners == s.listeners
  {
    var t := SubscribeSpec(s, listener);
    assert t.listeners[..|t.listeners| - 1] == s.listeners;
  }

  /** The client object. Its methods follow the source statement by statement; each is proved
      to make exactly the transition of the function above it. */
  class Client {
    /** The addresses and ports the WebSocket constructor refuses. */
    const rejects: set<(string, int)>

    var ws: Option<Socket>
    var status: Status
    var listeners: seq<nat>
    var notes: seq<Note>
    var intervalRunning: bool
    var config: Option<Config>
    var ipIndex: nat
    var connectedIp: Option<string>
    var timeoutPending: bool
    var nextSocketId: nat
    var wire: seq<Wire>

    function State(): ClientState
      reads this
    {
      ClientState(ws, status, listeners, notes, intervalRunning, config, ipIndex, connectedIp,
                  timeoutPending, nextSocketId, wire)
    }

    constructor (rejects: set<(string, int)>)
      ensures this.rejects == rejects && State() == Initial
    {
      this.rejects := rejects;
      ws, status, listeners, notes := None, Disconnected, [], [];
      intervalRunning, config, ipIndex, connectedIp := false, None, 0, None;
      timeoutPending, nextSocketId, wire := false, 0, [];
    }

    /** `setStatus`: record the status and call every listener with it. */
    method SetStatus(st: Status, message: Option<string>)
      modifies this
      ensures State() == SetStatusSpec(old(State()), st, message)
    {
      status := st;
      var heard := notes;
      for i := 0 to |listeners|
        invariant heard == old(notes) + NotesFor(listeners[..i], st, message)
      {
        heard := heard + [Note(listeners[i], st, message)];
        assert listeners[..i + 1][..i] == listeners[..i];
      }
      assert listeners[..|listeners|] == listeners;
      notes := heard;
    }

    /** Close the current socket, detaching its close handler first when `detach`. */
    method CloseCurrent(detach: bool)
      modifies this
      ensures State() == CloseSpec(old(State()), detach)
    {
      if ws.Some? {
        var w := ws.value;
        if !w.closed {
          wire := wire + [Hangup(w.id)];
        }
        ws := Some(w.(open := false, closed := true, closeHandler := w.closeHandler && !detach));
      }
    }

    /** Before constructing the socket: report `connecting` and close the previous socket with
        its close handler detached. */
    method PrepareAttempt()
      requires !timeoutPending
      modifies this
      ensures State() == Prepare(old(State()))
    {
      SetStatus(Connecting, None);
      CloseCurrent(true);
    }

    /** `new WebSocket(...)` succeeded: keep it and arm its timeout. */
    method OpenSocket(ip: string, c: Config)
      modifies this
      ensures State() == Dialed(old(State()), ip, c)
    {
      ws := Some(Socket(nextSocketId, ip, c.port, c.token, false, false, true));
      wire := wire + [Dial(nextSocketId, ip, c.port)];
      nextSocketId := nextSocketId + 1;
      timeoutPending := true;
    }

    method TryNextIp()
      modifies this
      decreases Untried(State())
      ensures State() == TryNextSpec(old(State()), rejects)
    {
      if config.None? {
        return;
      }
      ghost var s0 := State();
      timeoutPending := false;
      var c := config.value;
      if ipIndex >= |c.ips| {
        SetStatus(Error, Some(NoAddressLeft));
        assert State() == Exhausted(s0);
        return;
      }
      var ip := c.ips[ipIndex];
      PrepareAttempt();
      assert State() == Prepare(s0);
      if (ip, c.port) in rejects {
        assert TryNextSpec(s0, rejects) == TryNextSpec(Prepare(s0).(ipIndex := s0.ipIndex + 1), rejects);
        ipIndex := ipIndex + 1;
        assert State() == Prepare(s0).(ipIndex := s0.ipIndex + 1);
        TryNextIp();
        return;
      }
      assert TryNextSpec(s0, rejects) == Dialed(Prepare(s0), ip, c);
      OpenSocket(ip, c);
    }

    method Connect(target: Addresses, port: int, token: string)
      modifies this
      ensures State() == ConnectSpec(old(State()), target, port, token, rejects)
    {
      var ips := match target case Single(ip) => [ip] case List(l) => l;
      config := Some(Config(ips, port, token));
      ipIndex := 0;
      connectedIp := None;
      TryNextIp();
    }

    method OnOpen()
      requires ws.Some? && !ws.value.closed && !ws.value.open
      modifies this
      ensures State() == OpenSpec(old(State()))
    {
      ws := Some(ws.value.(open := true));
      wire := wire + [Transmit(ws.value.id, AuthRequest(ws.value.token))];
    }

    method OnMessage(m: Incoming)
      requires ws.Some? && ws.value.open
      modifies this
      ensures State() == MessageSpec(old(State()), m)
    {
      match m
      case AuthOkReply =>
        timeoutPending := false;
        connectedIp := Some(ws.value.ip);
        SetStatus(Connected, None);
        if intervalRunning {
          intervalRunning := false;
        }
      case AuthErrorReply(message) =>
        timeoutPending := false;
        SetStatus(Error, message);
      case OtherReply =>
    }

    method OnClose()
      requires ws.Some? && !ws.value.closed
      modifies this
      ensures State() == ClosedSpec(old(State()))
    {
      var handler := ws.value.closeHandler;
      ws := Some(ws.value.(open := false, closed := true));
      if handler && status == Connected && Truthy(connectedIp) {
        SetStatus(Disconnected, None);
        if config.Some? && !intervalRunning {
          intervalRunning := true;
        }
      }
    }

    method OnTimeout()
      requires timeoutPending
      modifies this
      ensures State() == TimeoutSpec(old(State()), rejects)
    {
      ghost var s1 := State().(timeoutPending := false);
      timeoutPending := false;
      if status == Connecting {
        CloseCurrent(true);
        assert State() == CloseSpec(s1, true);
        ipIndex := ipIndex + 1;
        assert State() == CloseSpec(s1, true).(ipIndex := s1.ipIndex + 1);
        TryNextIp();
      }
    }

    method OnInterval()
      requires intervalRunning
      modifies this
      ensures State() == IntervalSpec(old(State()), rejects)
    {
      if config.Some? && Truthy(connectedIp) {
        config := Some(config.value.(ips := [connectedIp.value]));
        ipIndex := 0;
        TryNextIp();
      }
    }

    method Disconnect()
      modifies this
      ensures State() == DisconnectSpec(old(State()))
    {
      if intervalRunning {
        intervalRunning := false;
      }
      config := None;
      if ws.Some? {
        CloseCurrent(false);
        ws := None;
      }
      SetStatus(Disconnected, None);
    }

    method Send(kind: string, data: Payload)
      modifies this
      ensures State() == SendSpec(old(State()), kind, data)
    {
      if ws.Some? && ws.value.open {
        wire := wire + [Transmit(ws.value.id, Input(kind, data))];
      }
    }

    method OnStatusChange(listener: nat)
      modifies this
      ensures State() == SubscribeSpec(old(State()), listener)
    {
      listeners := listeners + [listener];
      notes := notes + [Note(listener, status, None)];
    }

    method Unsubscribe(listener: nat)
      modifies this
      ensures State() == UnsubscribeSpec(old(State()), listener)
    {
      listeners := Without(listeners, listener);
    }
  }
}

=== FILE: pairing.dfy ===
/** The phone's pairing screen (mobile/app/index.tsx): it reads the desktop's QR payload,
    accepts the address list or the older single address, and connects once the payload names
    addresses, a port and a token. Camera, permissions, trial banner and navigation rendering
    are not modelled; the JSON object is given by the fields the handler reads. */
module Pairing {
  import opened Wrappers
  import P2PClient
  import RelayServer

  /** The fields of the scanned JSON object (None for an absent or null field). */
  datatype Payload = Payload(ips: Option<seq<string>>, ip: Option<string>, port: Option<int>,
                             token: Option<string>)

  /** A scanned code: text that is not a JSON object, or the object. */
  datatype Scan = Unreadable | Parsed(payload: Payload)

  /** `config.ips || (config.ip ? [config.ip] : null)`: an address list is always taken as
      it is, even when empty; a non-empty single address becomes a one-element list. */
  function AddressList(p: Payload): (ips: Option<seq<string>>)
    ensures p.ips.Some? ==> ips == p.ips
    ensures p.ips.None? && p.ip.Some? && p.ip.value != "" ==> ips == Some([p.ip.value])
    ensures ips.None? <==> p.ips.None? && (p.ip.None? || p.ip.value == "")
  {
    if p.ips.Some? then p.ips
    else if p.ip.Some? && p.ip.value != "" then Some([p.ip.value])
    else None
  }

  /** What the phone connects to.  */
  datatype Request = Request(ips: seq<string>, port: int, token: string)

  /** The request a payload yields: only when it has addresses, a non-zero port and a
      non-empty token. */
  function RequestOf(p: Payload): (r: Option<Request>)
    ensures r.Some? <==> AddressList(p).Some? && p.port.Some? && p.port.value != 0
                         && p.token.Some? && p.token.value != ""
    ensures r.Some? ==> r.value == Request(AddressList(p).value, p.port.value, p.token.value)
  {
    var ips := AddressList(p);
    if ips.Some? && p.port.Some? && p.port.value != 0 && p.token.Some? && p.token.value != "" then
      Some(Request(ips.value, p.port.value, p.token.value))
    else None
  }

  /** The JSON the desktop puts in its QR code, as the phone reads it. */
  function PayloadOf(info: RelayServer.ConnectionInfo): Payload {
    Payload(Some(info.ips), None, Some(info.port), Some(info.token))
  }

  /** Pairing round trip: the payload the desktop advertises is accepted as it stands, and the
      phone then dials the first advertised address the WebSocket constructor accepts. */
  lemma AdvertisedPayloadConnects(info: RelayServer.ConnectionInfo, s: P2PClient.ClientState,
                                  rejects: set<(string, int)>)
    requires info.port == RelayServer.Port && info.token != ""
    ensures RequestOf(PayloadOf(info)) == Some(Request(info.ips, RelayServer.Port, info.token))
    ensures var t := P2PClient.ConnectSpec(s, P2PClient.List(info.ips), info.port, info.token, rejects);
      info.ips != [] && (info.ips[0], info.port) !in rejects ==>
        t.status == P2PClient.Connecting && t.ws.Some? && t.ws.value.ip == info.ips[0]
        && t.ws.value.port == RelayServer.Port && t.ws.value.token == info.token
  {
    var s0 := s.(config := Some(P2PClient.Config(info.ips, info.port, info.token)), ipIndex := 0,
                 connectedIp := None);
    P2PClient.TryNextSkips(s0, rejects);
    P2PClient.TryNextOutcome(s0, rejects);
  }

  /** The screen's state: whether a code was accepted, and the client it connects. */
  class ConnectScreen {
    const client: P2PClient.Client
    var scanned: bool
    /** The screen has been replaced by the touchpad. */
    var onTouchpad: bool

    constructor (client: P2PClient.Client)
      ensures this.client == client && !scanned && !onTouchpad
    {
      this.client := client;
      scanned := false;
      onTouchpad := false;
    }

    /** `handleBarCodeScanned`: ignored once a code was accepted, and for codes that are not
        JSON or lack a field; otherwise mark scanned, connect, and go to the touchpad. */
    method HandleScan(scan: Scan)
      modifies this, client
      ensures old(scanned) || scan.Unreadable? || RequestOf(scan.payload).None? ==>
        scanned == old(scanned) && onTouchpad == old(onTouchpad) && unchanged(client)
      ensures !old(scanned) && scan.Parsed? && RequestOf(scan.payload).Some? ==>
        var r := RequestOf(scan.payload).value;
        && scanned && onTouchpad
        && client.State() == P2PClient.ConnectSpec(old(client.State()), P2PClient.List(r.ips),
                                                   r.port, r.token, client.rejects)
    {
      if scanned {
        return;
      }
      match scan
      case Unreadable =>
      case Parsed(config) =>
        var ips := AddressList(config);
        if ips.Some? && config.port.Some? && config.port.value != 0
           && config.token.Some? && config.token.value != "" {
          scanned := true;
          client.Connect(P2PClient.List(ips.value), config.port.value, config.token.value);
          onTouchpad := true;
        }
    }
  }
}

=== FILE: relay_contract.dfy ===
/** The line protocol between the relay and the native bridge, seen from both ends: every line
    that mouseControl.ts writes is decoded by InputController.cs into the intended calls. */
module RelayContract {
  import opened Text
  import opened MouseControl
  import opened BridgeProtocol

  /** Splitting a three-word line whose last two words carry no spaces. */
  lemma SplitThree(k: string, a: string, b: string)
    requires ' ' !in k && ' ' !in a && ' ' !in b
    ensures Split(k + " " + a + " " + b) == [k, a, b]
  {
    assert k + " " + a + " " + b == k + " " + (a + " " + b);
    SplitAfterWord(k, a + " " + b);
    SplitAfterWord(a, b);
    SplitWord(b);
  }

  lemma SplitTwo(k: string, a: string)
    requires ' ' !in k && ' ' !in a
    ensures Split(k + " " + a) == [k, a]
  {
    SplitAfterWord(k, a);
    SplitWord(a);
  }

  /** An `M` line with two space-free words moves the cursor when both parse. */
  lemma MoveWords(a: string, b: string)
    requires ' ' !in a && ' ' !in b
    ensures ProcessLine("M " + a + " " + b)
         == if ParseInt(a).Some? && ParseInt(b).Some?
            then [MoveCursorBy(ParseInt(a).value, ParseInt(b).value)] else []
  {
    assert "M " + a + " " + b == "M" + " " + a + " " + b;
    SplitThree("M", a, b);
  }

  /** An `M` line moves the cursor by exactly the emitted amounts, as long as both fit
      in the bridge's 32-bit integers; otherwise the bridge drops it. */
  lemma MoveLineDecodes(dx: int, dy: int)
    ensures ProcessLine(MoveLine(dx, dy))
         == if InInt32(dx) && InInt32(dy) then [MoveCursorBy(dx, dy)] else []
  {
    MoveWords(IntToString(dx), IntToString(dy));
    ParseIntToString(dx);
    ParseIntToString(dy);
  }

  /** The down and up flags the bridge uses for a button name of the relay. */
  function ButtonFlags(button: string): (int, int) {
    if button == "left" then (LeftDownFlag, LeftUpFlag)
    else if button == "right" then (RightDownFlag, RightUpFlag)
    else (MiddleDownFlag, MiddleUpFlag)
  }

  /** A `C` line presses and releases the named button; no click ever decodes to flag 0. */
  lemma ClickLineDecodes(button: string)
    ensures ProcessLine(ClickLine(button))
         == [MouseEvent(ButtonFlags(button).0, 0), MouseEvent(ButtonFlags(button).1, 0)]
    ensures ButtonFlags(button).0 != 0 && ButtonFlags(button).1 != 0
  {
    assert ClickLine(button) == "C" + " " + ButtonLetter(button);
    SplitTwo("C", ButtonLetter(button));
  }

  /** A `D` line presses the named button and nothing else. */
  lemma DownLineDecodes(button: string)
    ensures ProcessLine(DownLine(button)) == [MouseEvent(ButtonFlags(button).0, 0)]
  {
    assert DownLine(button) == "D" + " " + ButtonLetter(button);
    SplitTwo("D", ButtonLetter(button));
  }

  /** A `U` line releases the named button and nothing else. */
  lemma UpLineDecodes(button: string)
    ensures ProcessLine(UpLine(button)) == [MouseEvent(ButtonFlags(button).1, 0)]
  {
    assert UpLine(button) == "U" + " " + ButtonLetter(button);
    SplitTwo("U", ButtonLetter(button));
  }

  /** An `S` line with two space-free words: the vertical event when the first parses, then
      the horizontal one when the second parses too. */
  lemma ScrollWords(a: string, b: string)
    requires ' ' !in a && ' ' !in b
    ensures ProcessLine("S " + a + " " + b)
         == if ParseInt(a).None? then []
            else (if ParseInt(a).value != 0 then [MouseEvent(WheelFlag, ParseInt(a).value)] else [])
                 + (if ParseInt(b).Some? && ParseInt(b).value != 0
                    then [MouseEvent(HWheelFlag, ParseInt(b).value)] else [])
  {
    assert "S " + a + " " + b == "S" + " " + a + " " + b;
    SplitThree("S", a, b);
  }

  /** An `S` line gives a vertical wheel event for a non-zero vertical amount, then a
      horizontal one for a non-zero horizontal amount; an amount that does not fit in
      32 bits ends the command there. */
  lemma ScrollLineDecodes(dx: real, dy: real)
    ensures var sy := Round(dy * ScrollSensitivity);
            var sx := Round(dx * ScrollSensitivity);
      ProcessLine(ScrollLine(dx, dy))
        == if !InInt32(sy) then []
           else (if sy != 0 then [MouseEvent(WheelFlag, sy)] else [])
                + (if InInt32(sx) && sx != 0 then [MouseEvent(HWheelFlag, sx)] else [])
  {
    var sy := Round(dy * ScrollSensitivity);
    var sx := Round(dx * ScrollSensitivity);
    ScrollWords(IntToString(sy), IntToString(sx));
    ParseIntToString(sy);
    ParseIntToString(sx);
  }

  /** A `K` line passes its text whole, spaces included, to `SendKeys`, which reads it in its
      own key syntax. */
  lemma KeyLineDecodes(text: string)
    ensures ProcessLine(KeyLine(text)) == [SendKeys(text)]
  {
    SplitAfterWord("K", text);
    assert KeyLine(text) == "K" + " " + text;
    assert KeyLine(text)[2..] == text;
  }

  /** A line without breaks followed by a break ends where it does. */
  lemma {:induction false} LineEndAfter(w: string, rest: string)
    requires OneLine(w) && rest != [] && IsLineBreak(rest[0])
    ensures LineEnd(w + rest) == |w|
  {
    if w != [] {
      assert (w + rest)[1..] == w[1..] + rest;
      LineEndAfter(w[1..], rest);
    }
  }

  /** Lines without breaks come out of the pipe as they went in: the bridge reads back exactly
      the commands the control sent, one per `ReadLine`. */
  lemma {:induction false} PipeReadsBack(lines: seq<string>)
    requires forall i :: 0 <= i < |lines| ==> OneLine(lines[i])
    ensures ReadLines(Pipe(lines)) == lines
  {
    if lines != [] {
      var w, rest := lines[0], Pipe(lines[1..]);
      assert Pipe(lines) == w + ("\n" + rest);
      LineEndAfter(w, "\n" + rest);
      assert (w + ("\n" + rest))[|w| + 1..] == rest;
      assert ReadLine(Pipe(lines)) == (w, rest);
      PipeReadsBack(lines[1..]);
    }
  }

  /** A command without line breaks, sent alone, is handled by the bridge as that one line. */
  lemma SentLineDecodes(line: string)
    requires OneLine(line)
    ensures Replay(ReadLines(Pipe([line]))) == ProcessLine(line)
  {
    PipeReadsBack([line]);
    assert [line][1..] == [];
    assert Replay([line]) == ProcessLine(line) + Replay([]);
  }

  /** A `K` line reaches the bridge as a single line exactly when its text holds no line break;
      then the bridge passes that text whole to `SendKeys`. */
  lemma KeyLineArrives(text: string)
    ensures ReadLines(Pipe([KeyLine(text)])) == [KeyLine(text)] <==> OneLine(text)
    ensures OneLine(text) ==> Replay(ReadLines(Pipe([KeyLine(text)]))) == [SendKeys(text)]
  {
    var s := Pipe([KeyLine(text)]);
    assert [KeyLine(text)][1..] == [];
    assert s == KeyLine(text) + "\n" + Pipe([]);
    if OneLine(text) {
      PipeReadsBack([KeyLine(text)]);
      SentLineDecodes(KeyLine(text));
      KeyLineDecodes(text);
    } else {
      var j :| 0 <= j < |text| && IsLineBreak(text[j]);
      assert s[2 + j] == text[j];
      var r := ReadLine(s);
      assert |r.0| <= 2 + j;
      assert ReadLines(s)[0] == r.0;
    }
  }

  /** The bridge reads a `K` line whose text holds a line feed as two lines. */
  lemma KeyTextWithLineFeedSplits()
    ensures ReadLines(Pipe([KeyLine("a\nC L")])) == ["K a", "C L"]
  {
    var s := Pipe([KeyLine("a\nC L")]);
    assert s == "K a" + "\nC L\n";
    LineEndAfter("K a", "\nC L\n");
    assert s[4..] == "C L\n";
    assert ReadLine(s) == ("K a", "C L\n");
    LineEndAfter("C L", "\n");
    assert "C L\n" == "C L" + "\n";
    assert ReadLine("C L\n") == ("C L", "");
  }

  lemma ReplayTwo(a: string, b: string)
    ensures Replay([a, b]) == ProcessLine(a) + ProcessLine(b)
  {
    assert [a, b][1..] == [b];
    assert [b][1..] == [];
    assert Replay([b]) == ProcessLine(b) + Replay([]);
    assert Replay([a, b]) == ProcessLine(a) + Replay([b]);
  }

  /** A key text holding a line feed becomes two commands at the bridge: what follows the line
      feed is read as a command of its own, here a left click. */
  lemma KeyTextWithLineFeed()
    ensures Replay(ReadLines(Pipe([KeyLine("a\nC L")])))
         == [SendKeys("a"), MouseEvent(LeftDownFlag, 0), MouseEvent(LeftUpFlag, 0)]
  {
    KeyTextWithLineFeedSplits();
    var k, c := KeyLine("a"), ClickLine("left");
    assert k == "K a" && c == "C L";
    ReplayTwo(k, c);
    KeyLineDecodes("a");
    ClickLineDecodes("left");
    assert ProcessLine(k) + ProcessLine(c)
        == [SendKeys("a")] + [MouseEvent(LeftDownFlag, 0), MouseEvent(LeftUpFlag, 0)];
  }
}

=== FILE: relay_server.dfy ===
/** The desktop relay server (desktop/src/main/server.ts): the addresses it advertises for
    pairing, and the per-socket handler that admits a client by token and trial state and then
    dispatches its input commands to the shared mouse control.

    The network interfaces, the random token, the host name and the answers of the licensing
    checks are inputs. A parsed frame is the JSON object as far as the handler reads it. */
module RelayServer {
  import opened Wrappers
  import opened MouseControl

  /** The port the server listens on and advertises. */
  const Port: int := 4724
  /** The address advertised when the host has no external IPv4 address. */
  const Loopback: string := "127.0.0.1"
  /** The message of the rejection sent to a client with the right token once the trial is over. */
  const TrialExpiredMessage: string := "Trial Expired. Please Activate Pro."

  /** One address of a network interface, as `os.networkInterfaces()` lists it. */
  datatype Iface = Iface(family: string, internal: bool, address: string)

  predicate IsExternalV4(i: Iface) { i.family == "IPv4" && !i.internal }

  /** The external IPv4 addresses of one interface, in listing order. */
  function ExternalOf(list: seq<Iface>): seq<string> {
    if list == [] then []
    else ExternalOf(list[..|list| - 1])
         + (if IsExternalV4(list[|list| - 1]) then [list[|list| - 1].address] else [])
  }

  /** The external IPv4 addresses of all interfaces, interface by interface. */
  function ExternalAddresses(ifs: seq<(string, seq<Iface>)>): seq<string> {
    if ifs == [] then [] else ExternalAddresses(ifs[..|ifs| - 1]) + ExternalOf(ifs[|ifs| - 1].1)
  }

  /** The advertised address list: the external IPv4 addresses, or the loopback address
      when there are none. */
  function LocalIPs(ifs: seq<(string, seq<Iface>)>): (ips: seq<string>)
    ensures ips != []
  {
    var found := ExternalAddresses(ifs);
    if found != [] then found else [Loopback]
  }

  lemma {:induction false} ExternalOfMembers(list: seq<Iface>, a: string)
    ensures a in ExternalOf(list)
        <==> exists j :: 0 <= j < |list| && IsExternalV4(list[j]) && list[j].address == a
  {
    if list != [] {
      var init := list[..|list| - 1];
      ExternalOfMembers(init, a);
      if exists j :: 0 <= j < |list| && IsExternalV4(list[j]) && list[j].address == a {
        var j :| 0 <= j < |list| && IsExternalV4(list[j]) && list[j].address == a;
        if j < |list| - 1 {
          assert init[j] == list[j];
        }
      }
    }
  }

  /** An address is advertised from the interfaces exactly when some interface lists it as an
      external IPv4 address. */
  lemma {:induction false} ExternalAddressesMembers(ifs: seq<(string, seq<Iface>)>, a: string)
    ensures a in ExternalAddresses(ifs)
        <==> exists i, j :: 0 <= i < |ifs| && 0 <= j < |ifs[i].1|
                            && IsExternalV4(ifs[i].1[j]) && ifs[i].1[j].address == a
  {
    if ifs != [] {
      var init := ifs[..|ifs| - 1];
      var last := ifs[|ifs| - 1].1;
      ExternalAddressesMembers(init, a);
      ExternalOfMembers(last, a);
      if exists i, j :: 0 <= i < |ifs| && 0 <= j < |ifs[i].1|
                        && IsExternalV4(ifs[i].1[j]) && ifs[i].1[j].address == a {
        var i, j :| 0 <= i < |ifs| && 0 <= j < |ifs[i].1|
                    && IsExternalV4(ifs[i].1[j]) && ifs[i].1[j].address == a;
        if i < |ifs| - 1 {
          assert init[i] == ifs[i];
        }
      }
      if exists i, j :: 0 <= i < |init| && 0 <= j < |init[i].1|
                        && IsExternalV4(init[i].1[j]) && init[i].1[j].address == a {
        var i, j :| 0 <= i < |init| && 0 <= j < |init[i].1|
                    && IsExternalV4(init[i].1[j]) && init[i].1[j].address == a;
        assert ifs[i] == init[i];
      }
    }
  }

  /** Interfaces listed earlier contribute their addresses earlier. */
  lemma {:induction false} ExternalAddressesAppend(a: seq<(string, seq<Iface>)>, b: seq<(string, seq<Iface>)>)
    ensures ExternalAddresses(a + b) == ExternalAddresses(a) + ExternalAddresses(b)
  {
    if b == [] {
      assert a + b == a;
    } else {
      assert (a + b)[..|a + b| - 1] == a + b[..|b| - 1];
      ExternalAddressesAppend(a, b[..|b| - 1]);
    }
  }

  /** `getAllLocalIPs`: walk every interface and every address of it, collecting the
      external IPv4 ones. */
  method GetAllLocalIPs(interfaces: seq<(string, seq<Iface>)>) returns (ips: seq<string>)
    ensures ips == LocalIPs(interfaces)
  {
    ips := [];
    for i := 0 to |interfaces|
      invariant ips == ExternalAddresses(interfaces[..i])
    {
      var list := interfaces[i].1;
      for j := 0 to |list|
        invariant ips == ExternalAddresses(interfaces[..i]) + ExternalOf(list[..j])
      {
        if list[j].family == "IPv4" && !list[j].internal {
          ips := ips + [list[j].address];
        }
        assert list[..j + 1][..j] == list[..j];
      }
      assert list[..|list|] == list;
      assert interfaces[..i + 1][..i] == interfaces[..i];
    }
    assert interfaces[..|interfaces|] == interfaces;
    if |ips| == 0 {
      ips := [Loopback];
    }
  }

  /** The pairing payload the QR code carries. */
  datatype ConnectionInfo = ConnectionInfo(ips: seq<string>, port: int, token: string, name: string)

  /** `getConnectionInfo`: the current addresses, the fixed port, the session token and the
      host name. */
  method GetConnectionInfo(interfaces: seq<(string, seq<Iface>)>, token: string, hostname: string)
    returns (info: ConnectionInfo)
    ensures info == ConnectionInfo(LocalIPs(interfaces), Port, token, hostname)
    ensures info.ips != [] && info.port == Port
  {
    var ips := GetAllLocalIPs(interfaces);
    info := ConnectionInfo(ips, Port, token, hostname);
  }

  /** One frame received on a socket: `Unparsable` is text that `JSON.parse` rejects, or `null`
      (reading a field of it throws); any other JSON value is a `Message` with the fields the
      handler reads that it carries (None for an absent field, so every field is absent for a
      number, a boolean, a string or an array). */
  datatype Frame =
    | Unparsable
    | Message(kind: Option<string>, token: Option<string>, dx: real, dy: real,
              button: Option<string>, double: bool, key: Option<string>)

  /** A reply sent on the socket. */
  datatype Reply = AuthOk(pro: bool) | AuthError(message: Option<string>)

  /** The command types the dispatch switch knows. */
  const CommandKinds: set<string> := {"move", "click", "scroll", "mousedown", "mouseup", "keypress"}

  /** The type of message that makes a mouse-control call. */
  function CallKind(c: Call): string {
    match c
    case MoveCall(_, _) => "move"
    case ClickCall(_, _) => "click"
    case ScrollCall(_, _) => "scroll"
    case DownCall(_) => "mousedown"
    case UpCall(_) => "mouseup"
    case TypeCall(_) => "keypress"
  }

  /** `button || 'left'`: an absent or empty button name means the left button. */
  function ButtonOrLeft(button: Option<string>): (b: string)
    ensures b != ""
    ensures button.Some? && button.value != "" ==> b == button.value
  {
    if button.Some? && button.value != "" then button.value else "left"
  }

  /** The dispatch switch: the mouse-control call an authenticated message makes. A
      `keypress` without a key sends the text `undefined`, as the template literal does. */
  function Command(m: Frame): (call: Option<Call>)
    requires m.Message?
    ensures call.Some? <==> m.kind.Some? && m.kind.value in CommandKinds
    ensures call.Some? ==> CallKind(call.value) == m.kind.value
  {
    match m.kind
    case None => None
    case Some(kind) =>
      if kind == "move" then Some(MoveCall(m.dx, m.dy))
      else if kind == "click" then Some(ClickCall(m.button, m.double))
      else if kind == "scroll" then Some(ScrollCall(m.dx, m.dy))
      else if kind == "mousedown" then Some(DownCall(ButtonOrLeft(m.button)))
      else if kind == "mouseup" then Some(UpCall(ButtonOrLeft(m.button)))
      else if kind == "keypress" then Some(TypeCall(m.key.GetOr("undefined")))
      else None
  }

  /** `mousedown` and `mouseup` without a usable button name act on the left button. */
  lemma PressDefaultsToLeft(m: Frame)
    requires m.Message? && (m.button == None || m.button == Some(""))
    ensures m.kind == Some("mousedown") ==> Command(m) == Some(DownCall("left"))
    ensures m.kind == Some("mouseup") ==> Command(m) == Some(UpCall("left"))
  {
  }

  /** What the handler does with one frame. */
  datatype Handling = Handling(authenticated: bool, reply: Option<Reply>, close: bool,
                               call: Option<Call>, logged: bool)

  /** The message handler of one socket, given whether it is already authenticated, the
      server's token and the licensing answers at that moment. */
  function Handle(authenticated: bool, frame: Frame, token: string, trialExpired: bool, pro: bool)
    : (h: Handling)
    // admission: the right token while the trial runs, and nothing else
    ensures h.authenticated
        <==> authenticated
             || (frame.Message? && frame.kind == Some("auth") && frame.token == Some(token)
                 && !trialExpired)
    // no command is dispatched before authentication
    ensures h.call.Some? ==> authenticated && h.authenticated
    ensures authenticated && frame.Message? ==> h.call == Command(frame)
    // before authentication every parsed frame is answered; afterwards none is
    ensures h.reply.Some? <==> !authenticated && frame.Message?
    ensures h.reply.Some? && h.reply.value.AuthOk? <==> !authenticated && h.authenticated
    ensures h.reply.Some? && h.reply.value.AuthOk? ==> h.reply.value.pro == pro
    ensures h.reply == Some(AuthError(Some(TrialExpiredMessage)))
        <==> !authenticated && frame.Message? && frame.kind == Some("auth")
             && frame.token == Some(token) && trialExpired
    // every rejection closes the socket, and only a rejection does
    ensures h.close <==> h.reply.Some? && h.reply.value.AuthError?
    // a frame that does not parse is logged and changes nothing
    ensures h.logged <==> frame.Unparsable?
    ensures frame.Unparsable? ==> h == Handling(authenticated, None, false, None, true)
  {
    if frame.Unparsable? then Handling(authenticated, None, false, None, true)
    else if !authenticated then
      if frame.kind == Some("auth") && frame.token == Some(token) then
        if trialExpired then Handling(false, Some(AuthError(Some(TrialExpiredMessage))), true, None, false)
        else Handling(true, Some(AuthOk(pro)), false, None, false)
      else Handling(false, Some(AuthError(None)), true, None, false)
    else Handling(true, None, false, Command(frame), false)
  }

  /** The state the handler closes over for one socket. */
  class Connection {
    /** The mouse control shared by every connection. */
    const control: MouseControl
    /** The token of this server run. */
    const token: string
    var authenticated: bool
    /** `ws.close()` has been called. */
    var closeRequested: bool
    /** The replies sent, in order. */
    var replies: seq<Reply>
    /** Frames that failed to parse, each logged. */
    var errorsLogged: nat

    constructor (control: MouseControl, token: string)
      ensures this.control == control && this.token == token
      ensures !authenticated && !closeRequested && replies == [] && errorsLogged == 0
    {
      this.control := control;
      this.token := token;
      authenticated := false;
      closeRequested := false;
      replies := [];
      errorsLogged := 0;
    }

    /** The `message` handler: admit, reject, or dispatch one frame. */
    method OnMessage(frame: Frame, trialExpired: bool, pro: bool) returns (call: Option<Call>)
      requires control.Valid()
      modifies this, control
      ensures control.Valid()
      ensures var h := Handle(old(authenticated), frame, token, trialExpired, pro);
        && authenticated == h.authenticated
        && replies == old(replies) + (if h.reply.Some? then [h.reply.value] else [])
        && closeRequested == (old(closeRequested) || h.close)
        && errorsLogged == old(errorsLogged) + (if h.logged then 1 else 0)
        && call == h.call
      ensures call.Some? ==> control.Did(call.value)
      ensures call.None? ==> unchanged(control)
    {
      if frame.Unparsable? {
        errorsLogged := errorsLogged + 1;
        return None;
      }
      if !authenticated {
        if frame.kind == Some("auth") && frame.token == Some(token) {
          if trialExpired {
            replies := replies + [AuthError(Some(TrialExpiredMessage))];
            closeRequested := true;
            return None;
          }
          authenticated := true;
          replies := replies + [AuthOk(pro)];
        } else {
          replies := replies + [AuthError(None)];
          closeRequested := true;
        }
        return None;
      }
      call := Command(frame);
      if call.Some? {
        control.Perform(call.value);
      }
    }
  }
}

=== FILE: text.dfy ===
/** Character classes and the few string primitives of JavaScript that the system relies on:
    `toUpperCase`, `trim`, `parseInt` and the decimal rendering of an integer in a template literal. */
module Text {
  import opened Wrappers

  predicate IsAsciiLower(c: char) { 'a' <= c <= 'z' }
  predicate IsAsciiUpper(c: char) { 'A' <= c <= 'Z' }
  predicate IsDigit(c: char) { '0' <= c <= '9' }

  /** The regular-expression class [A-Z0-9]. */
  predicate IsUpperAlnum(c: char) { IsAsciiUpper(c) || IsDigit(c) }

  /** The uppercase form of one character under `String.prototype.toUpperCase`.
      Exact for every character whose uppercase form contains an ASCII letter: the
      ASCII letters, dotless i, long s, sharp s, the Latin ligatures and the
      letters whose uppercase form is an ASCII letter plus a combining mark. Every
      other character is kept as it is; its real uppercase form holds no ASCII
      letter or digit, so no rule of the system that looks at [A-Z0-9] can tell. The
      licence table is looked up by the uppercased key as well; every key in it is built
      from ASCII capitals, digits and dashes, so no lookup can tell either. */
  function UpperChar(c: char): string {
    if IsAsciiLower(c) then [(c as int - 32) as char]
    else if c == '\U{131}' then "I"                 // dotless i
    else if c == '\U{17F}' then "S"                 // long s
    else if c == '\U{DF}' then "SS"                 // sharp s
    else if c == '\U{FB00}' then "FF"
    else if c == '\U{FB01}' then "FI"
    else if c == '\U{FB02}' then "FL"
    else if c == '\U{FB03}' then "FFI"
    else if c == '\U{FB04}' then "FFL"
    else if c == '\U{FB05}' || c == '\U{FB06}' then "ST"
    else if c == '\U{149}' then "\U{2BC}N"
    else if c == '\U{1F0}' then "J\U{30C}"
    else if c == '\U{1E96}' then "H\U{331}"
    else if c == '\U{1E97}' then "T\U{308}"
    else if c == '\U{1E98}' then "W\U{30A}"
    else if c == '\U{1E99}' then "Y\U{30A}"
    else if c == '\U{1E9A}' then "A\U{2BE}"
    else [c]
  }

  /** Concatenation regroups freely. */
  lemma ConcatAssoc<T>(a: seq<T>, b: seq<T>, c: seq<T>)
    ensures a + (b + c) == a + b + c
  {
  }

  /** `s.toUpperCase()`: the uppercase forms of the characters, concatenated. */
  function Upper(s: string): string {
    if s == [] then [] else UpperChar(s[0]) + Upper(s[1..])
  }

  lemma {:induction false} UpperAppend(a: string, b: string)
    ensures Upper(a + b) == Upper(a) + Upper(b)
  {
    if a == [] {
      assert a + b == b;
    } else {
      assert (a + b)[1..] == a[1..] + b;
      UpperAppend(a[1..], b);
    }
  }

  /** Text made of [A-Z0-9] and dashes is its own uppercase form. */
  lemma {:induction false} UpperFixesUpperAlnum(s: string)
    requires forall i :: 0 <= i < |s| ==> IsUpperAlnum(s[i]) || s[i] == '-'
    ensures Upper(s) == s
  {
    if s != [] {
      UpperFixesUpperAlnum(s[1..]);
    }
  }

  lemma UpperCharIdempotent(c: char)
    ensures Upper(UpperChar(c)) == UpperChar(c)
  {
    var u := UpperChar(c);
    if |u| == 1 {
      assert Upper(u) == UpperChar(u[0]) + Upper([]);
    } else if |u| == 2 {
      assert Upper(u) == UpperChar(u[0]) + Upper(u[1..]);
      assert Upper(u[1..]) == UpperChar(u[1]) + Upper([]);
    } else {
      assert Upper(u) == UpperChar(u[0]) + Upper(u[1..]);
      assert Upper(u[1..]) == UpperChar(u[1]) + Upper(u[2..]);
      assert Upper(u[2..]) == UpperChar(u[2]) + Upper([]);
    }
  }

  /** Uppercasing twice is uppercasing once, so every check made on `toUpperCase()`
      of a text gives the same answer on the text and on its uppercase form. */
  lemma {:induction false} UpperIdempotent(s: string)
    ensures Upper(Upper(s)) == Upper(s)
  {
    if s != [] {
      UpperAppend(UpperChar(s[0]), Upper(s[1..]));
      UpperCharIdempotent(s[0]);
      UpperIdempotent(s[1..]);
    }
  }

  /** `n || d` on a stored number: NaN, absent and 0 fall back to `d`. */
  function NumOr(n: Option<int>, d: Option<int>): Option<int> {
    if n.Some? && n.value != 0 then n else d
  }

  /** A text that may be absent is truthy when present and not empty. */
  predicate Truthy(s: Option<string>) { s.Some? && s.value != "" }

  /** `s || d` on a stored text: absent and empty fall back to `d`. */
  function TextOr(s: Option<string>, d: string): string {
    if Truthy(s) then s.value else d
  }

  /** The characters `trim` removes: JavaScript's WhiteSpace and LineTerminator. */
  predicate IsJsWhitespace(c: char) {
    c == '\t' || c == '\n' || c == '\U{B}' || c == '\U{C}' || c == '\r' || c == ' '
    || c == '\U{A0}' || c == '\U{1680}' || ('\U{2000}' <= c <= '\U{200A}')
    || c == '\U{2028}' || c == '\U{2029}' || c == '\U{202F}' || c == '\U{205F}'
    || c == '\U{3000}' || c == '\U{FEFF}'
  }

  /** The number of whitespace characters that open `s`. */
  function LeadingWhitespace(s: string): (n: nat)
    ensures n <= |s|
    ensures forall k :: 0 <= k < n ==> IsJsWhitespace(s[k])
    ensures n < |s| ==> !IsJsWhitespace(s[n])
  {
    if s == [] || !IsJsWhitespace(s[0]) then 0 else 1 + LeadingWhitespace(s[1..])
  }

  /** The number of whitespace characters that close `s`. */
  function TrailingWhitespace(s: string): (n: nat)
    ensures n <= |s|
    ensures forall k :: |s| - n <= k < |s| ==> IsJsWhitespace(s[k])
    ensures n < |s| ==> !IsJsWhitespace(s[|s| - 1 - n])
  {
    if s == [] || !IsJsWhitespace(s[|s| - 1]) then 0 else 1 + TrailingWhitespace(s[..|s| - 1])
  }

  /** `s.trim()`: the text with the whitespace at both ends removed and its interior kept. */
  function Trim(s: string): (r: string)
    // a slice of `s` with only whitespace outside it
    ensures exists a, b ::
              && 0 <= a <= b <= |s| && r == s[a..b]
              && (forall k :: 0 <= k < a ==> IsJsWhitespace(s[k]))
              && (forall k :: b <= k < |s| ==> IsJsWhitespace(s[k]))
    // and no whitespace left at either end
    ensures r == [] || (!IsJsWhitespace(r[0]) && !IsJsWhitespace(r[|r| - 1]))
  {
    var n := LeadingWhitespace(s);
    var m := TrailingWhitespace(s[n..]);
    TrimmedSlice(s, n, m);
    s[n..][..|s| - n - m]
  }

  /** Cutting `m` characters off the end of `s[n..]` cuts them off the end of `s`. */
  lemma TrimmedSlice(s: string, n: nat, m: nat)
    requires n + m <= |s|
    requires forall k :: |s| - n - m <= k < |s| - n ==> IsJsWhitespace(s[n..][k])
    ensures s[n..][..|s| - n - m] == s[n..|s| - m]
    ensures forall k :: |s| - m <= k < |s| ==> IsJsWhitespace(s[k])
  {
    forall k | |s| - m <= k < |s|
      ensures IsJsWhitespace(s[k])
    {
      assert s[k] == s[n..][k - n];
    }
  }

  function DigitChar(d: nat): (c: char)
    requires d < 10
    ensures IsDigit(c)
  {
    ('0' as int + d) as char
  }

  /** Decimal digits of a natural number, as `${n}` renders it. */
  function NatToString(n: nat): (r: string)
    ensures |r| >= 1
    ensures forall i :: 0 <= i < |r| ==> IsDigit(r[i])
    ensures r[0] == '0' ==> n == 0 && r == "0"
  {
    if n < 10 then [DigitChar(n)] else NatToString(n / 10) + [DigitChar(n % 10)]
  }

  /** An integer as `${n}` renders it: a minus sign for negative numbers, then the digits. */
  function IntToString(n: int): (r: string)
    ensures ' ' !in r
  {
    if n < 0 then "-" + NatToString(-n) else NatToString(n)
  }

  predicate AllDigits(s: string) { forall i :: 0 <= i < |s| ==> IsDigit(s[i]) }

  /** The value of a string of decimal digits, most significant first. */
  function DigitsValue(s: string): nat
    requires AllDigits(s)
  {
    if s == [] then 0 else DigitsValue(s[..|s| - 1]) * 10 + (s[|s| - 1] as int - '0' as int)
  }

  lemma {:induction false} DigitsValueOfNat(n: nat)
    ensures AllDigits(NatToString(n)) && DigitsValue(NatToString(n)) == n
  {
    var s := NatToString(n);
    if n >= 10 {
      DigitsValueOfNat(n / 10);
      assert s[..|s| - 1] == NatToString(n / 10);
    }
  }

  /** The number of decimal digits that open `s`. */
  function DigitRun(s: string): (n: nat)
    ensures n <= |s|
    ensures forall k :: 0 <= k < n ==> IsDigit(s[k])
    ensures n < |s| ==> !IsDigit(s[n])
  {
    if s == [] || !IsDigit(s[0]) then 0 else 1 + DigitRun(s[1..])
  }

  /** `parseInt(s, 10)`: white space is skipped, then an optional sign, then the longest run
      of decimal digits is read; None stands for NaN, the result when no digit follows. */
  function JsParseInt(s: string): (r: Option<int>)
    ensures r.None? <==> DigitRun(JsDigitsAfterSign(s)) == 0
  {
    var t := s[LeadingWhitespace(s)..];
    var rest := JsDigitsAfterSign(s);
    var n := DigitRun(rest);
    if n == 0 then None
    else if t[0] == '-' then Some(-(DigitsValue(rest[..n]) as int))
    else Some(DigitsValue(rest[..n]))
  }

  /** What follows the white space and the optional sign at the head of `s`. */
  function JsDigitsAfterSign(s: string): string {
    var t := s[LeadingWhitespace(s)..];
    if |t| > 0 && (t[0] == '-' || t[0] == '+') then t[1..] else t
  }

  /** A rendered integer parses back to itself, so a number stored as text is read back
      unchanged. */
  lemma JsParseIntToString(n: int)
    ensures JsParseInt(IntToString(n)) == Some(n)
  {
    var s := IntToString(n);
    assert LeadingWhitespace(s) == 0 by {
      assert s[0] == '-' || IsDigit(s[0]);
    }
    var digits := if n < 0 then NatToString(-n) else NatToString(n);
    DigitsValueOfNat(if n < 0 then -n else n);
    assert JsDigitsAfterSign(s) == digits by {
      if n < 0 {
        assert s[1..] == digits;
      }
    }
    assert DigitRun(digits) == |digits|;
    assert digits[..|digits|] == digits;
  }

  /** Text without white space at either end is left alone by `trim`. */
  lemma TrimKeeps(s: string)
    requires s == [] || (!IsJsWhitespace(s[0]) && !IsJsWhitespace(s[|s| - 1]))
    ensures Trim(s) == s
  {
    assert s[0..] == s;
  }

  /** Trimming twice is trimming once. */
  lemma TrimIdempotent(s: string)
    ensures Trim(Trim(s)) == Trim(s)
  {
    TrimKeeps(Trim(s));
  }
}

=== FILE: touchpad.dfy ===
/** The phone's touchpad screen (mobile/app/touchpad.tsx): taps become clicks after a 200 ms
    window that counts them, a touch right after a tap starts a drag, pans become relative
    moves, and the on-screen keyboard applies shift and caps lock.

    Times are the `Date.now()` readings, given as parameters; each timer fire is a method. The
    screen's output is the sequence of requests it hands to the client (`client.move`,
    `client.click`, `client.send`, ...), each as the message type and data it sends. */
module Touchpad {
  import opened Text
  import opened P2PClient

  /** A request the screen hands to the client. */
  datatype Request = Request(kind: string, data: Payload)

  /** The window within which a touch after a tap starts a drag, and taps are counted together. */
  const TapWindow: int := 200
  /** The window within which a second shift tap toggles caps lock. */
  const ShiftWindow: int := 300
  const BackspaceKey: string := "{BACKSPACE}"

  // The requests, as the client's helpers build them.
  function MoveRequest(dx: real, dy: real): Request { Request("move", Delta(dx, dy)) }
  function ClickRequest(button: string): Request { Request("click", Press(button, false)) }
  function ScrollRequest(dx: real, dy: real): Request { Request("scroll", Delta(dx, dy)) }
  function TypeRequest(text: string): Request { Request("keypress", Key(text)) }
  const PressLeft: Request := Request("mousedown", Button("left"))
  const ReleaseLeft: Request := Request("mouseup", Button("left"))

  /** n left clicks. */
  function LeftClicks(n: nat): (r: seq<Request>)
    ensures |r| == n && forall i :: 0 <= i < n ==> r[i] == ClickRequest("left")
  {
    seq(n, i => ClickRequest("left"))
  }

  /** The moves a pan sends: each translation minus the previous one, starting from `start`. */
  function PanDeltas(start: real, ts: seq<real>): (r: seq<real>)
    ensures |r| == |ts|
    decreases |ts|
  {
    if ts == [] then [] else [ts[0] - start] + PanDeltas(ts[0], ts[1..])
  }

  function Sum(xs: seq<real>): real {
    if xs == [] then 0.0 else xs[0] + Sum(xs[1..])
  }

  /** The moves sent during one pan add up to its final translation: nothing is lost or
      counted twice, however the updates are spaced. */
  lemma {:induction false} PanDeltasTelescope(start: real, ts: seq<real>)
    ensures Sum(PanDeltas(start, ts)) == if ts == [] then 0.0 else ts[|ts| - 1] - start
    decreases |ts|
  {
    if ts != [] {
      PanDeltasTelescope(ts[0], ts[1..]);
    }
  }

  /** The shift and caps-lock state after a shift tap at `now`. */
  function ShiftTap(now: int, lastShiftTap: int, shift: bool, capsLock: bool): (r: (bool, bool))
    // a second tap within 300 ms toggles caps lock and releases shift
    ensures now - lastShiftTap < ShiftWindow ==> r == (false, !capsLock)
    // a lone tap releases caps lock if it is on, and otherwise toggles shift
    ensures now - lastShiftTap >= ShiftWindow && capsLock ==> r == (shift, false)
    ensures now - lastShiftTap >= ShiftWindow && !capsLock ==> r == (!shift, false)
  {
    if now - lastShiftTap < ShiftWindow then (false, !capsLock)
    else if capsLock then (shift, false)
    else (!shift, capsLock)
  }

  /** The text a key press types: a single lowercase letter is uppercased while shift or caps
      lock is on; anything else is sent as it is. */
  function KeyText(k: string, shift: bool, capsLock: bool): (t: string)
    ensures |t| == |k|
    ensures (shift || capsLock) && |k| == 1 && IsAsciiLower(k[0]) ==> t == Upper(k) && IsAsciiUpper(t[0])
    ensures !((shift || capsLock) && |k| == 1 && IsAsciiLower(k[0])) ==> t == k
  {
    if (shift || capsLock) && |k| == 1 && IsAsciiLower(k[0]) then
      assert Upper(k) == UpperChar(k[0]) + Upper(k[1..]);
      Upper(k)
    else k
  }

  /** The screen's refs and state. */
  class TouchpadScreen {
    var lastTapTime: int
    var isDragging: bool
    var clickTimerPending: bool
    var pendingClickCount: nat
    var lastX: real
    var lastY: real
    var scrollLastX: real
    var scrollLastY: real
    var shift: bool
    var capsLock: bool
    var lastShiftTap: int
    var holdTimerPending: bool
    var repeatRunning: bool
    /** The requests handed to the client, in order. */
    var sent: seq<Request>

    /** Taps are pending exactly while the click timer runs. */
    ghost predicate Valid()
      reads this
    {
      clickTimerPending <==> pendingClickCount > 0
    }

    constructor ()
      ensures Valid() && sent == [] && !isDragging && !clickTimerPending && lastTapTime == 0
      ensures !shift && !capsLock && lastShiftTap == 0 && !holdTimerPending && !repeatRunning
    {
      lastTapTime, isDragging, clickTimerPending, pendingClickCount := 0, false, false, 0;
      lastX, lastY, scrollLastX, scrollLastY := 0.0, 0.0, 0.0, 0.0;
      shift, capsLock, lastShiftTap := false, false, 0;
      holdTimerPending, repeatRunning := false, false;
      sent := [];
    }

    /** `checkAndStartDrag`: a touch within 200 ms of the last tap drops the pending clicks and
        presses the left button. */
    method CheckAndStartDrag(now: int)
      requires Valid()
      modifies this`clickTimerPending, this`pendingClickCount, this`isDragging, this`sent
      ensures Valid()
      ensures now - lastTapTime < TapWindow ==>
        !clickTimerPending && pendingClickCount == 0 && isDragging && sent == old(sent) + [PressLeft]
      ensures now - lastTapTime >= TapWindow ==>
        clickTimerPending == old(clickTimerPending) && pendingClickCount == old(pendingClickCount)
        && isDragging == old(isDragging) && sent == old(sent)
    {
      var timeSinceLastTap := now - lastTapTime;
      if timeSinceLastTap < TapWindow {
        if clickTimerPending {
          clickTimerPending := false;
        }
        pendingClickCount := 0;
        isDragging := true;
        sent := sent + [PressLeft];
      }
    }

    /** `endDrag`: release the button once; a second call sends nothing. */
    method EndDrag()
      modifies this`isDragging, this`sent
      ensures !isDragging
      ensures sent == old(sent) + (if old(isDragging) then [ReleaseLeft] else [])
    {
      if isDragging {
        isDragging := false;
        sent := sent + [ReleaseLeft];
      }
    }

    /** `handleTap`: count the tap and restart the single 200 ms timer. */
    method HandleTap(now: int)
      requires Valid()
      modifies this`lastTapTime, this`pendingClickCount, this`clickTimerPending
      ensures Valid()
      ensures lastTapTime == now && pendingClickCount == old(pendingClickCount) + 1 && clickTimerPending
    {
      lastTapTime := now;
      pendingClickCount := pendingClickCount + 1;
      clickTimerPending := true;
    }

    /** The click timer fires: send one left click per counted tap, unless a drag began. */
    method ClickTimerFires()
      requires Valid() && clickTimerPending
      modifies this`pendingClickCount, this`clickTimerPending, this`sent
      ensures Valid()
      ensures pendingClickCount == 0 && !clickTimerPending
      ensures sent == old(sent) + (if isDragging then [] else LeftClicks(old(pendingClickCount)))
    {
      var clicks := pendingClickCount;
      pendingClickCount := 0;
      clickTimerPending := false;
      if !isDragging {
        for i := 0 to clicks
          invariant pendingClickCount == 0 && !clickTimerPending && !isDragging
          invariant sent == old(sent) + LeftClicks(i)
        {
          sent := sent + [ClickRequest("left")];
        }
      }
    }

    /** The one-finger pan starts. */
    method PanStart(now: int)
      requires Valid()
      modifies this`lastX, this`lastY, this`clickTimerPending, this`pendingClickCount,
               this`isDragging, this`sent
      ensures Valid()
      ensures lastX == 0.0 && lastY == 0.0
      ensures now - lastTapTime < TapWindow ==>
        !clickTimerPending && pendingClickCount == 0 && isDragging && sent == old(sent) + [PressLeft]
      ensures now - lastTapTime >= TapWindow ==>
        clickTimerPending == old(clickTimerPending) && pendingClickCount == old(pendingClickCount)
        && isDragging == old(isDragging) && sent == old(sent)
    {
      lastX := 0.0;
      lastY := 0.0;
      CheckAndStartDrag(now);
    }

    /** A pan update: move by the change of translation since the previous update. */
    method PanUpdate(translationX: real, translationY: real)
      modifies this`lastX, this`lastY, this`sent
      ensures lastX == translationX && lastY == translationY
      ensures sent == old(sent) + [MoveRequest(translationX - old(lastX), translationY - old(lastY))]
    {
      var dx := translationX - lastX;
      var dy := translationY - lastY;
      lastX := translationX;
      lastY := translationY;
      sent := sent + [MoveRequest(dx, dy)];
    }

    /** The two-finger scroll starts. */
    method ScrollStart()
      modifies this`scrollLastX, this`scrollLastY
      ensures scrollLastX == 0.0 && scrollLastY == 0.0
    {
      scrollLastX := 0.0;
      scrollLastY := 0.0;
    }

    /** A two-finger scroll update: scroll by the change of translation. */
    method ScrollUpdate(translationX: real, translationY: real)
      modifies this`scrollLastX, this`scrollLastY, this`sent
      ensures scrollLastX == translationX && scrollLastY == translationY
      ensures sent == old(sent)
        + [ScrollRequest(translationX - old(scrollLastX), translationY - old(scrollLastY))]
    {
      var dx := translationX - scrollLastX;
      var dy := translationY - scrollLastY;
      scrollLastX := translationX;
      scrollLastY := translationY;
      sent := sent + [ScrollRequest(dx, dy)];
    }

    /** A two-finger tap is a right click. */
    method TwoFingerTap()
      modifies this`sent
      ensures sent == old(sent) + [ClickRequest("right")]
    {
      sent := sent + [ClickRequest("right")];
    }

    /** `handleShiftPress`. */
    method ShiftPress(now: int)
      modifies this`shift, this`capsLock, this`lastShiftTap
      ensures (shift, capsLock) == ShiftTap(now, old(lastShiftTap), old(shift), old(capsLock))
      ensures lastShiftTap == now
    {
      if now - lastShiftTap < ShiftWindow {
        capsLock := !capsLock;
        shift := false;
      } else {
        if capsLock {
          capsLock := false;
        } else {
          shift := !shift;
        }
      }
      lastShiftTap := now;
    }

    /** `sendKey`: type the key, uppercased under shift or caps lock; a one-shot shift is
        released after the letter it applied to. */
    method SendKey(k: string)
      modifies this`shift, this`sent
      ensures sent == old(sent) + [TypeRequest(KeyText(k, old(shift), capsLock))]
      ensures shift == (old(shift) && !((old(shift) || capsLock) && |k| == 1 && IsAsciiLower(k[0]) && !capsLock))
    {
      if (shift || capsLock) && |k| == 1 && IsAsciiLower(k[0]) {
        sent := sent + [TypeRequest(Upper(k))];
        if !capsLock {
          shift := false;
        }
      } else {
        sent := sent + [TypeRequest(k)];
      }
    }

    /** Backspace pressed: one backspace now, and the 800 ms hold timer armed. */
    method BackspacePressIn()
      modifies this`sent, this`holdTimerPending
      ensures sent == old(sent) + [TypeRequest(BackspaceKey)] && holdTimerPending
    {
      sent := sent + [TypeRequest(BackspaceKey)];
      holdTimerPending := true;
    }

    /** The hold timer fires: start repeating every 100 ms. */
    method HoldTimerFires()
      requires holdTimerPending
      modifies this`holdTimerPending, this`repeatRunning
      ensures !holdTimerPending && repeatRunning
    {
      holdTimerPending := false;
      repeatRunning := true;
    }

    /** The repeat interval fires: one more backspace. */
    method RepeatFires()
      requires repeatRunning
      modifies this`sent
      ensures sent == old(sent) + [TypeRequest(BackspaceKey)]
    {
      sent := sent + [TypeRequest(BackspaceKey)];
    }

    /** Backspace released: cancel both the hold timer and the repeat. */
    method BackspacePressOut()
      modifies this`holdTimerPending, this`repeatRunning
      ensures !holdTimerPending && !repeatRunning
    {
      if holdTimerPending {
        holdTimerPending := false;
      }
      if repeatRunning {
        repeatRunning := false;
      }
    }
  }
}

=== FILE: tray.dfy ===
/** The desktop tray popup (desktop/src/main/tray.ts): the licence key field's formatter, the
    popup's position next to the tray icon, the Activate button and the format check made
    before the online validation. Windows, HTML and the QR image are not modelled. */
module Tray {
  import opened Wrappers
  import opened Text
  import DesktopLicense

  // ---------------------------------------------------------------------------------------
  // Licence key field

  /** `replace(/[^A-Z0-9]/g, '')`: only the characters of [A-Z0-9] are kept, in order. */
  function KeepKeyChars(s: string): (r: string)
    ensures |r| <= |s|
    ensures forall i :: 0 <= i < |r| ==> IsUpperAlnum(r[i])
  {
    if s == [] then [] else (if IsUpperAlnum(s[0]) then [s[0]] else []) + KeepKeyChars(s[1..])
  }

  lemma {:induction false} KeepKeyCharsAppend(a: string, b: string)
    ensures KeepKeyChars(a + b) == KeepKeyChars(a) + KeepKeyChars(b)
  {
    if a == [] {
      assert a + b == b;
    } else {
      assert (a + b)[1..] == a[1..] + b;
      KeepKeyCharsAppend(a[1..], b);
    }
  }

  lemma {:induction false} KeepKeyCharsKeeps(s: string)
    requires forall i :: 0 <= i < |s| ==> IsUpperAlnum(s[i])
    ensures KeepKeyChars(s) == s
  {
    if s != [] {
      KeepKeyCharsKeeps(s[1..]);
    }
  }

  /** The characters in groups of four joined by dashes. */
  function Dashed(v: string): (r: string)
    ensures |v| <= |r| && 4 * |r| <= 5 * |v| - 1 + (if v == [] then 1 else 0)
  {
    if |v| <= 4 then v else v[..4] + "-" + Dashed(v[4..])
  }

  /** What the field shows after the user's input `value`: uppercased, stripped to [A-Z0-9],
      cut to 16 characters and grouped by four. */
  function FormatKey(value: string): string {
    FormatUpper(Upper(value))
  }

  /** The formatting after the uppercasing. */
  function FormatUpper(upper: string): string {
    var val := KeepKeyChars(upper);
    Dashed(val[..if |val| < 16 then |val| else 16])
  }

  /** One more character either just follows the dashed text or, after the 4th, 8th or 12th
      character, comes behind a new dash. */
  lemma {:induction false} DashedAppend(v: string, c: char)
    requires |v| < 16
    ensures Dashed(v + [c]) == Dashed(v) + (if |v| == 4 || |v| == 8 || |v| == 12 then "-" else "") + [c]
  {
    var w := v + [c];
    if |v| == 4 {
      assert w[..4] == v && w[4..] == [c];
    } else if |v| > 4 {
      assert w[..4] == v[..4] && w[4..] == v[4..] + [c];
      DashedAppend(v[4..], c);
    }
  }

  /** The grouping of the first i + 1 characters extends that of the first i. */
  lemma DashedStep(val: string, i: nat)
    requires i < |val| && i < 16
    ensures Dashed(val[..i + 1]) == Dashed(val[..i]) + (if i == 4 || i == 8 || i == 12 then "-" else "") + [val[i]]
  {
    DashedAppend(val[..i], val[i]);
    assert val[..i + 1] == val[..i] + [val[i]];
  }

  /** The field's `oninput` handler: the loop that rebuilds the field text. */
  method OnKeyInput(value: string) returns (formatted: string)
    ensures formatted == FormatKey(value)
  {
    var upper := Upper(value);
    var val := KeepKeyChars(upper);
    formatted := "";
    var i := 0;
    while i < |val| && i < 16
      invariant 0 <= i <= |val| && i <= 16
      invariant formatted == Dashed(val[..i])
    {
      DashedStep(val, i);
      if i == 4 || i == 8 || i == 12 {
        formatted := formatted + "-";
      }
      formatted := formatted + [val[i]];
      i := i + 1;
    }
    assert i == if |val| < 16 then |val| else 16;
  }

  /** The dashes are the only characters grouping adds. */
  lemma {:induction false} DashedKeys(v: string)
    requires forall i :: 0 <= i < |v| ==> IsUpperAlnum(v[i])
    ensures KeepKeyChars(Dashed(v)) == v
    ensures forall i :: 0 <= i < |Dashed(v)| ==> IsUpperAlnum(Dashed(v)[i]) || Dashed(v)[i] == '-'
  {
    if |v| <= 4 {
      KeepKeyCharsKeeps(v);
    } else {
      DashedKeys(v[4..]);
      KeepKeyCharsKeeps(v[..4]);
      KeepKeyCharsAppend(v[..4] + "-", Dashed(v[4..]));
      KeepKeyCharsAppend(v[..4], "-");
      assert KeepKeyChars("-") == [];
      assert v[..4] + v[4..] == v;
      var d := Dashed(v);
      assert d == v[..4] + "-" + Dashed(v[4..]);
      forall i | 0 <= i < |d|
        ensures IsUpperAlnum(d[i]) || d[i] == '-'
      {
        if i >= 5 {
          assert d[i] == Dashed(v[4..])[i - 5];
        }
      }
    }
  }

  /** The formatted key has at most 19 characters, all of [A-Z0-9] or dashes, and keeps the
      first 16 key characters of the input in order. */
  lemma FormatKeyShape(value: string)
    ensures var val := KeepKeyChars(Upper(value));
      var r := FormatKey(value);
      && |r| <= 19
      && (forall i :: 0 <= i < |r| ==> IsUpperAlnum(r[i]) || r[i] == '-')
      && KeepKeyChars(r) == val[..if |val| < 16 then |val| else 16]
  {
    var val := KeepKeyChars(Upper(value));
    DashedKeys(val[..if |val| < 16 then |val| else 16]);
  }

  /** Formatting what the field already shows changes nothing. */
  lemma FormatKeyIdempotent(value: string)
    ensures FormatKey(FormatKey(value)) == FormatKey(value)
  {
    var r := FormatKey(value);
    FormatKeyShape(value);
    UpperFixesUpperAlnum(r);
    var val := KeepKeyChars(Upper(value));
    var t := val[..if |val| < 16 then |val| else 16];
    assert KeepKeyChars(Upper(r)) == t;
    assert t[..|t|] == t;
  }

  /** A dash and a group of key characters after `a` add just the group. */
  lemma KeepKeyCharsDashed(a: string, g: string)
    requires forall i :: 0 <= i < |g| ==> IsUpperAlnum(g[i])
    ensures KeepKeyChars(a + "-" + g) == KeepKeyChars(a) + g
  {
    KeepKeyCharsAppend(a + "-", g);
    KeepKeyCharsAppend(a, "-");
    KeepKeyCharsKeeps(g);
    assert KeepKeyChars("-") == [];
    assert KeepKeyChars(a) + [] == KeepKeyChars(a);
  }

  /** Stripping a key in the valid format leaves the prefix and the three groups. */
  lemma KeyCharsOfKey(g1: string, g2: string, g3: string)
    requires DesktopLicense.IsKeyGroup(g1) && DesktopLicense.IsKeyGroup(g2)
    requires DesktopLicense.IsKeyGroup(g3)
    ensures KeepKeyChars("NXTH-" + g1 + "-" + g2 + "-" + g3) == "NXTH" + g1 + g2 + g3
  {
    KeepKeyCharsKeeps("NXTH");
    assert "NXTH-" == "NXTH" + "-";
    KeepKeyCharsDashed("NXTH", g1);
    KeepKeyCharsDashed("NXTH-" + g1, g2);
    KeepKeyCharsDashed("NXTH-" + g1 + "-" + g2, g3);
  }

  lemma DashedSplits(v: string)
    requires |v| > 4
    ensures Dashed(v) == v[..4] + "-" + Dashed(v[4..])
  {
  }

  /** Two groups of four are dashed as one dash between them. */
  lemma DashedTwo(a: string, b: string)
    requires |a| == 4 && 0 < |b|
    ensures Dashed(a + b) == a + "-" + Dashed(b)
  {
    DashedSplits(a + b);
    assert (a + b)[..4] == a && (a + b)[4..] == b;
  }

  /** Three groups of four are dashed as a dash between each. */
  lemma DashedThree(g1: string, g2: string, g3: string)
    requires |g1| == 4 && |g2| == 4 && |g3| == 4
    ensures Dashed(g1 + g2 + g3) == g1 + "-" + g2 + "-" + g3
  {
    ConcatAssoc(g1, g2, g3);
    DashedTwo(g1, g2 + g3);
    DashedTwo(g2, g3);
    ConcatAssoc(g1 + "-", g2 + "-", g3);
    ConcatAssoc(g1 + "-", g2, "-");
  }

  /** Grouping a prefix and three groups of four puts a dash between each. */
  lemma DashedKey(p: string, g1: string, g2: string, g3: string)
    requires |p| == 4 && |g1| == 4 && |g2| == 4 && |g3| == 4
    ensures Dashed(p + g1 + g2 + g3) == p + "-" + g1 + "-" + g2 + "-" + g3
  {
    var rest := g1 + g2 + g3;
    ConcatAssoc(p, g1 + g2, g3);
    ConcatAssoc(p, g1, g2);
    DashedTwo(p, rest);
    DashedThree(g1, g2, g3);
    var a := p + "-";
    ConcatAssoc(a, g1 + "-" + g2 + "-", g3);
    ConcatAssoc(a, g1 + "-" + g2, "-");
    ConcatAssoc(a, g1 + "-", g2);
    ConcatAssoc(a, g1, "-");
  }

  /** A key in the valid format is shown as its own uppercase form. */
  lemma ValidKeyFormatsToItself(key: string)
    requires DesktopLicense.IsValidKeyFormat(key)
    ensures FormatKey(key) == Upper(key)
  {
    PatternFormatsToItself(Upper(key));
  }

  lemma PatternFormatsToItself(u: string)
    requires DesktopLicense.MatchesKeyPattern(u)
    ensures FormatUpper(u) == u
  {
    DesktopLicense.PatternHasGroups(u);
    var g1, g2, g3 := u[5..9], u[10..14], u[15..];
    KeyCharsOfKey(g1, g2, g3);
    DashedKey("NXTH", g1, g2, g3);
    var val := "NXTH" + g1 + g2 + g3;
    assert KeepKeyChars(u) == val;
    assert val[..16] == val;
  }

  // ---------------------------------------------------------------------------------------
  // Activation

  /** What the Activate button sends: the trimmed field text, when there is any. */
  function ActivateClick(field: string): (sent: Option<string>)
    ensures sent.Some? <==> Trim(field) != ""
    ensures sent.Some? ==> sent.value == Trim(field)
  {
    var key := Trim(field);
    if key != "" then Some(key) else None
  }

  /** The main process's answer to `activate-license`: a refusal without any network traffic,
      or the online validation of the key. */
  datatype Activation = Refused(valid: bool, message: string) | CheckOnline(key: string)

  function ActivateLicense(key: string): (a: Activation)
    ensures a.CheckOnline? <==> DesktopLicense.IsValidKeyFormat(key)
    ensures a.CheckOnline? ==> a.key == key
    ensures a.Refused? ==> a == Refused(false, "Invalid key format")
  {
    if !DesktopLicense.IsValidKeyFormat(key) then Refused(false, "Invalid key format")
    else CheckOnline(key)
  }

  /** Typing a valid key in any case makes the button send its uppercase form, which goes on
      to the online check. */
  lemma TypedValidKeyGoesOnline(typed: string)
    requires DesktopLicense.IsValidKeyFormat(typed)
    ensures ActivateClick(FormatKey(typed)) == Some(Upper(typed))
    ensures ActivateLicense(Upper(typed)) == CheckOnline(Upper(typed))
  {
    ValidKeyFormatsToItself(typed);
    DesktopLicense.KeyFormatIgnoresCase(typed);
    var u := Upper(typed);
    assert u[0] == 'N' && IsUpperAlnum(u[18]);
    TrimKeeps(u);
  }

  /** Text of [A-Z0-9] and dashes shorter than a key is refused whenever it is sent. */
  lemma ShortTextIsRefused(r: string)
    requires |r| < 19
    requires forall i :: 0 <= i < |r| ==> IsUpperAlnum(r[i]) || r[i] == '-'
    ensures ActivateClick(r).Some? ==> ActivateLicense(ActivateClick(r).value).Refused?
  {
    UpperFixesUpperAlnum(r);
    if r != [] {
      assert !IsJsWhitespace(r[0]) && !IsJsWhitespace(r[|r| - 1]);
    }
    TrimKeeps(r);
  }

  /** A field holding fewer than 16 key characters is refused without going online. */
  lemma ShortKeyIsRefused(typed: string)
    requires |KeepKeyChars(Upper(typed))| < 16
    ensures ActivateClick(FormatKey(typed)).Some? ==>
              ActivateLicense(ActivateClick(FormatKey(typed)).value).Refused?
  {
    FormatKeyShape(typed);
    ShortTextIsRefused(FormatKey(typed));
  }

  // ---------------------------------------------------------------------------------------
  // Popup position

  const WindowWidth: int := 280
  const WindowHeight: int := 520
  const Margin: int := 10

  /** The tray icon's bounds. */
  datatype Bounds = Bounds(x: int, y: int, width: int, height: int)

  /** `Math.round(n / 2)`: halves round up. */
  function RoundHalf(n: int): (r: int)
    ensures n <= 2 * r <= n + 1
  {
    (n + 1) / 2
  }

  function Max(a: int, b: int): int { if a < b then b else a }
  function Min(a: int, b: int): int { if a < b then a else b }

  /** Where `showQRWindow` opens the popup on a work area of the given size. */
  function PopupPosition(workWidth: int, workHeight: int, tray: Option<Bounds>): (int, int) {
    if tray.None? then (workWidth - WindowWidth - Margin, workHeight - WindowHeight - Margin)
    else
      var x := RoundHalf(2 * tray.value.x - WindowWidth + tray.value.width);
      var y := tray.value.y - WindowHeight;
      (Max(Margin, Min(x, workWidth - WindowWidth - Margin)), Max(Margin, y))
  }

  /** Without tray bounds the popup sits in the bottom-right corner. With them it is centred
      above the icon, then pushed inside the margin on the left and the top, and on the right
      as long as the work area is wide enough for that. */
  lemma PopupStaysOnScreen(workWidth: int, workHeight: int, tray: Bounds)
    ensures var (x, y) := PopupPosition(workWidth, workHeight, Some(tray));
      var centred := RoundHalf(2 * tray.x - WindowWidth + tray.width);
      var right := workWidth - WindowWidth - Margin;
      && x >= Margin && y >= Margin
      && (Margin <= right ==> x <= right)
      && (Margin <= centred <= right ==> x == centred)
      && (2 * x == 2 * tray.x - WindowWidth + tray.width || 2 * x == 2 * tray.x - WindowWidth + tray.width + 1
          || x == Margin || x == right)
      && (y == tray.y - WindowHeight || y == Margin)
    ensures var (x, y) := PopupPosition(workWidth, workHeight, None);
      x + WindowWidth + Margin == workWidth && y + WindowHeight + Margin == workHeight
  {
  }
}

=== FILE: wrappers.dfy ===
/** Optional values: JavaScript's null/undefined, C#'s exceptions-as-absence, and NaN
    where a number could not be produced. */
module Wrappers {

  datatype Option<+T> = None | Some(value: T) {

    /** The value, or a default when there is none: JavaScript's `x ?? d`. The falsy fallback of
        `x || d` is `Text.NumOr` and `Text.TextOr`. */
    function GetOr(default: T): T {
      match this
      case Some(v) => v
      case None => default
    }
  }
}
